=== FILE: README.md ===
# catdv core, modelled in Dafny

catdv joins raw DV clips into one stream and exports it. The outputs are a
WAV file, a YUV4MPEG2 video stream, a subtitle file that shows each
recording date, and DVD menu material (a dvdauthor project and a KMF
project) with chapters and titles. This project models the logic at the
core of that program and proves properties of it:

- **DvFrame** (`dv_frame.dfy`) is the hand-written raw DV decoder of
  src/Frame.cpp, the branches compiled when libdv is absent. It
  locates subcode (SSYB), video-auxiliary (VAUX) and audio-auxiliary (AAUX)
  packs by DIF sequence, block and pack arithmetic, and decodes the BCD
  time code and recording date. It derives the audio parameters from AAUX
  pack 0x50 and spots a new recording from pack 0x51.
- **DvAudio** (`dv_audio.dfy`) holds the audio shuffle tables, the 12 to
  16 bit expansion table (compmap) and the per-rate bodies of the
  non-libdv `ExtractAudio`.
- **DvPicture** (`dv_picture.dfy`) holds the 1-2-1 vertical deinterlace
  filter and the packed 4:2:2 to planar 4:2:0 repack.
- **BufferedWriter** (`buffered_writer.dfy`) is `CBufferedWriter`, a
  10 MiB buffer in front of a file descriptor. The file is a byte array
  with a write offset. The device has a byte limit, so short writes can
  happen.
- **Wav** (`wav.dfy`) writes the 44-byte RIFF/WAVE PCM header, the 16-bit
  samples and the final patch of the two length fields.
- **YuvExtractor** (`yuv_extractor.dfy`) covers the YUV4MPEG2 stream
  header and aspect tags, and the frame record. It includes the 4:1:1
  repack, the fixed-point "crufty" RGB to YCbCr conversion and the
  extractor factory.
- **Misc** (`misc.dfy`) holds the file-name helpers `checkExt`,
  `dirSyntax`, `getDir` and `getFile`.
- **Clip** (`clip.dfy`) covers the `CClip` frame-range constructor, the
  similarity test, and `CClip::nextFrame`. In the source the read-ahead
  block of `nextFrame` lives in function statics shared by all clips; here
  it is an explicit value passed in and out. `CClipList` is also here:
  `addClip`, `check`, `nextFrame`, `reset` and `currentChapterName`.
- **Export** (`export.dfy`) holds the detectors inside
  `CClipList::output`. They cut subtitle cues wherever the recording date
  changes, track the start and end dates, and place chapter and title
  marks. Small string helpers come along: `onlyDate`, `onlyTime`, the
  menu title, `toString(chapters)` and `toPath`. Each detector is a pure
  step function over one served frame.
- **Common** (`common.dfy`) holds shared helpers: `Option`, bytes, decimal
  printing and parsing, and split/join.

Integer widths are written out where they matter:

- the writer's `pos + size` test is done in 32-bit unsigned arithmetic;
- the WAV length fields wrap as `uint32`;
- header fields are truncated to `int16`/`uint32`;
- a chroma value is stored into a `uint8_t`.

Assumptions about the C++ source:

- the host is little-endian, as the 32 kHz sample read assumes;
- the operands of a `+` of write results are evaluated left to right;
- pointers are 8 bytes, so the WAV constructor's `memset` of
  `sizeof(WAVHeader)` (a pointer typedef, src/Wav.h:44) clears the first
  eight bytes of the header. On a host with 4-byte pointers only the RIFF
  tag would be cleared; `Wav.SetInfoOverwritesAll` shows the output does
  not depend on it.

Two table facts matter for the audio model:

- The shuffle tables have 2000 entries, but the constructor fills only
  1944 (PAL) or 1620 (NTSC) of them. The rest stay zero.
- A 48 kHz PAL frame can report up to 1959 samples. Samples 1944 to 1959
  therefore read bytes 0 and 1 of the frame, and the model says so.
- NTSC has the same gap: a 48 kHz NTSC frame can report up to
  1580 + 63 = 1643 samples against 1620 filled entries, so samples 1620 to
  1642 read bytes 0 and 1 as well.

## Model

| member | source | states |
|---|---|---|
| DvFrame.IsPALMatchesMask | src/Frame.cpp:633-643 | a frame is PAL exactly when bit 0x80 of byte 3 (the DSF flag) is set; the comparison and the mask test agree |
| DvFrame.FrameSize | src/Frame.cpp:609-612 | the frame size is 12 DIF sequences of 12000 bytes (144000) for PAL and 10 (120000) for NTSC |
| DvFrame.FrameRate | src/Frame.cpp:621-624 | PAL runs at exactly 25 frames per second, NTSC at exactly 30000/1001 |
| DvFrame.OffsetInFrame | src/Frame.cpp:206-225 | every subcode, VAUX and AAUX pack address the three scans form, plus its four payload bytes, lies inside the frame size of the system being scanned |
| DvFrame.FindFrom | src/Frame.cpp:210-240 | the nested sequence/block/pack scan resumed at (i, j, k) returns a matching location not before (i, j, k), and no location between (i, j, k) and the result (or the end) matches |
| DvFrame.Find | src/Frame.cpp:210-240 | the scan from the start returns the first location, in sequence/block/pack order, whose id byte equals the pack number, and none only when no location matches |
| DvFrame.GetPack | src/Frame.cpp:218-240 | a pack is returned exactly when some in-range location carries the id; it is the five bytes at the first such location and its byte 0 is the id |
| DvFrame.GetSSYBPack | src/Frame.cpp:197-242 | found iff one of the 12 (PAL) or 10 sequences x 2 blocks x 6 packs at i*12000+80+j*80+3+k*8+3 carries the id; the pack is the five bytes at the first such location in sequence, block and pack order, so its byte 0 is the id |
| DvFrame.GetVAUXPack | src/Frame.cpp:256-308 | found iff one of the sequences x 3 blocks x 15 packs at i*12000+240+j*80+3+k*5 carries the id; the pack is the five bytes at the first such location in scan order, so its byte 0 is the id |
| DvFrame.GetAAUXPack | src/Frame.cpp:321-381 | found iff one of the sequences x 9 audio blocks at i*12000+480+j*1280+3 carries the id; the pack is the five bytes at the first such location in scan order, so its byte 0 is the id |
| DvFrame.FirstSlotWins | src/Frame.cpp:218-237 | when the very first pack of a section carries the id, that pack is the one returned |
| DvFrame.Bcd | src/Frame.cpp:414-419 | a BCD field is at most 15 + 10 * the tens mask |
| DvFrame.BcdRoundTrip | src/Frame.cpp:414-419 | any two-digit value whose tens digit fits the mask decodes back from its BCD byte |
| DvFrame.DecodeTimeCode | src/Frame.cpp:501-509 | the four timecode fields use tens masks 0x3 (frame), 0x7 (sec), 0x7 (min) and 0x3 (hour), which bounds them |
| DvFrame.GetTimeCode | src/Frame.cpp:484-512 | absent exactly when no subcode location carries pack 0x13; otherwise the BCD decoding of the first 0x13 pack in scan order |
| DvFrame.TimeCodeRoundTrip | src/Frame.cpp:501-509 | every valid timecode written as a 0x13 pack decodes back to itself |
| DvFrame.RecordedTimeCode | src/Frame.cpp:484-512 | a frame whose first subcode pack is a recorded timecode reports exactly that timecode |
| DvFrame.FullYear | src/Frame.cpp:421-424 | every two-digit year lands in 1925..2024 and keeps its last two digits; a BCD year of 100 or more, which the 0xf tens mask lets through, is taken as 1900 + year |
| DvFrame.GetRecordingDate | src/Frame.cpp:392-442 | present exactly when some subcode location carries pack 0x62 and some carries 0x63; the date then decodes the first 0x62 pack and the first 0x63 pack in scan order |
| DvFrame.YearWindow | src/Frame.cpp:417-431 | the two-digit year window recovers every year from 1925 to 2024 |
| DvFrame.DateRoundTrip | src/Frame.cpp:403-431 | every recordable date and time between 1925 and 2024 written as 0x62/0x63 packs decodes back to itself |
| DvFrame.ApplySourcePack | src/Frame.cpp:549-585 | the 0x20 flag of byte 3 picks 60 or 50 frames; the SMP code picks 48000, 44100 or 32000 Hz with sample count minimum + AF_SIZE (44.1 kHz at 50 fields gives 0); an SMP code above 2 leaves frequency and samples as they were |
| DvFrame.GetAudioInfo | src/Frame.cpp:522-591 | channels is always set to 2; the result is true exactly when AAUX pack 0x50 is present, and without it nothing else changes; with it, frames, frequency and samples are those decoded from the first 0x50 pack in scan order, and quantization is kept |
| DvFrame.RecordedAudioInfo | src/Frame.cpp:538-589 | a frame whose first AAUX slot holds a 0x50 pack with a known sampling code reports 50 or 60 fields, 48000/44100/32000 Hz and the tabulated sample count plus AF_SIZE, read from that pack |
| DvFrame.SourcePackTable | src/Frame.cpp:553-585 | the nested branches agree with a flat table of the six (field rate, SMP) sample minimums and frequencies |
| DvFrame.SamplesBound | src/Frame.cpp:549-585 | a decoded sample count never exceeds 1896 + 63 = 1959 |
| DvFrame.IsNewRecording | src/Frame.cpp:653-669 | a frame without AAUX pack 0x51 is never a new recording |
| DvFrame.IsNewRecordingMatchesMask | src/Frame.cpp:658-667 | a new recording is exactly a present 0x51 pack whose byte 2 has bit 0x80 clear |
| DvAudio.Filled | src/Frame.cpp:120-135 | the constructor fills 36 repetitions of the shuffle period: 1944 PAL entries and 1620 NTSC entries |
| DvAudio.SequenceOf | src/Frame.cpp:121-123 | the first channel's DIF sequence lies in the first half (0..5 PAL, 0..4 NTSC) and the second channel's in the second half |
| DvAudio.AudioBlockOf | src/Frame.cpp:124-126 | the audio block index 3*(n%3) + (n%54)/18 (or (n%45)/15) is one of the nine audio blocks |
| DvAudio.ByteOf | src/Frame.cpp:128-131 | the byte of a sample inside its block starts at 8 and stays inside the 80-byte block for 16-bit audio |
| DvAudio.TwoChannelOffset | src/Frame.cpp:128-132 | each 12-bit (2ch) table entry equals the matching 16-bit entry plus n/54 (PAL) or n/45 (NTSC) |
| DvAudio.MapEntryInFrame | src/Frame.cpp:80-88 | every one of the 2000 entries of every table, and the byte after it, lies inside the frame of the table's system |
| DvAudio.EntryParts | src/Frame.cpp:119-148 | a filled 16-bit entry splits back into its DIF sequence, its block 6 + 16*a and its byte |
| DvAudio.SampleInAudioData | src/Frame.cpp:119-148 | a 16-bit sample lies in an audio block (every 16th block from 6), in bytes 8..79 after the block ID and the AAUX pack |
| DvAudio.Decompose | src/Frame.cpp:119-148 | a sample number splits into repetition, block of the triple, step and phase in the mixed radix the table formula reads it in |
| DvAudio.MapEntryInjective | src/Frame.cpp:119-148 | the 16-bit tables send distinct samples of one channel to distinct frame positions |
| DvAudio.CompMap | src/Frame.cpp:149-166 | the 12-bit expansion table holds 16-bit values |
| DvAudio.CompMapIdentity | src/Frame.cpp:163-164 | codes 0..0x1ff expand to themselves |
| DvAudio.CompMapMirror | src/Frame.cpp:165-166 | a code y >= 0x800 expands to -1 - compmap[0xfff - y], which is negative |
| DvAudio.CompMapStep | src/Frame.cpp:149-164 | consecutive codes below 0x7ff expand to strictly increasing values |
| DvAudio.CompMapIncreasing | src/Frame.cpp:149-164 | on 0..0x7ff the table is strictly increasing, from 0 up to at most 32704 |
| DvAudio.CompMapSigned | src/Frame.cpp:149-166 | read as two's complement 12-bit codes, all 4096 entries are strictly increasing |
| DvAudio.CompIndexInTable | src/Frame.cpp:725-727 | both compmap indices the 32 kHz path forms from a byte pair are below 4096 |
| DvAudio.LittleEndian16 | src/Frame.cpp:723-727 | a 16-bit sample stored through a short pointer is two bytes, low byte first, holding its two's complement value |
| DvAudio.LinearSample | src/Frame.cpp:747-759 | a 44.1/48 kHz sample is four bytes: for each channel in turn, the big-endian 16-bit word at its table entry (data[m], data[m+1]) becomes a little-endian word |
| DvAudio.CompressedSample | src/Frame.cpp:722-737 | as written: a 32 kHz sample is two expanded 12-bit codes read from only the two bytes data[m] and data[m+1] of the 2ch1 entry, byte m+1 supplying both the second high byte and both low nibbles; four bytes in all |
| DvAudio.Pack12RoundTrip | src/Frame.cpp:128-132 | two 12-bit codes stored in three bytes (high bytes, then the low nibbles) read back as the same two codes; the 12-bit table entries advance three bytes per sample pair |
| DvAudio.LowNibblesMisread | src/Frame.cpp:725-727 | reading byte m+1 again in place of the low nibble byte recovers a stored pair exactly when those two bytes are equal; codes 1 and 0 come back as 0 and 0 |
| DvAudio.CorrectedSampleRoundTrip | src/Frame.cpp:722-737 | reading the low nibbles from byte m+2, every pair stored as the table lays it out decodes to the two expanded codes, first code first |
| DvAudio.ConcatGroups | src/Frame.cpp:724-759 | concatenating n four-byte sample groups gives 4n bytes whose group m is sample m |
| DvAudio.ExtractSamples | src/Frame.cpp:724-759 | the output loop emits the sample groups 0 .. total-1 in order, and nothing for a non-positive total |
| DvAudio.ExtractAudio | src/Frame.cpp:693-775 | group n of the output is sample n of the frame at its decoded rate; a rate other than 32, 44.1 or 48 kHz gives 0 samples; the result is samples * channels * 2, the output length when non-negative |
| DvPicture.Blend | src/Frame.cpp:1101 | the filter value is (above + 2*centre + below) >> 2, the floor of a quarter of the weighted sum |
| DvPicture.BlendBetween | src/Frame.cpp:1073-1081 | a blended byte lies between the smallest and largest of its three inputs, so a uniform column is unchanged |
| DvPicture.Deinterlace | src/Frame.cpp:1083-1112 | into a separate buffer: line 0 is copied, each inner line y is the 1-2-1 blend of source lines y-1, y, y+1, and the last line receives source line h-2 |
| DvPicture.DeinterlaceCorrected | src/Frame.cpp:1077-1081 | the filter its description promises: first and last lines pass through unfiltered |
| DvPicture.DeinterlaceInPlace | src/Frame.cpp:869-875 | the call with destination equal to source: each inner line blends the previous OUTPUT line, and the last line copies output line h-2 |
| DvPicture.LastLineNotKept | src/Frame.cpp:1110-1111 | a three-line picture (black, black, white) loses its white last line under the filter as written: into a separate buffer it becomes black, and in place, as the program calls it, it becomes 63; the described filter keeps it |
| DvPicture.InPlaceDiffers | src/Frame.cpp:869-875 | filtering in place gives a different picture from filtering into a separate buffer |
| DvPicture.UniformPictureFixed | src/Frame.cpp:1077-1081 | a picture whose lines are all equal passes through the described filter unchanged |
| DvPicture.ExtractYUV420 | src/Frame.cpp:1028-1054 | from Y U Y V lines of 2w bytes: every Y byte lands in the Y plane in order, Cb and Cr come only from even lines, and the planes are h x w, h/2 x w/2, h/2 x w/2 |
| DvPicture.ChromaLine | src/Frame.cpp:1037-1044 | the first line of a pair gives 2*w2 Y bytes and w2 bytes each of Cb and Cr, from positions 4j+1 and 4j+3 |
| DvPicture.LumaLine | src/Frame.cpp:1046-1053 | the second line of a pair gives only its 2*w2 Y bytes |
| DvPicture.PlaneSizes | src/Frame.cpp:1028-1054 | the planes hold w*h luma bytes and w*h/4 bytes of each chroma component |
| BufferedWriter.OsWrite | src/BufferedWriter.cpp:41 | a write system call on an open descriptor stores a prefix of the bytes at the file position and advances it by the count returned, all of them when the device has room; on a closed descriptor it returns -1 and stores nothing |
| BufferedWriter.PutPut | src/BufferedWriter.cpp:27-55 | writing one block and then another right after it leaves the file as writing their concatenation |
| BufferedWriter.Create | src/BufferedWriter.cpp:11-17 | "-" selects standard output, which is open; any other name starts an empty file whose descriptor is open exactly when the open call succeeds; the buffer starts empty |
| BufferedWriter.Flush | src/BufferedWriter.cpp:48-55 | an empty buffer issues no system call and succeeds; otherwise exactly one write of the whole buffer; success iff the buffer is emptied, in which case the file as it will read and the cursor are unchanged; a short write keeps the buffer |
| BufferedWriter.WriteByte | src/BufferedWriter.cpp:27-33 | when pos+1 >= capacity the buffer is flushed first and a failed flush refuses the byte; an accepted byte is appended, lands at the cursor, and the position stays below capacity |
| BufferedWriter.Store | src/BufferedWriter.cpp:40-45 | a block larger than the capacity is one direct system call, reporting whether every byte was taken; any other block is appended to the buffer and always succeeds |
| BufferedWriter.WriteBytes | src/BufferedWriter.cpp:35-46 | the flush test is pos + size >= capacity in 32-bit unsigned arithmetic; with no wrap-around an accepted block lands at the cursor and the cursor advances by its length |
| BufferedWriter.WriteBytesChecked | src/BufferedWriter.cpp:35-46 | the write with the capacity test done without wrap-around: every accepted block lands at the cursor, and it agrees with the original whenever the sum does not wrap |
| BufferedWriter.WrappedWriteReorders | src/BufferedWriter.cpp:37-41 | one buffered byte then a block of 2^32-1 bytes: the sum wraps to 0, the flush is skipped, and the block reaches the file before the byte that was written first |
| BufferedWriter.SeekToStart | src/BufferedWriter.cpp:57-60 | refused for "-" without flushing; otherwise succeeds iff the flush succeeds and the descriptor is valid, leaving the cursor at 0 over the flushed file |
| BufferedWriter.Destroy | src/BufferedWriter.cpp:19-25 | the destructor flushes (the file then holds every buffered byte) and closes the descriptor unless the name is "-" |
| BufferedWriter.WriteAll | src/BufferedWriter.cpp:27-55 | block after block through `write`, stopping at the first refusal; a run of accepted writes leaves the file as if the concatenation of the blocks had been written at the starting cursor, so bytes reach the output in call order |
| BufferedWriter.WriteSucceedsWithRoom | src/BufferedWriter.cpp:35-55 | on an open descriptor with room on the device, every block smaller than the buffer is accepted |
| BufferedWriter.FillThenOverflow | src/BufferedWriter.cpp:37-45 | capacity-1 bytes then 2 more: the first block issues no system call, the second triggers exactly one write of capacity-1 bytes and is then buffered |
| BufferedWriter.RewriteFromStart | src/BufferedWriter.cpp:57-60 | after a successful seekToStart the next accepted block overwrites the file from offset 0 |
| Clip.FrameRate | src/Clip.cpp:48-49 | PAL's 25 fps agrees with the DV frame rate, while NTSC's 29.97 differs from the DV rate 30000/1001 by less than a hundredth |
| Clip.SimilarByNames | src/Clip.cpp:199-202 | two clips are similar exactly when their printed system ("pal"/"ntsc") and aspect ("4:3"/"16:9") names agree, which makes similarity an equivalence |
| Clip.Construct | src/Clip.cpp:168-197 | an unreadable file leaves length -1; bounds both non-negative are kept and give length to-from+1 exactly when from*frameSize and to*frameSize are both at most the file size; a negative bound selects from=0 and to=length=fileSize/frameSize |
| Clip.ConstructCorrected | src/Clip.cpp:168-197 | the range check counts frame `to` as included (its last byte must lie in the file), and a whole-file clip ends at frame length-1 |
| Clip.ReversedRangeIsOk | src/Clip.cpp:188-189 | the range check does not order the bounds: from=10, to=5 gives a valid clip of length -4, and only to = from-2 gives the invalid -1 |
| Clip.InitialReadAhead | src/Clip.cpp:235-238 | the shared block starts zeroed with no frames pending, so the first request refills it |
| Clip.Fill | src/Clip.cpp:250-253 | a read of `got` bytes fills whole frames first, then a torn frame where the read ends inside one; slots past the read keep what they held |
| Clip.NextFrameWith | src/Clip.cpp:217-261 | a clip with no file name serves nothing and changes nothing; a request that serves nothing closes the clip; a served frame advances the counter by one from `from` (first call) or the previous value, never past to+1 |
| Clip.Serve | src/Clip.cpp:232-241 | an open clip with current <= to counts one frame and serves the next pending slot of the block; otherwise it closes |
| Clip.Refill | src/Clip.cpp:242-257 | a refill asks for min(to-current+2, 100) frames and serves the first only when every byte asked for was read; otherwise the clip closes |
| Clip.ClipNextFrame | src/Clip.cpp:217-261 | `CClip::nextFrame` as written: a short read closes the clip but leaves the block's frame count set |
| Clip.ClipNextFrameCorrected | src/Clip.cpp:236-257 | the same with a short read also emptying the shared block |
| Clip.RefillFull | src/Clip.cpp:242-253 | a refill inside a clip whose frames all lie in the file reads the next min(remaining, 100) frames in full and serves the first of them |
| Clip.FirstFrame | src/Clip.cpp:217-253 | the first request to a closed clip with no frame pending serves its frame `from` |
| Clip.NextInRange | src/Clip.cpp:232-253 | every further request inside the range serves the next frame, from the block or by a full refill |
| Clip.PastTheEnd | src/Clip.cpp:232-257 | once the range is used up the clip closes, serves nothing, and leaves no frame pending |
| Clip.DrainServesRange | src/Clip.cpp:217-261 | a clip whose frames all lie in its file, started closed with no frame pending, serves exactly frames from..to of its file in order, then closes with no frame pending |
| Clip.ShortWholeFileYieldsNothing | src/Clip.cpp:192-253 | a whole-file clip of fifty PAL frames gets to = length = 50, asks for 51 frames at its first refill, receives fifty and serves none |
| Clip.CorrectedWholeFileServesEveryFrame | src/Clip.cpp:192-253 | with the corrected range a whole-file clip serves every whole frame of its file, in order |
| Clip.ShortReadForgotten | src/Clip.cpp:236-257 | with the correction a request that serves nothing never leaves a frame pending that was not pending before |
| Clip.FreshClipReadsOwnFile | src/Clip.cpp:221-253 | from an empty block a closed clip's first frame, when it serves one, is frame `from` of its own file |
| Clip.StaleFrameServed | src/Clip.cpp:236-257 | a short whole-file clip followed by another clip: the list's first frame is frame 1 of the FIRST clip's file, left pending in the shared block by the short read |
| Clip.Check | src/Clip.cpp:340-356 | true exactly when every clip after the first is similar to the first; true for an empty or one-clip list |
| Clip.ClearList | src/Clip.cpp:332-338 | no clips and a zero total, so the empty list passes the check |
| Clip.AddClipKeepsCheck | src/Clip.cpp:317-356 | after any addClip a list that passed the check still passes it, and a total equal to the sum of the lengths stays so |
| Clip.AddAllChecks | src/Clip.cpp:317-356 | any list built by addClip calls passes the check and carries the sum of its lengths as its total |
| Clip.ListNextFrame | src/Clip.cpp:877-893 | the list never moves backwards; it returns nothing exactly when the cursor has passed the last clip, moving on whenever the current clip serves nothing |
| Clip.ListServesClip | src/Clip.cpp:877-893 | while the current clip serves its range the list serves the same frames, then continues from the next clip with no frame pending |
| Clip.ListFrom | src/Clip.cpp:877-893 | from the start of a clip, with no frame pending, the list serves the ranges of the remaining clips in order, for any clip step that serves each clip as its range |
| Clip.FrameCountServed | src/Clip.cpp:877-893 | the frame count of clips whose frames lie in their files is exactly the number of frames the list serves, at least one per clip |
| Clip.ListServesEveryFrame | src/Clip.cpp:877-893 | after a reset, a list of unstarted clips whose frames lie in their files serves every clip's range in list order and then nothing |
| Clip.CurrentChapterName | src/Clip.cpp:1141-1146 | the current clip's own label when it has one; otherwise the label recorded for the list-wide frame index, if any; otherwise empty |
| Export.TimeDiffWithSeconds | src/Clip.cpp:374-382 | with seconds checked, two broken-down dates count as different exactly when they differ in any field |
| Export.TimeDiffWithoutSeconds | src/Clip.cpp:374-382 | without seconds, two dates differ exactly when they differ once both seconds are zeroed: dates within one minute are the same |
| Export.Contains | src/Clip.cpp:515 | the `strstr` test holds exactly when the pattern occurs at some index of the text |
| Export.SecondsInSubtitles | src/Clip.cpp:515 | seconds are only compared when a subtitle file is written and a subtitle format is set |
| Export.SecondsFormat | src/Clip.cpp:515 | any format containing "%S" switches the seconds comparison on for subtitles, and never without a subtitle file |
| Export.ConfigOf | src/Clip.cpp:536-549 | as written: dates are displayable up to the current year, start and end dates are recorded only for a dvdauthor file, and seconds are compared only for subtitles |
| Export.ConfigCorrected | src/Clip.cpp:536-549 | as intended: dates up to the year after the current one are displayable, and the dates are recorded for a KMF project as well |
| Export.NextYearRejected | src/Clip.cpp:390 | a valid time of day in the year after the current one is rejected as written and accepted by the corrected bound, which the comment at that line asks for |
| Export.CorrectedDisplaysNextYear | src/Clip.cpp:384-410 | for every date, the corrected bound shows whatever the written bound shows with the same text, and in addition exactly the dates of the year after the current one; a date is shown only from 1999 (tm_year 99) with a valid time of day |
| Export.CueLineRoundTrip | src/Clip.cpp:405 | every "{from}{to}text\n" subtitle line reads back as the cue it was written from |
| Export.DateStep | src/Clip.cpp:536-551 | one frame moves the start of the next cue to the next frame or leaves it, and adds at most one cue |
| Export.FinalCue | src/Clip.cpp:641-651 | after the loop the reference date is kept and a cue is added only when frames were served and some remain, and then only at the end |
| Export.DateStepTiles | src/Clip.cpp:536-551 | a frame keeps the cues tiling frames 0 up to the start of the next cue, one after another and each non-empty, and the next cue starts no later than the next frame |
| Export.DateRunTiles | src/Clip.cpp:532-551 | over any run of frames the cues keep tiling the frames before the next cue |
| Export.FinalCueTiles | src/Clip.cpp:641-651 | when the final cue is written, the cues tile every frame of the list |
| Export.ExportTiles | src/Clip.cpp:532-651 | for a whole export from frame 0, the subtitle cues cover the frames served without gap or overlap, and all frames once the final cue is written |
| Export.ZeroReferenceStartsNoCue | src/Clip.cpp:536-550 | a zero-filled reference date is not displayable, so the first change of date writes no cue and only sets the reference date |
| Export.DateStepRecords | src/Clip.cpp:540-549 | a frame keeps the start date as the first non-empty date displayed and the end date as the last, or both empty when dates are not recorded |
| Export.DateRunRecords | src/Clip.cpp:532-551 | over any run of frames the start and end dates stay the first non-empty and the last date displayed |
| Export.FinalCueRecords | src/Clip.cpp:641-651 | the final cue records its date the same way |
| Export.ExportRecords | src/Clip.cpp:532-651 | a whole export records the first non-empty and the last displayed date, or nothing when dates are not recorded |
| Export.KmfTitleEmptyWithoutDvda | src/Clip.cpp:543-671 | as written, a KMF project exported without a dvdauthor file gets empty start and end dates and so an empty title |
| Export.KmfTitleFromDates | src/Clip.cpp:653-671 | with the corrected recording, the KMF title's dates are the first and the last date displayed |
| Export.OnlyDate | src/Clip.cpp:110-115 | the date part holds no bar character, unless the text has none and is returned whole |
| Export.OnlyDateTime | src/Clip.cpp:110-122 | a date, a bar character and a time, with a date free of bars, splits back into exactly that date and that time |
| Export.OnlyDateTimeWhole | src/Clip.cpp:110-122 | a text without a bar character is both its own date and its own time |
| Export.MenuTitleOneStamp | src/Clip.cpp:660-666 | when start and end are the same stamp, the title is that stamp's date (the ".title" file repeats it at src/Clip.cpp lines 783-789) |
| Export.MenuTitleOneDay | src/Clip.cpp:660-668 | two different times on one date give "date (start - end)" (the same for the ".title" file, lines 783-791) |
| Export.MenuTitleDays | src/Clip.cpp:660-671 | two different dates give "start - end" (the same for the ".title" file, lines 783-794) |
| Export.ChapterIndex | src/Clip.cpp:563 | `indexOf` by timestamp returns -1 or an index whose chapter has that timestamp; the chapters compare by timestamp alone (lines 446-465), as `indexOf` at lines 563 and 738 uses them |
| Export.ChapterIndexFirst | src/Clip.cpp:572 | the index found is the first chapter with the timestamp, and -1 means no chapter has it |
| Export.MarkStep | src/Clip.cpp:553-585 | one frame adds at most one chapter |
| Export.Propose | src/Clip.cpp:561-584 | a proposed chapter adds at most one chapter, even when it replaces the last one |
| Export.MarkStepValid | src/Clip.cpp:553-585 | for timestamps that differ between frames, one frame keeps the chapters distinct, in frame order and each at its frame's timestamp, the last chapter frame current, every title at a chapter in chapter order, and the current label the last title's |
| Export.ProposeValid | src/Clip.cpp:561-584 | a proposal at the current frame keeps that invariant, including when it drops or replaces the last chapter |
| Export.MarkRunValid | src/Clip.cpp:532-585 | the chapter detector keeps the invariant over any run of frames |
| Export.ChapterZeroReplaced | src/Clip.cpp:559-576 | a label starting one frame in replaces the chapter at frame 0, which does not start a title |
| Export.FirstChapterAtZero | src/Clip.cpp:559-582 | the first frame always gets a chapter at timestamp 0, and a title when it has a label |
| Export.ChapterListSplits | src/Clip.cpp:467-482 | the comma-joined chapter list is empty without chapters and splits back into the chapters' timestamps |
| Export.CellLengths | src/Clip.cpp:680-687 | there is one KMF cell per chapter |
| Export.CellLengthsAt | src/Clip.cpp:683-686 | cell i runs from chapter i to chapter i + 1, the last one to the end of the export |
| Export.CellLengthsCover | src/Clip.cpp:683-686 | the cell lengths add up to the frames from the first chapter to the end |
| Export.CellLengthsPositive | src/Clip.cpp:683-686 | the chapters of a valid detector run give cells of positive length |
| Export.TitleEntriesValid | src/Clip.cpp:730-742 | a single title at time 0 gives no menu entries; otherwise there is one per title, naming the 1-based chapter that title starts at, in chapter order |
| Export.ToPath | src/Clip.cpp:68-73 | a name starting with '/' is kept; any other name becomes the directory, a '/' and the name, so it always ends with the name |
| Export.ToPathFile | src/Clip.cpp:68-73 | a plain file name placed in a directory is the file part of the path |
| Misc.CheckExtStem | src/Misc.cpp:32-39 | a stem, a dot and the extension pass exactly when the stem is non-empty |
| Misc.CheckExtSplits | src/Misc.cpp:32-39 | a name that passes is a non-empty stem followed by "." and the extension |
| Misc.ReplaceDoubleSlash | src/Misc.cpp:58 | collapsing "//" never lengthens the name, keeps a non-empty name non-empty and keeps every character other than '/' in order |
| Misc.ReplaceKeepsClean | src/Misc.cpp:58 | a name without a double slash is left unchanged |
| Misc.TripleSlashLeavesTwo | src/Misc.cpp:58 | the single left-to-right pass turns "///" into "//", so a double slash can survive |
| Misc.DirSyntax | src/Misc.cpp:52-69 | an empty name stays empty; any other becomes the collapsed name, with a '/' appended when it does not end in one, and always ends in '/' |
| Misc.DirSyntaxKeepsClean | src/Misc.cpp:52-69 | a directory ending in '/' with no double slash is returned unchanged |
| Misc.GetDir | src/Misc.cpp:71-81 | a non-empty name with no slash becomes the name plus '/', and an empty name stays empty |
| Misc.GetFile | src/Misc.cpp:83-93 | the file part holds no slash, is a suffix of the name, and is the whole name when there is no slash |
| Misc.GetDirGetFile | src/Misc.cpp:71-93 | a path with a slash and no double slash is its directory (ending in '/') followed by its file part |
| Wav.TagsSpellNames | src/Wav.cpp:37-49 | the four chunk tags are the bytes of "RIFF", "WAVE", "fmt " and "data" |
| Wav.LE16 | src/Wav.cpp:90-94 | a 16-bit field is two bytes |
| Wav.LE32 | src/Wav.cpp:82-88 | a 32-bit field is four bytes |
| Wav.LE32RoundTrip | src/Wav.cpp:82-88 | the four bytes, least significant first, read back as the unsigned 32-bit value |
| Wav.LE16RoundTrip | src/Wav.cpp:90-94 | the two bytes, low byte first, read back as the signed 16-bit value |
| Wav.Serialize | src/Wav.h:28-44 | a header with four-byte tags serializes to 44 bytes |
| Wav.Parse | src/Wav.h:28-44 | any 44 bytes read back as a header with four-byte tags |
| Wav.ParseSerialize | src/Wav.h:28-44 | the packed struct has no padding: every field reads back from its offset, so parsing a serialized header gives the header |
| Wav.SetInfoConsistent | src/Wav.cpp:35-50 | whenever the block size and the sample width fit their 16-bit fields, the header is a consistent PCM header: block size = channels x bytes per sample, byte rate = rate x block size modulo 2^32, bits = 8 x bytes per sample, and RIFF length = serialized size - 8 + data length |
| Wav.SetInfoOverwritesAll | src/Wav.cpp:27-50 | the constructor clears only the RIFF tag and length (8-byte pointers), but whatever the header held before, SetInfo gives the same header: no field survives from the constructor's garbage |
| Wav.WriteEach | src/Wav.cpp:82-106 | single-byte writes leave a valid writer on the same file and count between none and all of the bytes |
| Wav.WriteU32 | src/Wav.cpp:82-88 | with room, the four little-endian bytes are appended at the cursor and counted as 4 |
| Wav.WriteI16 | src/Wav.cpp:90-94 | with room, the two little-endian bytes are appended and counted as 2 |
| Wav.WriteTag | src/Wav.cpp:108-111 | with room, the four tag bytes are appended in one block write that counts as 1 |
| Wav.WriteSamples | src/Wav.cpp:96-106 | with room, every sample's two bytes are appended, low byte first, and counted |
| Wav.WriteHeader | src/Wav.cpp:52-73 | with room for 44 bytes, the serialized header is appended and the count returned is 32, since each tag counts 1 |
| Wav.HeaderAppends | src/Wav.cpp:52-73 | with room, each of the thirteen writes succeeds with its own count and together they append the serialized header |
| Wav.NewMuxer | src/Wav.cpp:27-33 | the muxer writes to the given file and starts with a zero RIFF length |
| Wav.Initialise | src/Wav.cpp:113-125 | a writer that is not open fails and nothing changes; otherwise the header is SetInfo for the channels and rate with 2 bytes per sample (16 bits, lengths in agreement), and with room for it the header is appended and Initialise succeeds |
| Wav.GrownTwice | src/Wav.cpp:77-78 | growing twice is growing once by the sum: the wrap-around loses nothing a later addition needs |
| Wav.Set | src/Wav.cpp:75-80 | both lengths grow by `length` and stay in agreement; length/2 samples are written; an odd length always reports failure, and with room the samples are appended and success means an even length |
| Wav.U32Shift | src/Wav.cpp:77-78 | adding the RIFF header rest and a length commute modulo 2^32, so the two fields stay in step |
| Wav.Flush | src/Wav.cpp:133-138 | Flush always reports success and keeps the header; when the seek fails nothing is written, and when it succeeds the serialized header overwrites the first 44 bytes of the file and the cursor is after it |
| Wav.HeaderOverStart | src/Wav.cpp:133-138 | after the seek to the start, writing the header replaces the first 44 bytes of the file's contents |
| Wav.SetAll | src/Wav.cpp:127-131 | writing block after block keeps a valid writer on the same file and a header with four-byte tags |
| Wav.SetAllAppends | src/Wav.cpp:127-131 | with room, the blocks' samples are appended in order |
| Wav.SetAllHeader | src/Wav.cpp:75-80 | both length fields grow by the number of sample bytes written, and nothing else in the header changes |
| Wav.FreshLengths | src/Wav.cpp:38-39 | from an empty data chunk, growing by n bytes records n modulo 2^32 and keeps the two lengths in agreement |
| Wav.FlushFits | src/BufferedWriter.cpp:48-55 | a buffer that fits on the device flushes completely |
| Wav.InitialiseFresh | src/Wav.cpp:113-125 | on a freshly created file with room, Initialise succeeds and the file holds exactly the serialized SetInfo header, with the cursor after it |
| Wav.WholeFile | src/Wav.cpp:52-138 | a WAV written from creation to destruction on a device with room holds exactly the final header followed by every sample; its data length counts the sample bytes and its two lengths agree |
| YuvExtractor.AspectTag | src/YUV420Extractor.cpp:21-37 | the aspect tag is a blank followed by one word |
| YuvExtractor.AspectTagInjective | src/YUV420Extractor.cpp:21-37 | equal tags mean both pictures are PAL (576 lines) or both are not, with the same wide-screen flag: the four tags are distinct |
| YuvExtractor.Words420 | src/YUV420Extractor.cpp:66-69 | the 4:2:0 header has seven words |
| YuvExtractor.Words411 | src/YUV420Extractor.cpp:214-215 | the 4:1:1 header has seven words |
| YuvExtractor.ParseHeader | src/YUV420Extractor.cpp:66-69 | a header line that reads back ends in a newline |
| YuvExtractor.Header420RoundTrip | src/YUV420Extractor.cpp:66-69 | the 4:2:0 header reads back as its width, its height, 25:1 for 576 lines and 30000:1001 otherwise, the aspect tag, and C420paldv for 576 lines and C420mpeg2 otherwise |
| YuvExtractor.Header411RoundTrip | src/YUV420Extractor.cpp:214-215 | the 4:1:1 header reads back as its width and height with the NTSC rate and C411 whatever the height |
| YuvExtractor.PrintedSizes | src/YUV420Extractor.cpp:66-69 | the DV picture sizes print as "720", "576" and "480" |
| YuvExtractor.PalWords | src/YUV420Extractor.cpp:66-69 | a wide PAL picture's header words are YUV4MPEG2 W720 H576 F25:1 Ib A118:81 C420paldv |
| YuvExtractor.NtscWords | src/YUV420Extractor.cpp:214-215 | a 4:3 NTSC picture's 4:1:1 header words are YUV4MPEG2 W720 H480 F30000:1001 Ib A10:11 C411 |
| YuvExtractor.Line411 | src/YUV420Extractor.cpp:270-282 | of each eight-byte group of a packed line every Y is kept in order, and only the group's first U and first V |
| YuvExtractor.Extract411 | src/YUV420Extractor.cpp:255-284 | every line gives w luma bytes (the even bytes) and w/4 Cb and Cr bytes (bytes 1 and 3 of each group) |
| YuvExtractor.Planes411Sizes | src/YUV420Extractor.cpp:255-284 | the 4:1:1 planes hold exactly the w*h and w*h/4 bytes the frame writer sends |
| YuvExtractor.Luma | src/YUV420Extractor.cpp:155-156 | luma is the fixed-point weighted sum shifted down by 8: a byte, the floor of the sum over 256 |
| YuvExtractor.LumaOfGrey | src/YUV420Extractor.cpp:155-156 | a grey pixel's luma is its level, since the weights add up to 256 |
| YuvExtractor.ChromaRawRange | src/YUV420Extractor.cpp:167-170 | for any two pixels the chroma before the store lies in 1..256, one past the byte range at the top |
| YuvExtractor.SaturatedBlueWraps | src/YUV420Extractor.cpp:167-170 | two saturated blue pixels give Cb 256, stored as 0; two saturated red pixels give Cr 256, stored as 0 |
| YuvExtractor.ClampedChromaFaithful | src/YUV420Extractor.cpp:167-170 | the clamped store agrees with the byte store wherever that one is right, and stays on the same side of the neutral 128 |
| YuvExtractor.CruftyLine | src/YUV420Extractor.cpp:147-176 | one RGB line gives a luma byte per pixel and, per pixel pair, the stored Cb and Cr of the pair's sums |
| YuvExtractor.CruftyExtract | src/YUV420Extractor.cpp:129-180 | each even RGB line's luma fills that line and the next, odd RGB lines are never read, and each pixel pair of an even line gives one Cb and one Cr |
| YuvExtractor.PalRgbOverflowsInput | src/YUV420Extractor.cpp:63-135 | a PAL picture's RGB is 720*576 bytes larger than the input buffer it is decoded into |
| YuvExtractor.RgbFitsCorrectedInput | src/YUV420Extractor.cpp:63-135 | every DV picture up to 720x576 fits an input buffer of three bytes per pixel |
| YuvExtractor.SelectedHeader | src/YUV420Extractor.cpp:291-310 | for any deinterlace type the stream header reads back with the picture size and names the 4:1:1 chroma exactly for type 2: 1 and every other value select a 4:2:0 extractor |
| YuvExtractor.StreamHeaderText | src/YUV420Extractor.cpp:66-70 | each extractor's header reads back with the picture's width and height, names C411 exactly for the 4:1:1 extractor, and fits the 128-byte buffer; the 4:1:1 extractor prints its own at lines 214-216 |
| YuvExtractor.Initialise | src/YUV420Extractor.cpp:48-81 | the header text goes through the writer with its write result ignored, so Initialise reports success; when the write is accepted the stream gains the header line at the cursor; the 4:1:1 extractor does the same at lines 194-227 |
| YuvExtractor.HeaderLength | src/YUV420Extractor.cpp:41-69 | for sizes that fit an int, both header lines are shorter than 100 characters, inside the 128-byte buffer |
| YuvExtractor.FrameTagSpellsFrame | src/YUV420Extractor.cpp:87 | the frame tag is the six bytes of "FRAME\n" |
| YuvExtractor.OutputFrame | src/YUV420Extractor.cpp:83-91 | a failed tag write ends the frame at once; when all four writes succeed the stream gains "FRAME\n", w*h bytes of Y and w*h/4 of Cb and of Cr, in that order; the 4:1:1 extractor writes the same record at lines 229-237 |
| YuvExtractor.FrameRecordInOrder | src/YUV420Extractor.cpp:87-90 | four writes one after another lay their bytes down back to back |
| YuvExtractor.PictureArea | src/YUV420Extractor.cpp:63 | a DV picture has at most 720*576 pixels |
| YuvExtractor.FrameFits | src/YUV420Extractor.cpp:83-91 | with room on the device for the frame record, a frame of a DV picture is written in full |
| YuvExtractor.PlainFrameRecord | src/YUV420Extractor.cpp:83-114 | the plain extractor's planes, flattened, are exactly the w*h and w*h/4 byte buffers the frame writer sends |

## Left out

- The libdv and libavcodec branches of src/Frame.cpp are foreign code: the decoders, `ExtractHeader`, `ExtractRGB`, `ExtractYUV`, `IsWide`, `GetWidth`/`GetHeight`, and the encoders and setters. Picture size, wide-screen flag, channel count and the decoded RGB or packed picture are inputs of the model.
- `mktime` in `GetRecordingDate` is left out. The model returns the decoded fields without the C library's normalisation.
- The current year (`time`/`localtime`) is a parameter of `displayTime`. The `strftime` formatting is an opaque function from a date to its text.
- Floating point is left out: `timeStr`, `toSeconds`, the seconds-based `CClip` constructor, `duration()` and the audio resampler. Timestamps are an injective function of the frame index. `chapterGap` and `minChapterGap` are given integers. Wav `Output`'s resampled blocks are given sample sequences.
- The NTSC frame rate of src/Clip.h is the decimal 29.97 and is kept as the exact fraction 2997/100.
- Qt XML and fixed template text are I/O and serialisation: `loadKdenlive`, `loadKino`, `loadDv`, `load`, `save`, `outputSmil`, `outputSpumux`, `saveFrame`, and the literal KMF and dvdauthor text around the cell lengths, chapter list and title entries. Those three are modelled.
- POSIX plumbing (`open64`, `lseek64`, `read`, `fstat64`, `close`) is left out. A file is its bytes, a device is a byte limit, and a DV file is a function from frame index to frame.
- Progress reporting in `output()`, the `/dev/null` and stderr swap, and the early returns when a WAV or YUV file fails to initialise are user interface and are left out.
- src/Main.cpp (option parsing), `Misc::check` (filesystem probes) and the abstract interface in src/YUV420Extractor.h are outside the core.
- The 64-byte date buffer and the 256-byte subtitle line buffer of `displayTime` are not modelled, so neither are the truncations they could cause.
- The `int64_t` frame counters and the `int` totals are unbounded integers.
- The reference date `lastTime` is read before it is ever set. It is a parameter of `Export.InitialDates`.
- The non-libdv `ExtractAudio` has unbalanced braces. Only its per-rate case bodies are modelled.
- catdv builds only with libdv: `decoder` is declared only under `HAVE_LIBDV` (src/Frame.h:104-105), and src/Clip.cpp:517-518, src/Wav.cpp:119 and src/YUV420Extractor.cpp:112, 133 and 257 use it unguarded. The libdv branches of src/Frame.cpp are foreign, so `DvFrame`'s pack scans and BCD decoding and `DvAudio`'s tables and sample reads model the fallback decoder written for a build without libdv, not the code a catdv binary runs.
- DvPicture.ExtractYUV420: requires an even width and height, which the source does not check; every DV picture size is even.
- DvPicture.PlaneSizes: requires an even width and height, as for `ExtractYUV420`.
- YuvExtractor.CruftyExtract: requires an even width and height, which the source does not check; every DV picture size is even.
- YuvExtractor.PlainFrameRecord: requires an even width and height, as for `CruftyExtract`.
- YuvExtractor.Extract411: requires a width divisible by 4, which the source does not check; 720 is.
- YuvExtractor.Planes411Sizes: requires a width divisible by 4, as for `Extract411`.
- The YUV extractors' `Flush` only frees buffers. Allocation failure is not modelled.
- DvAudio.ExtractAudio: requires the caller's `AudioInfo` to hold at most 2000 samples. The source passes an uninitialised record, and a larger count there would index past the 2000-entry tables.
- BufferedWriter.WriteAll: stated for blocks smaller than the buffer, where the 32-bit `pos + size` cannot wrap. The wrapping case is the finding below.
- Clip.DrainServesRange: the requests are run with a bound of one more than the clip's frame count. Unbounded runs are not modelled.
- Export.ChapterZeroReplaced: shown for chapter gaps of 100 and 10 frames rather than for every gap.

## Findings

| source | as written | input that shows it | evidently intended | confidence | as-written member | corrected member |
|---|---|---|---|---|---|---|
| src/Frame.cpp:1110-1111 | the last output line is a copy of source line h-2 | a three-line picture black, black, white: filtered in place, as the program calls it, the white last line becomes 63; into a separate buffer it becomes black | the last line passes through unfiltered, as the description at lines 1077-1081 says | high (not executed) | DvPicture.LastLineNotKept | DvPicture.DeinterlaceCorrected |
| src/BufferedWriter.cpp:37 | `pos + size >= capacity` is computed in 32-bit unsigned arithmetic | one buffered byte, then a block of 2^32-1 bytes: the sum wraps to 0, the flush is skipped and the block reaches the file before the byte | flush whenever the real sum reaches the capacity | medium (not executed) | BufferedWriter.WrappedWriteReorders | BufferedWriter.WriteBytesChecked |
| src/YUV420Extractor.cpp:167-170 | chroma is stored into a `uint8_t` without saturation | two saturated blue pixels give Cb 256, stored as 0 | saturate at 255 | high (not executed) | YuvExtractor.SaturatedBlueWraps | YuvExtractor.ClampedChromaFaithful |
| src/YUV420Extractor.cpp:63 | the crufty extractor decodes RGB into a buffer of 720*576*2 bytes | a PAL picture's RGB is 720*576*3 bytes, 414720 bytes more than the buffer | a buffer of three bytes per pixel | high (not executed) | YuvExtractor.PalRgbOverflowsInput | YuvExtractor.RgbFitsCorrectedInput |
| src/Clip.cpp:188-194 | a whole-file clip gets to = length = fileSize/frameSize, and the range check accepts to*frameSize <= fileSize | a file of exactly 50 PAL frames: the first refill asks for 51 frames, reads 50 and serves nothing | to = length-1, with the check counting frame `to` as included | high (not executed) | Clip.ShortWholeFileYieldsNothing | Clip.CorrectedWholeFileServesEveryFrame |
| src/Clip.cpp:236-257 | a short read closes the clip but leaves the shared block's frame count set | a short whole-file clip followed by another clip: the list's first frame is frame 1 of the first clip's file | a short read empties the shared block | high (not executed) | Clip.StaleFrameServed | Clip.ShortReadForgotten |
| src/Clip.cpp:390 | a year after the current one is rejected | a valid time of day dated next year | the comment's "now+1": accept the following year too | low (not executed) | Export.NextYearRejected | Export.ConfigCorrected |
| src/Clip.cpp:543-548 | start and end dates are recorded only for a dvdauthor file, but the KMF title at lines 653-671 is built from them | a KMF export without a dvdauthor file gets an empty title whatever dates were shown | record the dates for a KMF project as well | medium (not executed) | Export.KmfTitleEmptyWithoutDvda | Export.KmfTitleFromDates |
| src/Frame.cpp:725-727 | the 32 kHz read takes both low nibbles from byte m+1, the second code's high byte, and never reads byte m+2 | codes 1 and 0 stored as IEC 61834-2 lays them out (bytes 0x00, 0x00, 0x10) decode as 0 and 0 | take the low nibbles from byte m+2, the third byte the 12-bit tables (lines 128-132) leave for each pair | medium (not executed; in the non-libdv branch, which a catdv build does not compile) | DvAudio.LowNibblesMisread | DvAudio.CorrectedSampleRoundTrip |

`DvAudio.ExtractAudio` keeps the as-written 32 kHz read (`DvAudio.CompressedSample`), so that it describes
the non-libdv branch as written; `DvAudio.CompressedSampleCorrected` is the corrected read.

=== FILE: buffered_writer.dfy ===
/** The buffered output file used by every muxer: bytes collect in a
    fixed-capacity buffer and reach the file descriptor in one system call
    per flush; writes larger than the buffer bypass it. The operating
    system is modelled by a `Sink`: the file's bytes, the descriptor's file
    position, and a device limit past which a write is cut short. */
module BufferedWriter {
  import opened Common

  /** Buffer capacity in bytes (10 MiB). */
  const CAPACITY: int := 10 * 1024 * 1024

  /** Name that selects standard output instead of a file. */
  const STDOUT_NAME: string := "-"

  // ---------------------------------------------------------------------
  // The operating system's side

  /** `data` is the file, `offset` the descriptor's position in it,
      `limit` the size the device lets the file reach, `open` whether the
      descriptor is valid, and `calls` the byte counts of the write system
      calls issued so far. */
  datatype Sink = Sink(data: seq<byte>, offset: nat, limit: nat, open: bool, calls: seq<nat>)

  predicate SinkValid(s: Sink)
  {
    s.offset <= |s.data|
  }

  /** `b` written over `data` from position `o`, extending the file when
      it runs past the end. */
  function Put(data: seq<byte>, o: nat, b: seq<byte>): (r: seq<byte>)
    requires o <= |data|
    ensures |r| == if o + |b| <= |data| then |data| else o + |b|
    ensures r[..o] == data[..o] && r[o..o + |b|] == b
    ensures o + |b| <= |data| ==> r[o + |b|..] == data[o + |b|..]
  {
    data[..o] + b + (if o + |b| <= |data| then data[o + |b|..] else [])
  }

  lemma PutEmpty(data: seq<byte>, o: nat)
    requires o <= |data|
    ensures Put(data, o, []) == data
  {
    assert data[..o] + data[o..] == data;
  }

  /** Writing `b1` and then `b2` right after it equals writing `b1 + b2`. */
  lemma PutPut(data: seq<byte>, o: nat, b1: seq<byte>, b2: seq<byte>)
    requires o <= |data|
    ensures o + |b1| <= |Put(data, o, b1)|
    ensures Put(Put(data, o, b1), o + |b1|, b2) == Put(data, o, b1 + b2)
  {
    var once := Put(data, o, b1);
    var twice := Put(once, o + |b1|, b2);
    var whole := Put(data, o, b1 + b2);
    assert |twice| == |whole|;
    forall i | 0 <= i < |whole|
      ensures twice[i] == whole[i]
    {
      if i < o {
        assert twice[..o + |b1|][i] == once[..o + |b1|][i];
        assert once[..o][i] == data[..o][i];
        assert whole[..o][i] == data[..o][i];
      } else if i < o + |b1| {
        assert twice[..o + |b1|][i] == once[..o + |b1|][i];
        assert once[o..o + |b1|][i - o] == b1[i - o];
        assert whole[o..o + |b1 + b2|][i - o] == (b1 + b2)[i - o];
      } else if i < o + |b1| + |b2| {
        assert twice[o + |b1|..o + |b1| + |b2|][i - o - |b1|] == b2[i - o - |b1|];
        assert whole[o..o + |b1 + b2|][i - o] == (b1 + b2)[i - o];
      } else {
        assert twice[o + |b1| + |b2|..][i - o - |b1| - |b2|] == once[o + |b1| + |b2|..][i - o - |b1| - |b2|];
        assert once[o + |b1|..][i - o - |b1|] == data[o + |b1|..][i - o - |b1|];
        assert whole[o + |b1| + |b2|..][i - o - |b1| - |b2|] == data[o + |b1| + |b2|..][i - o - |b1| - |b2|];
      }
    }
  }

  /** `::write`: on a valid descriptor as many bytes as the device still
      takes are stored at the position, which advances by that many; the
      result is the count stored, or -1 on a closed descriptor. */
  function OsWrite(s: Sink, b: seq<byte>): (r: (Sink, int))
    requires SinkValid(s)
    ensures SinkValid(r.0) && r.0.limit == s.limit && r.0.open == s.open
    ensures r.0.calls == s.calls + [|b|]
    ensures !s.open ==> r == (s.(calls := s.calls + [|b|]), -1)
    ensures s.open ==> (0 <= r.1 <= |b| && r.0.offset == s.offset + r.1
                        && r.0.data == Put(s.data, s.offset, b[..r.1]))
    ensures s.open && s.offset + |b| <= s.limit ==> r.1 == |b|
  {
    if !s.open then (s.(calls := s.calls + [|b|]), -1)
    else
      var room := if s.offset < s.limit then s.limit - s.offset else 0;
      var n := Min(|b|, room);
      (s.(data := Put(s.data, s.offset, b[..n]), offset := s.offset + n, calls := s.calls + [|b|]), n)
  }

  // ---------------------------------------------------------------------
  // The writer

  /** `buffer` holds the bytes not yet handed to the system; its length is
      the buffer position. */
  datatype Writer = Writer(name: string, buffer: seq<byte>, sink: Sink)

  predicate Valid(w: Writer)
  {
    SinkValid(w.sink) && |w.buffer| <= CAPACITY
  }

  /** The file as it will read once the buffer is flushed. */
  function Effective(w: Writer): seq<byte>
    requires Valid(w)
  {
    Put(w.sink.data, w.sink.offset, w.buffer)
  }

  /** Where the next accepted byte will land. */
  function Cursor(w: Writer): nat
  {
    w.sink.offset + |w.buffer|
  }

  /** `operator bool`: the descriptor is valid. */
  predicate IsOpen(w: Writer)
  {
    w.sink.open
  }

  /** `name()`. */
  function Name(w: Writer): (n: string)
    ensures n == w.name
  {
    w.name
  }

  /** The constructor: "-" writes to standard output, whose state is
      given; any other name creates or truncates the file, which may fail
      and leave the descriptor invalid. */
  function Create(name: string, stdout: Sink, canOpen: bool, limit: nat): (w: Writer)
    requires SinkValid(stdout)
    ensures Valid(w) && w.buffer == [] && Name(w) == name
    ensures name == STDOUT_NAME ==> w.sink == stdout.(open := true)
    ensures name != STDOUT_NAME ==> w.sink.data == [] && w.sink.offset == 0 && w.sink.calls == []
    ensures IsOpen(w) <==> name == STDOUT_NAME || canOpen
  {
    if name == STDOUT_NAME then Writer(name, [], stdout.(open := true))
    else Writer(name, [], Sink([], 0, limit, canOpen, []))
  }

  /** `flush`: an empty buffer issues no system call; otherwise one write
      of the whole buffer, which empties it only if every byte was taken. */
  function Flush(w: Writer): (r: (Writer, bool))
    requires Valid(w)
    ensures Valid(r.0) && r.0.name == w.name && r.0.sink.limit == w.sink.limit && r.0.sink.open == w.sink.open
    ensures w.buffer == [] ==> r == (w, true)
    ensures w.buffer != [] ==> r.0.sink.calls == w.sink.calls + [|w.buffer|]
    ensures r.1 <==> r.0.buffer == []
    ensures r.1 ==> Effective(r.0) == Effective(w) && Cursor(r.0) == Cursor(w)
    ensures !r.1 ==> r.0.buffer == w.buffer
  {
    if |w.buffer| == 0 then (w, true)
    else
      var (s, n) := OsWrite(w.sink, w.buffer);
      if n != |w.buffer| then (w.(sink := s), false)
      else
        assert w.buffer[..n] == w.buffer;
        PutEmpty(s.data, s.offset);
        (w.(buffer := [], sink := s), true)
  }

  /** `write(unsigned char)`: flush first when the byte would fill the
      buffer. */
  function WriteByte(w: Writer, b: byte): (r: (Writer, bool))
    requires Valid(w)
    ensures Valid(r.0) && r.0.name == w.name && r.0.sink.limit == w.sink.limit && r.0.sink.open == w.sink.open
    ensures r.1 ==> |r.0.buffer| < CAPACITY
    ensures r.1 ==> r.0.buffer == (if |w.buffer| + 1 >= CAPACITY then [] else w.buffer) + [b]
    ensures !r.1 ==> |w.buffer| + 1 >= CAPACITY && r.0.buffer == w.buffer
    ensures r.1 ==> Effective(r.0) == Put(Effective(w), Cursor(w), [b]) && Cursor(r.0) == Cursor(w) + 1
  {
    var (w1, ok) := if |w.buffer| + 1 >= CAPACITY then Flush(w) else (w, true);
    if !ok then (w1, false)
    else
      PutPut(w1.sink.data, w1.sink.offset, w1.buffer, [b]);
      (w1.(buffer := w1.buffer + [b]), true)
  }

  /** The second half of `write(unsigned char *, unsigned int)`: a block
      larger than the buffer goes straight to the descriptor, anything else
      is appended to the buffer. */
  function Store(w: Writer, d: seq<byte>): (r: (Writer, bool))
    requires Valid(w) && (|d| > CAPACITY || |w.buffer| + |d| <= CAPACITY)
    ensures Valid(r.0) && r.0.name == w.name && r.0.sink.limit == w.sink.limit && r.0.sink.open == w.sink.open
    ensures |d| <= CAPACITY ==> r == (w.(buffer := w.buffer + d), true)
    ensures |d| > CAPACITY ==> r.0.buffer == w.buffer && r.0.sink.calls == w.sink.calls + [|d|]
    ensures r.1 && (|d| <= CAPACITY || w.buffer == []) ==>
      Effective(r.0) == Put(Effective(w), Cursor(w), d) && Cursor(r.0) == Cursor(w) + |d|
  {
    if |d| > CAPACITY then
      var (s, n) := OsWrite(w.sink, d);
      if n == |d| then
        assert d[..n] == d;
        PutEmpty(s.data, s.offset);
        PutEmpty(w.sink.data, w.sink.offset);
        (w.(sink := s), true)
      else (w.(sink := s), false)
    else
      PutPut(w.sink.data, w.sink.offset, w.buffer, d);
      (w.(buffer := w.buffer + d), true)
  }

  /** `write(unsigned char *, unsigned int)`: flush first when `pos + size
      >= capacity`, a test done in 32-bit unsigned arithmetic. */
  function WriteBytes(w: Writer, d: seq<byte>): (r: (Writer, bool))
    requires Valid(w) && |d| < TWO_32
    ensures Valid(r.0) && r.0.name == w.name && r.0.sink.limit == w.sink.limit && r.0.sink.open == w.sink.open
    ensures U32(|w.buffer| + |d|) < CAPACITY && |d| <= CAPACITY ==> r == (w.(buffer := w.buffer + d), true)
    ensures U32(|w.buffer| + |d|) >= CAPACITY ==> (r.1 ==> Flush(w).1)
    ensures |w.buffer| + |d| < TWO_32 && r.1 ==>
      Effective(r.0) == Put(Effective(w), Cursor(w), d) && Cursor(r.0) == Cursor(w) + |d|
  {
    if U32(|w.buffer| + |d|) >= CAPACITY then
      var (w1, ok) := Flush(w);
      if !ok then (w1, false) else Store(w1, d)
    else Store(w, d)
  }

  /** The same write with the capacity test done without wrap-around, so
      that a block larger than the buffer always follows the flush. */
  function WriteBytesChecked(w: Writer, d: seq<byte>): (r: (Writer, bool))
    requires Valid(w) && |d| < TWO_32
    ensures Valid(r.0) && r.0.name == w.name && r.0.sink.limit == w.sink.limit && r.0.sink.open == w.sink.open
    ensures r.1 ==> Effective(r.0) == Put(Effective(w), Cursor(w), d) && Cursor(r.0) == Cursor(w) + |d|
    ensures |w.buffer| + |d| < TWO_32 ==> r == WriteBytes(w, d)
  {
    if |w.buffer| + |d| >= CAPACITY then
      var (w1, ok) := Flush(w);
      if !ok then (w1, false) else Store(w1, d)
    else Store(w, d)
  }

  /** One buffered byte followed by a block of 2^32 - 1 bytes: the sum
      wraps to 0, the flush is skipped, the block bypasses the buffer and
      the buffered byte ends up after it instead of before it. */
  lemma WrappedWriteReorders()
    ensures var big := seq(TWO_32 - 1, i => 0);
      var w := Writer("out", [7], Sink([], 0, TWO_32, true, []));
      var r := WriteBytes(w, big);
      r.1 && Effective(r.0)[0] == 0 && Put(Effective(w), Cursor(w), big)[0] == 7
  {
    var big: seq<byte> := seq(TWO_32 - 1, i => 0);
    var w := Writer("out", [7], Sink([], 0, TWO_32, true, []));
    assert U32(|w.buffer| + |big|) == 0;
    var r := WriteBytes(w, big);
    assert r.0.sink.data == Put([], 0, big[..|big|]);
    assert big[..|big|] == big;
    assert r.0.sink.data[0] == 0;
    assert Effective(r.0)[..|big|] == r.0.sink.data[..|big|];
    assert Effective(w) == [7];
    assert Put(Effective(w), Cursor(w), big)[..1] == [7];
  }

  /** `seekToStart`: refused for standard output; otherwise flush, then
      move the descriptor to offset 0, which only a valid descriptor allows. */
  function SeekToStart(w: Writer): (r: (Writer, bool))
    requires Valid(w)
    ensures Valid(r.0) && r.0.name == w.name && r.0.sink.limit == w.sink.limit && r.0.sink.open == w.sink.open
    ensures w.name == STDOUT_NAME ==> r == (w, false)
    ensures r.1 <==> w.name != STDOUT_NAME && Flush(w).1 && w.sink.open
    ensures r.1 ==> r.0.buffer == [] && Cursor(r.0) == 0 && r.0.sink.data == Effective(w)
  {
    if w.name == STDOUT_NAME then (w, false)
    else
      var (w1, ok) := Flush(w);
      if !ok then (w1, false)
      else if !w1.sink.open then (w1, false)
      else
        PutEmpty(w1.sink.data, w1.sink.offset);
        (w1.(sink := w1.sink.(offset := 0)), true)
  }

  /** The destructor: flush, then close the descriptor unless it is
      standard output. The resulting sink is returned. */
  function Destroy(w: Writer): (s: Sink)
    requires Valid(w)
    ensures SinkValid(s)
    ensures s.open <==> w.sink.open && w.name == STDOUT_NAME
    ensures Flush(w).1 ==> s.data == Effective(w)
  {
    var (w1, _) := Flush(w);
    PutEmpty(w1.sink.data, w1.sink.offset);
    if w.name != STDOUT_NAME then w1.sink.(open := false) else w1.sink
  }

  // ---------------------------------------------------------------------
  // Properties of sequences of calls

  function Concat(ds: seq<seq<byte>>): seq<byte>
  {
    if |ds| == 0 then [] else ds[0] + Concat(ds[1..])
  }

  /** Block after block through `write`, stopping at the first refusal.
      Every accepted block reaches the file right after the previous one: a
      run of successful writes leaves the file as if their concatenation
      had been written at the starting cursor. */
  function WriteAll(w: Writer, ds: seq<seq<byte>>): (r: (Writer, bool))
    requires Valid(w)
    requires forall i :: 0 <= i < |ds| ==> |ds[i]| < CAPACITY
    ensures Valid(r.0)
    ensures r.1 ==> Effective(r.0) == Put(Effective(w), Cursor(w), Concat(ds)) && Cursor(r.0) == Cursor(w) + |Concat(ds)|
    decreases |ds|
  {
    if |ds| == 0 then
      PutEmpty(Effective(w), Cursor(w));
      (w, true)
    else
      var (w1, ok) := WriteBytes(w, ds[0]);
      if !ok then (w1, false)
      else
        var r := WriteAll(w1, ds[1..]);
        if r.1 then
          AppendThenRest(w, w1, r.0, ds[0], Concat(ds[1..]));
          r
        else r
  }

  /** A block accepted at the cursor followed by a run accepted at the new
      cursor is their concatenation accepted at the first cursor. */
  lemma AppendThenRest(w: Writer, w1: Writer, r: Writer, d: seq<byte>, rest: seq<byte>)
    requires Valid(w) && Valid(w1) && Valid(r)
    requires Effective(w1) == Put(Effective(w), Cursor(w), d) && Cursor(w1) == Cursor(w) + |d|
    requires Effective(r) == Put(Effective(w1), Cursor(w1), rest) && Cursor(r) == Cursor(w1) + |rest|
    ensures Effective(r) == Put(Effective(w), Cursor(w), d + rest) && Cursor(r) == Cursor(w) + |d + rest|
  {
    assert Cursor(w) <= |Effective(w)|;
    PutPut(Effective(w), Cursor(w), d, rest);
  }

  /** With a valid descriptor and room on the device, every write succeeds. */
  lemma WriteSucceedsWithRoom(w: Writer, d: seq<byte>)
    requires Valid(w) && |d| < CAPACITY && IsOpen(w)
    requires Cursor(w) + |d| <= w.sink.limit
    ensures WriteBytes(w, d).1
  {
  }

  /** A buffer one byte short of capacity followed by a two-byte write:
      exactly one system call, of capacity-1 bytes, and the two bytes are
      then buffered. */
  lemma FillThenOverflow(w: Writer, d1: seq<byte>, d2: seq<byte>)
    requires Valid(w) && w.buffer == [] && IsOpen(w)
    requires |d1| == CAPACITY - 1 && |d2| == 2
    requires w.sink.offset + CAPACITY - 1 <= w.sink.limit
    ensures var (w1, ok1) := WriteBytes(w, d1);
      ok1 && w1.sink.calls == w.sink.calls
      && var (w2, ok2) := WriteBytes(w1, d2);
      ok2 && w2.sink.calls == w.sink.calls + [CAPACITY - 1] && w2.buffer == d2
  {
  }

  /** The buffer position stays within capacity under every operation
      (the ensures of each operation carry Valid); starting a write at the
      file's beginning after seekToStart overwrites from offset 0. */
  lemma RewriteFromStart(w: Writer, d: seq<byte>)
    requires Valid(w) && |d| < CAPACITY
    requires SeekToStart(w).1
    ensures var w1 := SeekToStart(w).0;
      WriteBytes(w1, d).1 ==> Effective(WriteBytes(w1, d).0) == Put(Effective(w), 0, d)
  {
  }
}

=== FILE: clip.dfy ===
/** The clip timeline. A clip is a range of frames of one raw DV file; a
    clip list plays its clips back to back. Frames are fetched through one
    read-ahead block of up to 100 frames that all clips share, modelled
    here as an explicit value passed from call to call. Files are reduced
    to their sizes, and a frame to the file and index it was read from. */
module Clip {
  import opened Common
  import DvFrame

  datatype VideoType = Pal | Ntsc
  datatype Format = Normal | Widescreen

  /** The most frames one refill of the read-ahead block fetches. */
  const MAX_BUFFERED: int := 100

  /** What probing a file at construction finds: its size in bytes (0 when
      it cannot be opened or its first PAL-sized frame cannot be read) and
      the system and aspect ratio of its first frame. */
  datatype Probe = Probe(size: nat, kind: VideoType, format: Format)

  datatype Clip = Clip(fileName: string, chapter: string, from: int, to: int,
                       length: int, kind: VideoType, format: Format)

  function FrameSize(kind: VideoType): int
  {
    DvFrame.FrameSize(kind == Pal)
  }

  /** Frames per second as the rational num/den: 25 for PAL and the
      decimal 29.97 (not 30000/1001) for NTSC. */
  function FrameRate(kind: VideoType): (r: (int, int))
    ensures r.1 > 0
    ensures var dv := DvFrame.FrameRate(kind == Pal);
      kind == Pal <==> r.0 * dv.1 == dv.0 * r.1
    ensures kind == Ntsc ==> 0 < 30000 * r.1 - r.0 * 1001 < r.1
  {
    if kind == Pal then (25, 1) else (2997, 100)
  }

  predicate IsOk(c: Clip)
  {
    c.length != -1
  }

  function TypeStr(kind: VideoType): string
  {
    if kind == Pal then "pal" else "ntsc"
  }

  function FormatStr(format: Format): string
  {
    if format == Normal then "4:3" else "16:9"
  }

  /** Two clips can be played in one list when they share system and
      aspect ratio. */
  predicate Similar(a: Clip, b: Clip)
  {
    a.kind == b.kind && a.format == b.format
  }

  /** Similarity is exactly agreement of the printed system and aspect
      names, and so an equivalence. */
  lemma SimilarByNames(a: Clip, b: Clip, c: Clip)
    ensures Similar(a, b) <==> TypeStr(a.kind) == TypeStr(b.kind) && FormatStr(a.format) == FormatStr(b.format)
    ensures Similar(a, a)
    ensures Similar(a, b) ==> Similar(b, a)
    ensures Similar(a, b) && Similar(b, c) ==> Similar(a, c)
  {
    if TypeStr(a.kind) == TypeStr(b.kind) {
      assert |TypeStr(a.kind)| == |TypeStr(b.kind)|;
    }
    if FormatStr(a.format) == FormatStr(b.format) {
      assert |FormatStr(a.format)| == |FormatStr(b.format)|;
    }
  }

  // ---------------------------------------------------------------------
  // Construction

  /** The integer-range constructor. With both bounds non-negative the
      range is kept and is valid when both its first and its last frame
      start inside the file; a negative bound selects the whole file,
      with `to` set to the number of frames. An unreadable file leaves
      the clip invalid. */
  function Construct(name: string, f: int, t: int, ch: string, probe: Probe): (c: Clip)
    ensures c.fileName == name && c.chapter == ch
    ensures c.kind == probe.kind && c.format == probe.format
    ensures probe.size == 0 ==> c.from == f && c.to == t && !IsOk(c)
    ensures probe.size != 0 && f >= 0 && t >= 0 ==>
      var fs := FrameSize(probe.kind);
      c.from == f && c.to == t &&
      (f * fs <= probe.size && t * fs <= probe.size ==> c.length == t - f + 1) &&
      (!(f * fs <= probe.size && t * fs <= probe.size) ==> !IsOk(c))
    ensures probe.size != 0 && (f < 0 || t < 0) ==>
      IsOk(c) && c.from == 0 && c.to == c.length && c.length * FrameSize(probe.kind) <= probe.size
  {
    var fs := FrameSize(probe.kind);
    var blank := Clip(name, ch, f, t, -1, probe.kind, probe.format);
    if probe.size != 0 then
      if f >= 0 && t >= 0 then
        if f * fs <= probe.size && t * fs <= probe.size then blank.(length := t - f + 1) else blank
      else
        var frames := probe.size / fs;
        blank.(from := 0, to := frames, length := frames)
    else blank
  }

  /** The constructor with the range check and the whole-file range both
      counting frame `to` as included: its last byte must lie inside the
      file. */
  function ConstructCorrected(name: string, f: int, t: int, ch: string, probe: Probe): (c: Clip)
    ensures c.fileName == name && c.chapter == ch
    ensures c.kind == probe.kind && c.format == probe.format
    ensures probe.size == 0 ==> !IsOk(c)
    ensures probe.size != 0 && f >= 0 && t >= 0 ==>
      c.from == f && c.to == t &&
      (f * FrameSize(probe.kind) <= probe.size && (t + 1) * FrameSize(probe.kind) <= probe.size ==> c.length == t - f + 1) &&
      (!((t + 1) * FrameSize(probe.kind) <= probe.size && f * FrameSize(probe.kind) <= probe.size) ==> !IsOk(c))
    ensures probe.size != 0 && (f < 0 || t < 0) ==>
      IsOk(c) && c.from == 0 && c.to == c.length - 1 &&
      c.length * FrameSize(probe.kind) <= probe.size < (c.length + 1) * FrameSize(probe.kind)
  {
    var fs := FrameSize(probe.kind);
    var blank := Clip(name, ch, f, t, -1, probe.kind, probe.format);
    if probe.size != 0 then
      if f >= 0 && t >= 0 then
        if f * fs <= probe.size && (t + 1) * fs <= probe.size then blank.(length := t - f + 1) else blank
      else
        var frames := probe.size / fs;
        blank.(from := 0, to := frames - 1, length := frames)
    else blank
  }

  /** A reversed range passes the validity test: its length is the
      negative or zero difference, and only `to == from - 2` is refused. */
  lemma ReversedRangeIsOk()
    ensures var c := Construct("a.dv", 10, 5, "", Probe(PAL_SIZE_50, Pal, Normal));
      IsOk(c) && c.length == -4
    ensures !IsOk(Construct("a.dv", 10, 8, "", Probe(PAL_SIZE_50, Pal, Normal)))
  {
  }

  /** Fifty PAL frames. */
  const PAL_SIZE_50: nat := 50 * 144000

  // ---------------------------------------------------------------------
  // Playback of one clip

  /** What is read into one frame slot of the read-ahead block: nothing
      yet (the block starts zeroed), a whole frame of a file, or the start
      of a frame cut off by the end of the file. */
  datatype Slot = Zero | FrameOf(file: string, index: int) | Torn(file: string, index: int)

  /** The shared read-ahead block: its frame slots, the number of frames
      the last refill asked for, and the slot served last. */
  datatype ReadAhead = ReadAhead(slots: seq<Slot>, count: int, pos: int)

  predicate ReadAheadValid(ra: ReadAhead)
  {
    |ra.slots| == MAX_BUFFERED && 0 <= ra.pos && ra.count <= MAX_BUFFERED
  }

  /** The block as the program starts: zeroed, with no frames pending. */
  function InitialReadAhead(): (ra: ReadAhead)
    ensures ReadAheadValid(ra) && Exhausted(ra)
  {
    ReadAhead(seq(MAX_BUFFERED, _ => Zero), 0, 0)
  }

  /** No frame is pending in the block: the next request refills it. */
  predicate Exhausted(ra: ReadAhead)
  {
    ra.pos + 1 >= ra.count
  }

  /** The per-clip playback state: whether its file is open, the index of
      the next frame to be counted, and the file offset reads have reached. */
  datatype Playback = Playback(open: bool, current: int, filePos: int)

  /** The state `reset` leaves: file closed, no current frame. */
  const CLOSED: Playback := Playback(false, -1, 0)

  /** The files the clips name, by size in bytes. */
  type Disk = map<string, nat>

  /** The slots after a read of `got` bytes at frame `first` of `file`:
      whole frames first, then a torn frame if the read ended inside one;
      the slots past the read keep what they held. */
  function Fill(slots: seq<Slot>, file: string, first: int, got: int, fs: int): (r: seq<Slot>)
    requires fs > 0
    ensures |r| == |slots|
    ensures forall j :: 0 <= j < |slots| && (j + 1) * fs <= got ==> r[j] == FrameOf(file, first + j)
    ensures forall j :: 0 <= j < |slots| && j * fs < got < (j + 1) * fs ==> r[j] == Torn(file, first + j)
    ensures forall j :: 0 <= j < |slots| && got <= j * fs ==> r[j] == slots[j]
  {
    seq(|slots|, j requires 0 <= j < |slots| =>
      if (j + 1) * fs <= got then FrameOf(file, first + j)
      else if j * fs < got then Torn(file, first + j)
      else slots[j])
  }

  /** `CClip::nextFrame`. The file is opened (and positioned at `from`) on
      the first call; each call counts one frame while `current <= to`.
      A frame comes from the block when one is pending; otherwise the
      block is refilled. Any call that serves nothing closes the clip.
      With `forgetShort` a short read also empties the block. */
  function NextFrameWith(c: Clip, st: Playback, ra: ReadAhead, disk: Disk, forgetShort: bool)
    : (r: (Option<Slot>, Playback, ReadAhead))
    requires ReadAheadValid(ra)
    ensures ReadAheadValid(r.2)
    ensures c.fileName == "" ==> r == (None, st, ra)
    ensures c.fileName != "" && r.0.None? ==> r.1 == CLOSED
    ensures r.0.Some? ==> r.1.open && r.1.current == (if st.open then st.current else c.from) + 1
    ensures r.0.Some? ==> r.1.current <= c.to + 1
  {
    if c.fileName == "" then (None, st, ra)
    else Serve(c, Open(c, st, disk), ra, disk, forgetShort)
  }

  /** The first call opens the file and seeks to frame `from`; a file that
      cannot be opened or positioned stays closed. Either way counting
      starts at `from`. */
  function Open(c: Clip, st: Playback, disk: Disk): (r: Playback)
    ensures st.open ==> r == st
    ensures !st.open ==> r.current == c.from && r.filePos == (if r.open then c.from * FrameSize(c.kind) else 0)
    ensures !st.open ==> (r.open <==> c.fileName in disk && (c.from == 0 || c.from * FrameSize(c.kind) >= 0))
  {
    if st.open then st
    else if c.fileName !in disk || (c.from != 0 && c.from * FrameSize(c.kind) < 0) then Playback(false, c.from, 0)
    else Playback(true, c.from, c.from * FrameSize(c.kind))
  }

  /** Counting one frame of an open clip: a pending frame of the block is
      served; otherwise the block is refilled. */
  function Serve(c: Clip, started: Playback, ra: ReadAhead, disk: Disk, forgetShort: bool)
    : (r: (Option<Slot>, Playback, ReadAhead))
    requires ReadAheadValid(ra)
    ensures ReadAheadValid(r.2)
    ensures r.0.None? ==> r.1 == CLOSED
    ensures r.0.Some? ==> r.1.open && r.1.current == started.current + 1 <= c.to + 1
  {
    if started.open && started.current <= c.to then
      var counted := started.(current := started.current + 1);
      var pos := ra.pos + 1;
      if pos < ra.count then (Some(ra.slots[pos]), counted, ra.(pos := pos))
      else Refill(c, counted, ra, disk, forgetShort)
    else (None, CLOSED, ra)
  }

  /** A refill asks for min(to - current + 2, 100) frames (counting after
      the increment) and serves the first unless the read comes up short. */
  function Refill(c: Clip, counted: Playback, ra: ReadAhead, disk: Disk, forgetShort: bool)
    : (r: (Option<Slot>, Playback, ReadAhead))
    requires ReadAheadValid(ra)
    ensures ReadAheadValid(r.2)
    ensures r.0.None? ==> r.1 == CLOSED
    ensures r.0.Some? ==> r.1.open == counted.open && r.1.current == counted.current
  {
    var fs := FrameSize(c.kind);
    var n := Min(c.to - counted.current + 2, MAX_BUFFERED);
    if n <= 0 then (None, CLOSED, ReadAhead(ra.slots, n, 0))
    else
      var toRead := fs * n;
      var size := if c.fileName in disk then disk[c.fileName] else 0;
      var avail := size - counted.filePos;
      var got := if avail <= 0 then 0 else Min(toRead, avail);
      var block := ReadAhead(Fill(ra.slots, c.fileName, counted.filePos / fs, got, fs), n, 0);
      if got == toRead then (Some(block.slots[0]), counted.(filePos := counted.filePos + got), block)
      else (None, CLOSED, if forgetShort then block.(count := 0) else block)
  }

  /** `CClip::nextFrame` as written: a short read leaves the block as the
      read left it, with its frame count still set. */
  function ClipNextFrame(c: Clip, st: Playback, ra: ReadAhead, disk: Disk): (r: (Option<Slot>, Playback, ReadAhead))
    requires ReadAheadValid(ra)
    ensures ReadAheadValid(r.2)
    ensures c.fileName != "" && r.0.None? ==> r.1 == CLOSED
    ensures r.0.Some? ==> r.1.open && r.1.current == (if st.open then st.current else c.from) + 1
  {
    NextFrameWith(c, st, ra, disk, false)
  }

  /** `CClip::nextFrame` with a short read also discarding the block. */
  function ClipNextFrameCorrected(c: Clip, st: Playback, ra: ReadAhead, disk: Disk): (r: (Option<Slot>, Playback, ReadAhead))
    requires ReadAheadValid(ra)
    ensures ReadAheadValid(r.2)
    ensures c.fileName != "" && r.0.None? ==> r.1 == CLOSED
    ensures r.0.Some? ==> r.1.open && r.1.current == (if st.open then st.current else c.from) + 1
  {
    NextFrameWith(c, st, ra, disk, true)
  }

  /** A clip's `nextFrame` as the clip list sees it: the frame served, if
      any, with the clip's new state and the block. */
  type ClipStep = (Clip, Playback, ReadAhead) -> (Option<Slot>, Playback, ReadAhead)

  /** `CClip::nextFrame` on the files of `disk`. The block always keeps
      its 100 slots (`ReadAheadValid`); one of another shape cannot arise
      and is given nothing to serve. */
  function StepOn(disk: Disk): ClipStep
  {
    (c: Clip, st: Playback, ra: ReadAhead) =>
      if ReadAheadValid(ra) then ClipNextFrame(c, st, ra, disk) else (None, CLOSED, ra)
  }

  lemma StepOnValid(disk: Disk, c: Clip, st: Playback, ra: ReadAhead)
    requires ReadAheadValid(ra)
    ensures StepOn(disk)(c, st, ra) == ClipNextFrame(c, st, ra, disk)
  {
  }

  /** A clip whose frames `from..to` all lie inside its file. */
  predicate Servable(c: Clip, disk: Disk)
  {
    c.fileName != "" && c.fileName in disk && 0 <= c.from <= c.to &&
    (c.to + 1) * FrameSize(c.kind) <= disk[c.fileName]
  }

  /** Number of frames in the range of a clip. */
  function Frames(c: Clip): int
  {
    c.to - c.from + 1
  }

  /** The state after `k` frames of a servable clip were served: the block
      holds the frames of the clip from index `from + b` on, where `b` is
      the frame count at the last refill, and the file has been read up to
      the end of the block. */
  predicate Serving(c: Clip, st: Playback, ra: ReadAhead, k: int)
  {
    var b := k - 1 - ra.pos;
    ReadAheadValid(ra) &&
    st.open && st.current == c.from + k && 1 <= ra.count && ra.pos < ra.count &&
    0 <= b && b + ra.count <= Frames(c) &&
    st.filePos == (c.from + b + ra.count) * FrameSize(c.kind) &&
    forall j :: 0 <= j < ra.count ==> ra.slots[j] == FrameOf(c.fileName, c.from + b + j)
  }

  lemma DivMul(a: int, kind: VideoType)
    ensures (a * FrameSize(kind)) / FrameSize(kind) == a
  {
    if kind == Pal {
      assert (a * 144000) / 144000 == a;
    } else {
      assert (a * 120000) / 120000 == a;
    }
  }

  lemma MulLe(a: int, b: int, kind: VideoType)
    requires a <= b
    ensures a * FrameSize(kind) <= b * FrameSize(kind)
  {
  }

  /** A refill at frame `k` of a servable clip whose file has been read up
      to that frame fetches the next min(Frames - k, 100) frames in full. */
  lemma RefillFull(c: Clip, st: Playback, ra: ReadAhead, disk: Disk, forgetShort: bool, k: int)
    requires Servable(c, disk) && ReadAheadValid(ra)
    requires st.open && st.current == c.from + k && 0 <= k < Frames(c)
    requires st.filePos == (c.from + k) * FrameSize(c.kind)
    requires ra.pos + 1 >= ra.count
    ensures var r := NextFrameWith(c, st, ra, disk, forgetShort);
      r.0 == Some(FrameOf(c.fileName, c.from + k)) && Serving(c, r.1, r.2, k + 1)
  {
    var fs := FrameSize(c.kind);
    var n := Min(c.to - (c.from + k + 1) + 2, MAX_BUFFERED);
    assert 1 <= n <= Frames(c) - k;
    MulLe(c.from + k + n, c.to + 1, c.kind);
    assert (c.from + k + n) * fs == st.filePos + fs * n;
    DivMul(c.from + k, c.kind);
    var r := NextFrameWith(c, st, ra, disk, forgetShort);
    var slots := Fill(ra.slots, c.fileName, c.from + k, fs * n, fs);
    forall j | 0 <= j < n
      ensures slots[j] == FrameOf(c.fileName, c.from + k + j)
    {
      MulLe(j + 1, n, c.kind);
    }
    assert r.2 == ReadAhead(slots, n, 0);
    assert r.1.filePos == (c.from + k + n) * fs;
  }

  /** The first request to a closed servable clip, with no frame pending,
      serves its first frame. */
  lemma FirstFrame(c: Clip, st: Playback, ra: ReadAhead, disk: Disk, forgetShort: bool)
    requires Servable(c, disk) && ReadAheadValid(ra) && Exhausted(ra) && !st.open
    ensures var r := NextFrameWith(c, st, ra, disk, forgetShort);
      r.0 == Some(FrameOf(c.fileName, c.from)) && Serving(c, r.1, r.2, 1)
  {
    RefillFull(c, Playback(true, c.from, c.from * FrameSize(c.kind)), ra, disk, forgetShort, 0);
  }

  /** Each further request serves the next frame of the range, from the
      block or by a full refill. */
  lemma NextInRange(c: Clip, st: Playback, ra: ReadAhead, disk: Disk, forgetShort: bool, k: int)
    requires Servable(c, disk) && Serving(c, st, ra, k) && k < Frames(c)
    ensures var r := NextFrameWith(c, st, ra, disk, forgetShort);
      r.0 == Some(FrameOf(c.fileName, c.from + k)) && Serving(c, r.1, r.2, k + 1)
  {
    if ra.pos + 1 >= ra.count {
      RefillFull(c, st, ra, disk, forgetShort, k);
    }
  }

  /** Once the range is used up the clip closes, serving nothing, and
      leaves no frame pending. */
  lemma PastTheEnd(c: Clip, st: Playback, ra: ReadAhead, disk: Disk, forgetShort: bool)
    requires Servable(c, disk) && Serving(c, st, ra, Frames(c))
    ensures var r := NextFrameWith(c, st, ra, disk, forgetShort);
      r == (None, CLOSED, ra) && Exhausted(ra)
  {
  }

  /** The frames served by up to `fuel` requests, stopping at the first
      request that serves none, with the state left behind. */
  function Drain(step: ClipStep, c: Clip, st: Playback, ra: ReadAhead, fuel: nat): (r: (seq<Slot>, Playback, ReadAhead))
    ensures |r.0| <= fuel
    decreases fuel
  {
    if fuel == 0 then ([], st, ra)
    else
      var s := step(c, st, ra);
      if s.0.None? then ([], s.1, s.2)
      else
        var rest := Drain(step, c, s.1, s.2, fuel - 1);
        ([s.0.value] + rest.0, rest.1, rest.2)
  }

  /** Frames `from..to` of a file, in order. */
  function Range(file: string, from: int, to: int): (r: seq<Slot>)
    decreases to - from
  {
    if to < from then [] else [FrameOf(file, from)] + Range(file, from + 1, to)
  }

  /** `Range` lists frames `from..to` one by one. */
  lemma {:induction false} RangeFrames(file: string, from: int, to: int)
    decreases to - from
    ensures |Range(file, from, to)| == (if to < from then 0 else to - from + 1)
    ensures forall j :: 0 <= j < |Range(file, from, to)| ==> Range(file, from, to)[j] == FrameOf(file, from + j)
  {
    if from <= to {
      RangeFrames(file, from + 1, to);
    }
  }

  lemma DrainUnfold(step: ClipStep, c: Clip, st: Playback, ra: ReadAhead, fuel: nat)
    requires fuel > 0 && step(c, st, ra).0.Some?
    ensures var s := step(c, st, ra);
      var rest := Drain(step, c, s.1, s.2, fuel - 1);
      Drain(step, c, st, ra, fuel) == ([s.0.value] + rest.0, rest.1, rest.2)
  {
  }

  lemma {:induction false} DrainFrom(c: Clip, st: Playback, ra: ReadAhead, disk: Disk, k: int)
    requires Servable(c, disk) && Serving(c, st, ra, k) && 1 <= k <= Frames(c)
    ensures var r := Drain(StepOn(disk), c, st, ra, Frames(c) - k + 1);
      r.0 == Range(c.fileName, c.from + k, c.to) && r.1 == CLOSED && Exhausted(r.2) && ReadAheadValid(r.2)
    decreases Frames(c) - k
  {
    if k == Frames(c) {
      StepPast(c, st, ra, disk);
    } else {
      StepNext(c, st, ra, disk, k);
      var step := StepOn(disk)(c, st, ra);
      DrainUnfold(StepOn(disk), c, st, ra, Frames(c) - k + 1);
      DrainFrom(c, step.1, step.2, disk, k + 1);
    }
  }

  lemma StepNext(c: Clip, st: Playback, ra: ReadAhead, disk: Disk, k: int)
    requires Servable(c, disk) && Serving(c, st, ra, k) && k < Frames(c)
    ensures var r := StepOn(disk)(c, st, ra);
      r.0 == Some(FrameOf(c.fileName, c.from + k)) && Serving(c, r.1, r.2, k + 1)
  {
    StepOnValid(disk, c, st, ra);
    NextInRange(c, st, ra, disk, false, k);
  }

  lemma StepPast(c: Clip, st: Playback, ra: ReadAhead, disk: Disk)
    requires Servable(c, disk) && Serving(c, st, ra, Frames(c))
    ensures StepOn(disk)(c, st, ra) == (None, CLOSED, ra) && Exhausted(ra)
  {
    StepOnValid(disk, c, st, ra);
    PastTheEnd(c, st, ra, disk, false);
  }

  lemma RangeConcat(file: string, from: int, to: int, rest: seq<Slot>)
    requires from <= to
    ensures [FrameOf(file, from)] + (Range(file, from + 1, to) + rest) == Range(file, from, to) + rest
  {
  }

  /** A servable clip, started closed with no frame pending, serves
      exactly frames `from..to` of its file in order, then closes and
      leaves no frame pending for the next clip. */
  lemma DrainServesRange(c: Clip, st: Playback, ra: ReadAhead, disk: Disk)
    requires Servable(c, disk) && ReadAheadValid(ra) && Exhausted(ra) && !st.open
    ensures var r := Drain(StepOn(disk), c, st, ra, Frames(c) + 1);
      r.0 == Range(c.fileName, c.from, c.to) && r.1 == CLOSED && Exhausted(r.2) && ReadAheadValid(r.2)
  {
    FirstFrame(c, st, ra, disk, false);
    StepOnValid(disk, c, st, ra);
    var step := ClipNextFrame(c, st, ra, disk);
    DrainUnfold(StepOn(disk), c, st, ra, Frames(c) + 1);
    DrainFrom(c, step.1, step.2, disk, 1);
  }

  /** A whole file of fifty PAL frames, built as written, asks for 51
      frames at its first refill, gets fifty, and so serves none. */
  lemma ShortWholeFileYieldsNothing()
    ensures var c := Construct("a.dv", -1, -1, "", Probe(PAL_SIZE_50, Pal, Normal));
      c.to == 50 && c.length == 50 &&
      ClipNextFrame(c, CLOSED, InitialReadAhead(), map["a.dv" := PAL_SIZE_50]).0 == None
  {
  }

  /** The corrected whole-file clip serves every whole frame of its file. */
  lemma CorrectedWholeFileServesEveryFrame(name: string, probe: Probe, disk: Disk, ra: ReadAhead)
    requires name != "" && name in disk && disk[name] == probe.size
    requires probe.size >= FrameSize(probe.kind)
    requires ReadAheadValid(ra) && Exhausted(ra)
    ensures var c := ConstructCorrected(name, -1, -1, "", probe);
      Drain(StepOn(disk), c, CLOSED, ra, c.length + 1).0 == Range(name, 0, probe.size / FrameSize(probe.kind) - 1)
  {
    var c := ConstructCorrected(name, -1, -1, "", probe);
    var fs := FrameSize(probe.kind);
    MulLe(1, probe.size / fs, probe.kind);
    DrainServesRange(c, CLOSED, ra, disk);
  }

  /** With the correction, a request that serves nothing never leaves a
      frame pending that was not pending before. */
  lemma ShortReadForgotten(c: Clip, st: Playback, ra: ReadAhead, disk: Disk)
    requires ReadAheadValid(ra) && Exhausted(ra)
    ensures var r := ClipNextFrameCorrected(c, st, ra, disk);
      r.0.None? ==> Exhausted(r.2)
  {
  }

  /** From an exhausted block a closed clip's first frame, when it serves
      one, is the frame `from` of its own file. */
  lemma FreshClipReadsOwnFile(c: Clip, st: Playback, ra: ReadAhead, disk: Disk, forgetShort: bool)
    requires ReadAheadValid(ra) && Exhausted(ra) && !st.open
    ensures var r := NextFrameWith(c, st, ra, disk, forgetShort);
      r.0.Some? ==> r.0 == Some(FrameOf(c.fileName, c.from))
  {
    var fs := FrameSize(c.kind);
    if c.fileName != "" && c.fileName in disk && c.from >= 0 && c.from <= c.to {
      DivMul(c.from, c.kind);
      var n := Min(c.to - (c.from + 1) + 2, MAX_BUFFERED);
      var r := NextFrameWith(c, st, ra, disk, forgetShort);
      if r.0.Some? {
        MulLe(1, n, c.kind);
      }
    }
  }

  // ---------------------------------------------------------------------
  // The clip list

  /** The clips, the running frame total and the sparse per-frame chapter
      labels. */
  datatype ClipList = ClipList(clips: seq<Clip>, totalFrames: int, labels: map<int, string>)

  /** Where playback of a list stands: the current clip, the playback
      state of every clip and the shared read-ahead block. */
  datatype Cursor = Cursor(index: nat, plays: seq<Playback>, ra: ReadAhead)

  predicate CursorValid(l: ClipList, cur: Cursor)
  {
    |cur.plays| == |l.clips| && cur.index <= |l.clips|
  }

  /** The cursor after the current clip was asked for a frame and left
      in state `st`, with the block `ra`. */
  function Stay(cur: Cursor, st: Playback, ra: ReadAhead): (r: Cursor)
    requires cur.index < |cur.plays|
    ensures r.index == cur.index && |r.plays| == |cur.plays| && r.ra == ra
    ensures r.plays[cur.index] == st
    ensures forall j :: 0 <= j < |cur.plays| && j != cur.index ==> r.plays[j] == cur.plays[j]
  {
    Cursor(cur.index, cur.plays[cur.index := st], ra)
  }

  /** The cursor moved on to the next clip, the current one left in `st`. */
  function Leave(cur: Cursor, st: Playback, ra: ReadAhead): (r: Cursor)
    requires cur.index < |cur.plays|
    ensures r.index == cur.index + 1 && |r.plays| == |cur.plays| && r.ra == ra
    ensures r.plays[cur.index] == st
    ensures forall j :: 0 <= j < |cur.plays| && j != cur.index ==> r.plays[j] == cur.plays[j]
  {
    Cursor(cur.index + 1, cur.plays[cur.index := st], ra)
  }

  /** Leaving after staying forgets the intermediate state. */
  lemma LeaveAfterStay(cur: Cursor, st: Playback, ra: ReadAhead, st2: Playback, ra2: ReadAhead)
    requires cur.index < |cur.plays|
    ensures Leave(Stay(cur, st, ra), st2, ra2) == Leave(cur, st2, ra2)
  {
    assert Leave(Stay(cur, st, ra), st2, ra2).plays == Leave(cur, st2, ra2).plays;
  }

  /** Sum of the clip lengths. */
  function SumLengths(cs: seq<Clip>): int
  {
    if |cs| == 0 then 0 else SumLengths(cs[..|cs| - 1]) + cs[|cs| - 1].length
  }

  /** `addClip`: a clip unlike the first one is refused; otherwise it is
      appended and its length added to the total. */
  function AddClip(l: ClipList, c: Clip): (r: (ClipList, bool))
    ensures r.1 <==> |l.clips| == 0 || Similar(l.clips[0], c)
    ensures r.1 ==> r.0 == l.(clips := l.clips + [c], totalFrames := l.totalFrames + c.length)
    ensures !r.1 ==> r.0 == l
  {
    if |l.clips| > 0 && !Similar(l.clips[0], c) then (l, false)
    else (l.(clips := l.clips + [c], totalFrames := l.totalFrames + c.length), true)
  }

  /** `check`: every clip after the first is similar to the first. */
  function Check(l: ClipList): (r: bool)
    ensures r <==> forall i :: 0 < i < |l.clips| ==> Similar(l.clips[i], l.clips[0])
    ensures |l.clips| <= 1 ==> r
  {
    if |l.clips| == 0 then true
    else CheckFrom(l.clips, 1)
  }

  function CheckFrom(cs: seq<Clip>, i: nat): (r: bool)
    requires 0 < |cs| && i <= |cs|
    ensures r <==> forall j :: i <= j < |cs| ==> Similar(cs[j], cs[0])
    decreases |cs| - i
  {
    if i == |cs| then true
    else Similar(cs[i], cs[0]) && CheckFrom(cs, i + 1)
  }

  /** `clearList`: no clips and a zero total; the chapter labels stay. */
  function ClearList(l: ClipList): (r: ClipList)
    ensures r.clips == [] && r.totalFrames == 0 && r.labels == l.labels
    ensures Check(r)
  {
    ClipList([], 0, l.labels)
  }

  /** A list that passes `check` still passes it after any `addClip`, and
      a total that is the sum of the lengths stays so. */
  lemma AddClipKeepsCheck(l: ClipList, c: Clip)
    requires Check(l) && l.totalFrames == SumLengths(l.clips)
    ensures Check(AddClip(l, c).0)
    ensures AddClip(l, c).0.totalFrames == SumLengths(AddClip(l, c).0.clips)
  {
    var r := AddClip(l, c).0;
    if AddClip(l, c).1 {
      assert r.clips[..|r.clips| - 1] == l.clips;
      if |l.clips| > 0 {
        forall i | 0 < i < |r.clips|
          ensures Similar(r.clips[i], r.clips[0])
        {
          if i < |l.clips| {
            assert r.clips[i] == l.clips[i];
          }
        }
      }
    }
  }

  /** Adding clips one by one, refusals included. */
  function AddAll(l: ClipList, cs: seq<Clip>): ClipList
    decreases |cs|
  {
    if |cs| == 0 then l else AddAll(AddClip(l, cs[0]).0, cs[1..])
  }

  /** Any list built by `addClip` from an empty one passes `check` and
      carries the sum of its lengths as its total. */
  lemma {:induction false} AddAllChecks(l: ClipList, cs: seq<Clip>)
    requires Check(l) && l.totalFrames == SumLengths(l.clips)
    ensures Check(AddAll(l, cs)) && AddAll(l, cs).totalFrames == SumLengths(AddAll(l, cs).clips)
    decreases |cs|
  {
    if |cs| > 0 {
      AddClipKeepsCheck(l, cs[0]);
      AddAllChecks(AddClip(l, cs[0]).0, cs[1..]);
    }
  }

  /** `CClipList::reset`: back to the first clip; the clips' own states
      and the read-ahead block are left alone. */
  function Rewind(cur: Cursor): (r: Cursor)
    ensures r.index == 0 && r.plays == cur.plays && r.ra == cur.ra
  {
    cur.(index := 0)
  }

  /** `CClipList::nextFrame`: a frame of the current clip, moving on to
      the next clip whenever the current one serves none; nothing only
      once past the last clip. `step` is the clips' own `nextFrame`,
      `StepOn(disk)` for clips on `disk`. */
  function ListNextFrame(step: ClipStep, l: ClipList, cur: Cursor): (r: (Option<Slot>, Cursor))
    requires CursorValid(l, cur)
    ensures CursorValid(l, r.1)
    ensures r.1.index >= cur.index
    ensures r.0.None? <==> r.1.index == |l.clips|
    decreases |l.clips| - cur.index
  {
    if cur.index < |l.clips| then
      var i := cur.index;
      var s := step(l.clips[i], cur.plays[i], cur.ra);
      if s.0.Some? then (s.0, Stay(cur, s.1, s.2))
      else ListNextFrame(step, l, Leave(cur, s.1, s.2))
    else (None, cur)
  }

  /** The frames served by up to `fuel` requests to the list. */
  function ListDrain(step: ClipStep, l: ClipList, cur: Cursor, fuel: nat): (r: seq<Slot>)
    requires CursorValid(l, cur)
    ensures |r| <= fuel
    decreases fuel
  {
    if fuel == 0 then []
    else
      var s := ListNextFrame(step, l, cur);
      if s.0.None? then [] else [s.0.value] + ListDrain(step, l, s.1, fuel - 1)
  }

  /** The ranges of the clips, one after another. */
  function AllFrames(cs: seq<Clip>): seq<Slot>
  {
    if |cs| == 0 then [] else Range(cs[0].fileName, cs[0].from, cs[0].to) + AllFrames(cs[1..])
  }

  function FrameCount(cs: seq<Clip>): int
  {
    if |cs| == 0 then 0 else Frames(cs[0]) + FrameCount(cs[1..])
  }

  predicate AllServable(cs: seq<Clip>, disk: Disk)
  {
    forall i :: 0 <= i < |cs| ==> Servable(cs[i], disk)
  }

  /** The frame count of clips whose frames lie in their files is the
      number of frames the list serves, at least one per clip. */
  lemma {:induction false} FrameCountServed(cs: seq<Clip>, disk: Disk)
    requires AllServable(cs, disk)
    ensures FrameCount(cs) == |AllFrames(cs)|
    ensures FrameCount(cs) >= |cs|
    decreases |cs|
  {
    if |cs| > 0 {
      RangeFrames(cs[0].fileName, cs[0].from, cs[0].to);
      FrameCountServed(cs[1..], disk);
    }
  }

  /** Clips `index..` have not been started. */
  predicate RestClosed(l: ClipList, cur: Cursor, from: int)
    requires |cur.plays| == |l.clips|
  {
    forall j :: 0 <= j < |l.clips| && from <= j ==> !cur.plays[j].open
  }

  lemma ListDrainSameStep(step: ClipStep, l: ClipList, a: Cursor, b: Cursor, fuel: nat)
    requires CursorValid(l, a) && CursorValid(l, b)
    requires ListNextFrame(step, l, a) == ListNextFrame(step, l, b)
    ensures ListDrain(step, l, a, fuel) == ListDrain(step, l, b, fuel)
  {
  }

  lemma ListUnfold(step: ClipStep, l: ClipList, cur: Cursor, fuel: nat)
    requires CursorValid(l, cur) && fuel > 0
    requires ListNextFrame(step, l, cur).0.Some?
    ensures var s := ListNextFrame(step, l, cur);
      ListDrain(step, l, cur, fuel) == [s.0.value] + ListDrain(step, l, s.1, fuel - 1)
  {
  }

  /** While clip `index` serves frames within `m` requests, the list
      serves the same frames; the request on which the clip serves none
      moves on to the next clip, in the state the clip was left in. */
  predicate FollowsClip(step: ClipStep, l: ClipList, cur: Cursor, m: nat, fuel: nat)
    requires CursorValid(l, cur) && cur.index < |l.clips| && m <= fuel
  {
    var i := cur.index;
    var d := Drain(step, l.clips[i], cur.plays[i], cur.ra, m);
    |d.0| < m ==>
      ListDrain(step, l, cur, fuel) == d.0 + ListDrain(step, l, Leave(cur, d.1, d.2), fuel - |d.0|)
  }

  lemma {:induction false} ListFollowsClip(step: ClipStep, l: ClipList, cur: Cursor, m: nat, fuel: nat)
    requires CursorValid(l, cur) && cur.index < |l.clips| && m <= fuel
    ensures FollowsClip(step, l, cur, m, fuel)
    decreases m
  {
    var i := cur.index;
    if m > 0 {
      var s := step(l.clips[i], cur.plays[i], cur.ra);
      if s.0.None? {
        ListFollowsNone(step, l, cur, m, fuel);
      } else {
        ListFollowsClip(step, l, Stay(cur, s.1, s.2), m - 1, fuel - 1);
        ListFollowsSome(step, l, cur, m, fuel);
      }
    }
  }

  /** The clip serves nothing: the list moves on within the same request. */
  lemma ListFollowsNone(step: ClipStep, l: ClipList, cur: Cursor, m: nat, fuel: nat)
    requires CursorValid(l, cur) && cur.index < |l.clips| && 0 < m <= fuel
    requires step(l.clips[cur.index], cur.plays[cur.index], cur.ra).0.None?
    ensures FollowsClip(step, l, cur, m, fuel)
  {
    var i := cur.index;
    var s := step(l.clips[i], cur.plays[i], cur.ra);
    ListDrainSameStep(step, l, cur, Leave(cur, s.1, s.2), fuel);
    assert [] + ListDrain(step, l, Leave(cur, s.1, s.2), fuel) == ListDrain(step, l, Leave(cur, s.1, s.2), fuel);
  }

  /** The clip serves a frame: the list serves it and stays on the clip. */
  lemma ListFollowsSome(step: ClipStep, l: ClipList, cur: Cursor, m: nat, fuel: nat)
    requires CursorValid(l, cur) && cur.index < |l.clips| && 0 < m <= fuel
    requires var s := step(l.clips[cur.index], cur.plays[cur.index], cur.ra);
      s.0.Some? && FollowsClip(step, l, Stay(cur, s.1, s.2), m - 1, fuel - 1)
    ensures FollowsClip(step, l, cur, m, fuel)
  {
    var i := cur.index;
    var c := l.clips[i];
    var s := step(c, cur.plays[i], cur.ra);
    var next := Stay(cur, s.1, s.2);
    var rest := Drain(step, c, s.1, s.2, m - 1);
    DrainUnfold(step, c, cur.plays[i], cur.ra, m);
    if |rest.0| < m - 1 {
      LeaveAfterStay(cur, s.1, s.2, rest.1, rest.2);
      ListUnfold(step, l, cur, fuel);
      ConsAppend(ListDrain(step, l, cur, fuel), ListDrain(step, l, next, fuel - 1), s.0.value,
                 rest.0, ListDrain(step, l, Leave(cur, rest.1, rest.2), fuel - 1 - |rest.0|));
    }
  }

  lemma ConsAppend<T>(a: seq<T>, b: seq<T>, x: T, r: seq<T>, t: seq<T>)
    requires a == [x] + b && b == r + t
    ensures a == ([x] + r) + t
  {
  }

  /** `step` serves a clip started closed with no frame pending as the
      clip's range, and leaves it closed with no frame pending. */
  predicate ServesRange(step: ClipStep, c: Clip, st: Playback, ra: ReadAhead)
  {
    Frames(c) >= 0 &&
    var d := Drain(step, c, st, ra, Frames(c) + 1);
    d.0 == Range(c.fileName, c.from, c.to) && d.1 == CLOSED && Exhausted(d.2) && ReadAheadValid(d.2)
  }

  ghost predicate ServesRanges(step: ClipStep, cs: seq<Clip>)
  {
    forall j: int, st: Playback, ra: ReadAhead {:trigger ServesRange(step, cs[j], st, ra)} :: 0 <= j < |cs| && !st.open && ReadAheadValid(ra) && Exhausted(ra) ==>
      ServesRange(step, cs[j], st, ra)
  }

  /** The cursor once the current clip has served its range. */
  function AfterClip(step: ClipStep, l: ClipList, cur: Cursor): (r: Cursor)
    requires CursorValid(l, cur) && cur.index < |l.clips| && Frames(l.clips[cur.index]) >= 0
    ensures CursorValid(l, r) && r.index == cur.index + 1
  {
    var i := cur.index;
    var d := Drain(step, l.clips[i], cur.plays[i], cur.ra, Frames(l.clips[i]) + 1);
    Leave(cur, d.1, d.2)
  }

  /** A clip served as its range: the list serves that range, then
      continues from the next clip, which is still closed, with no frame
      pending. */
  lemma ListServesClip(step: ClipStep, l: ClipList, cur: Cursor, fuel: nat)
    requires CursorValid(l, cur) && cur.index < |l.clips|
    requires ServesRange(step, l.clips[cur.index], cur.plays[cur.index], cur.ra)
    requires RestClosed(l, cur, cur.index) && Frames(l.clips[cur.index]) < fuel
    ensures var c := l.clips[cur.index];
      var after := AfterClip(step, l, cur);
      ListDrain(step, l, cur, fuel) == Range(c.fileName, c.from, c.to) + ListDrain(step, l, after, fuel - Frames(c)) &&
      RestClosed(l, after, after.index) && Exhausted(after.ra) && ReadAheadValid(after.ra)
  {
    var i := cur.index;
    var c := l.clips[i];
    RangeFrames(c.fileName, c.from, c.to);
    ListFollowsClip(step, l, cur, Frames(c) + 1, fuel);
  }

  /** From the start of clip `index`, with no frame pending, `fuel`
      requests to the list serve the ranges of the remaining clips, for
      any clip step that serves each clip as its range. */
  lemma {:induction false} ListFrom(step: ClipStep, l: ClipList, cur: Cursor, disk: Disk, fuel: nat)
    requires CursorValid(l, cur) && AllServable(l.clips, disk) && ServesRanges(step, l.clips)
    requires RestClosed(l, cur, cur.index) && Exhausted(cur.ra) && ReadAheadValid(cur.ra)
    requires fuel == FrameCount(l.clips[cur.index..]) + 1
    ensures ListDrain(step, l, cur, fuel) == AllFrames(l.clips[cur.index..])
    decreases |l.clips| - cur.index
  {
    var i := cur.index;
    if i < |l.clips| {
      var c := l.clips[i];
      ListFromClip(step, l, cur, disk, fuel);
      var after := AfterClip(step, l, cur);
      ListFrom(step, l, after, disk, fuel - Frames(c));
      AppendSame(ListDrain(step, l, cur, fuel), AllFrames(l.clips[i..]), Range(c.fileName, c.from, c.to),
                 ListDrain(step, l, after, fuel - Frames(c)), AllFrames(l.clips[i + 1..]));
    } else {
      assert l.clips[i..] == [];
      ListEnds(step, l, cur);
    }
  }

  /** One clip of `ListFrom`: the list serves the clip's range and the
      remaining clips start from the same conditions. */
  lemma ListFromClip(step: ClipStep, l: ClipList, cur: Cursor, disk: Disk, fuel: nat)
    requires CursorValid(l, cur) && AllServable(l.clips, disk) && ServesRanges(step, l.clips)
    requires RestClosed(l, cur, cur.index) && Exhausted(cur.ra) && ReadAheadValid(cur.ra)
    requires fuel == FrameCount(l.clips[cur.index..]) + 1 && cur.index < |l.clips|
    ensures var c := l.clips[cur.index];
      Frames(c) >= 0 &&
      var after := AfterClip(step, l, cur);
      FrameCount(l.clips[after.index..]) >= 0 &&
      fuel - Frames(c) == FrameCount(l.clips[after.index..]) + 1 &&
      RestClosed(l, after, after.index) && Exhausted(after.ra) && ReadAheadValid(after.ra) &&
      ListDrain(step, l, cur, fuel) == Range(c.fileName, c.from, c.to) + ListDrain(step, l, after, fuel - Frames(c)) &&
      AllFrames(l.clips[cur.index..]) == Range(c.fileName, c.from, c.to) + AllFrames(l.clips[after.index..])
  {
    var i := cur.index;
    var c := l.clips[i];
    assert l.clips[i..][0] == c && l.clips[i..][1..] == l.clips[i + 1..];
    FrameCountServed(l.clips[i + 1..], disk);
    assert ServesRange(step, c, cur.plays[i], cur.ra);
    ListServesClip(step, l, cur, fuel);
  }

  lemma AppendSame<T>(a: seq<T>, b: seq<T>, r: seq<T>, x: seq<T>, y: seq<T>)
    requires a == r + x && b == r + y && x == y
    ensures a == b
  {
  }

  lemma ListEnds(step: ClipStep, l: ClipList, cur: Cursor)
    requires CursorValid(l, cur) && cur.index == |l.clips|
    ensures ListDrain(step, l, cur, 1) == []
  {
  }

  /** After a reset, a list of servable clips none of which has been
      started, with no frame pending, serves the range of every clip in
      list order and then nothing. */
  lemma ListServesEveryFrame(l: ClipList, cur: Cursor, disk: Disk)
    requires CursorValid(l, cur) && AllServable(l.clips, disk)
    requires RestClosed(l, cur, 0) && Exhausted(cur.ra) && ReadAheadValid(cur.ra)
    ensures FrameCount(l.clips) >= 0
    ensures ListDrain(StepOn(disk), l, Rewind(cur), FrameCount(l.clips) + 1) == AllFrames(l.clips)
  {
    assert l.clips[0..] == l.clips;
    FrameCountServed(l.clips, disk);
    StepOnServesRanges(l.clips, disk);
    ListFrom(StepOn(disk), l, Rewind(cur), disk, FrameCount(l.clips) + 1);
  }

  /** Clips on `disk` are each served as their range by their own
      `nextFrame`. */
  lemma StepOnServesRanges(cs: seq<Clip>, disk: Disk)
    requires AllServable(cs, disk)
    ensures ServesRanges(StepOn(disk), cs)
  {
    forall j: int, st: Playback, ra: ReadAhead | 0 <= j < |cs| && !st.open && ReadAheadValid(ra) && Exhausted(ra)
      ensures ServesRange(StepOn(disk), cs[j], st, ra)
    {
      DrainServesRange(cs[j], st, ra, disk);
    }
  }

  /** A short whole-file clip followed by another: the short read of the
      first leaves its block pending, and the second clip's first frame is
      frame 1 of the first clip's file. */
  lemma StaleFrameServed()
    ensures var a := Construct("a.dv", -1, -1, "", Probe(PAL_SIZE_50, Pal, Normal));
      var b := Construct("b.dv", 0, 9, "", Probe(PAL_SIZE_50, Pal, Normal));
      var l := ClipList([a, b], a.length + b.length, map[]);
      var disk := map["a.dv" := PAL_SIZE_50, "b.dv" := PAL_SIZE_50];
      ListNextFrame(StepOn(disk), l, Cursor(0, [CLOSED, CLOSED], InitialReadAhead())).0 == Some(FrameOf("a.dv", 1))
  {
    var a := Construct("a.dv", -1, -1, "", Probe(PAL_SIZE_50, Pal, Normal));
    var disk := map["a.dv" := PAL_SIZE_50, "b.dv" := PAL_SIZE_50];
    var first := ClipNextFrame(a, CLOSED, InitialReadAhead(), disk);
    assert first.0 == None;
    assert first.2.count == 51 && first.2.pos == 0;
    assert first.2.slots[1] == FrameOf("a.dv", 1);
  }

  /** `currentChapterName`: the current clip's own label when it has one,
      otherwise the label recorded for the list-wide frame index, otherwise
      empty. */
  function CurrentChapterName(l: ClipList, cur: Cursor, frame: int): (r: string)
    requires cur.index < |l.clips|
    ensures r != "" <==> l.clips[cur.index].chapter != "" || (frame in l.labels && l.labels[frame] != "")
    ensures l.clips[cur.index].chapter != "" ==> r == l.clips[cur.index].chapter
    ensures r in {l.clips[cur.index].chapter} + (if frame in l.labels then {l.labels[frame]} else {})
  {
    var own := l.clips[cur.index].chapter;
    if own == "" && frame in l.labels then l.labels[frame] else own
  }
}

=== FILE: common.dfy ===
/** Shared vocabulary: bytes, C integer conversions, decimal text and
    separator-joined lists. */
module Common {

  /** An unsigned 8-bit value, the element type of every byte buffer. */
  type byte = x: int | 0 <= x < 256

  datatype Option<T> = None | Some(value: T)

  const TWO_16: int := 0x1_0000
  const TWO_32: int := 0x1_0000_0000

  /** The value a C `uint32_t` holds after being assigned `x`. */
  function U32(x: int): (r: int)
    ensures 0 <= r < TWO_32
    ensures 0 <= x < TWO_32 ==> r == x
    ensures (x - r) % TWO_32 == 0
  {
    x % TWO_32
  }

  /** The value a C `int16_t` holds after being assigned `x` (two's complement wrap). */
  function I16(x: int): (r: int)
    ensures -32768 <= r < 32768
    ensures -32768 <= x < 32768 ==> r == x
    ensures (x - r) % TWO_16 == 0
  {
    (x + 32768) % TWO_16 - 32768
  }

  /** `(unsigned char)x`: the least significant byte of an integer. */
  function LowByte(x: int): byte
  {
    x % 256
  }

  /** Narrowing of a character to the byte that is written for it. */
  function CharByte(c: char): byte
  {
    (c as int) % 256
  }

  /** The bytes written for a string of 8-bit characters. */
  function Bytes(s: string): (r: seq<byte>)
    ensures |r| == |s|
    ensures forall i :: 0 <= i < |s| && (s[i] as int) < 256 ==> r[i] == s[i] as int
  {
    seq(|s|, i requires 0 <= i < |s| => CharByte(s[i]))
  }

  lemma BytesAppend(a: string, b: string)
    ensures Bytes(a + b) == Bytes(a) + Bytes(b)
  {
  }

  /** Concatenation of a sequence of byte strings. */
  function Flatten(rows: seq<seq<byte>>): seq<byte>
  {
    if |rows| == 0 then [] else rows[0] + Flatten(rows[1..])
  }

  lemma {:induction false} FlattenAppend(a: seq<seq<byte>>, b: seq<seq<byte>>)
    ensures Flatten(a + b) == Flatten(a) + Flatten(b)
  {
    if |a| == 0 {
      assert a + b == b;
    } else {
      assert (a + b)[1..] == a[1..] + b;
      FlattenAppend(a[1..], b);
    }
  }

  /** Rows all of width `w` flatten to exactly `|rows| * w` bytes. */
  lemma {:induction false} FlattenLength(rows: seq<seq<byte>>, w: nat)
    requires forall r :: 0 <= r < |rows| ==> |rows[r]| == w
    ensures |Flatten(rows)| == |rows| * w
  {
    if |rows| > 0 {
      FlattenLength(rows[1..], w);
    }
  }

  function Min(a: int, b: int): int
  {
    if a < b then a else b
  }

  // ---------------------------------------------------------------------
  // Decimal text, as printf's "%d" produces it.

  predicate IsDigit(c: char)
  {
    '0' <= c <= '9'
  }

  function DigitChar(d: nat): (c: char)
    requires d < 10
    ensures IsDigit(c) && c as int - '0' as int == d
  {
    ('0' as int + d) as char
  }

  /** "%d" of a non-negative integer: no leading zeros, "0" for zero. */
  function NatToString(n: nat): (s: string)
    ensures |s| > 0
    ensures forall i :: 0 <= i < |s| ==> IsDigit(s[i])
    ensures |s| > 1 ==> s[0] != '0'
    decreases n
  {
    if n < 10 then [DigitChar(n)] else NatToString(n / 10) + [DigitChar(n % 10)]
  }

  /** "%d" of any integer. */
  function IntToString(i: int): (s: string)
    ensures |s| > 0
    ensures ' ' !in s && '}' !in s && '{' !in s
  {
    var digits := if i < 0 then "-" + NatToString(-i) else NatToString(i);
    assert forall k :: 0 <= k < |digits| ==> digits[k] != ' ' && digits[k] != '{' && digits[k] != '}';
    digits
  }

  /** Value of a string of decimal digits. */
  function ParseNat(s: string): nat
    requires forall i :: 0 <= i < |s| ==> IsDigit(s[i])
  {
    if |s| == 0 then 0
    else
      assert IsDigit(s[|s| - 1]);
      ParseNat(s[..|s| - 1]) * 10 + (s[|s| - 1] as int - '0' as int) as nat
  }

  /** Reading back what "%d" printed gives the number printed. */
  lemma {:induction false} ParseNatToString(n: nat)
    ensures ParseNat(NatToString(n)) == n
    decreases n
  {
    if n >= 10 {
      var s := NatToString(n);
      assert s[..|s| - 1] == NatToString(n / 10);
      ParseNatToString(n / 10);
    }
  }

  // ---------------------------------------------------------------------
  // Separator-joined lists.

  /** The elements of `xs` with `sep` between consecutive ones. */
  function Join(xs: seq<string>, sep: char): string
  {
    if |xs| == 0 then ""
    else if |xs| == 1 then xs[0]
    else xs[0] + [sep] + Join(xs[1..], sep)
  }

  /** Index of the first `c` in `s`, or -1 (QString::indexOf). */
  function IndexOf(s: string, c: char): (r: int)
    ensures -1 <= r < |s|
    ensures r == -1 <==> c !in s
    ensures r >= 0 ==> s[r] == c && c !in s[..r]
  {
    if |s| == 0 then -1
    else if s[0] == c then 0
    else
      var k := IndexOf(s[1..], c);
      assert s[1..][..if k < 0 then 0 else k] == s[1..if k < 0 then 1 else k + 1];
      if k == -1 then -1 else k + 1
  }

  /** Index of the last `c` in `s`, or -1 (QString::lastIndexOf). */
  function LastIndexOf(s: string, c: char): (r: int)
    ensures -1 <= r < |s|
    ensures r == -1 <==> c !in s
    ensures r >= 0 ==> s[r] == c && c !in s[r + 1..]
  {
    if |s| == 0 then -1
    else if s[|s| - 1] == c then |s| - 1
    else
      var init := s[..|s| - 1];
      assert s == init + [s[|s| - 1]];
      LastIndexOf(init, c)
  }

  /** The pieces of `s` between occurrences of `sep`. */
  function Split(s: string, sep: char): (r: seq<string>)
    ensures |r| > 0
    decreases |s|
  {
    var i := IndexOf(s, sep);
    if i == -1 then [s] else [s[..i]] + Split(s[i + 1..], sep)
  }

  /** Splitting a joined list at its separator gives the list back, as long
      as no element contains the separator. */
  lemma {:induction false} SplitJoin(xs: seq<string>, sep: char)
    requires |xs| > 0
    requires forall i :: 0 <= i < |xs| ==> sep !in xs[i]
    ensures Split(Join(xs, sep), sep) == xs
  {
    if |xs| == 1 {
    } else {
      var j := Join(xs, sep);
      assert j == xs[0] + [sep] + Join(xs[1..], sep);
      assert j[..|xs[0]|] == xs[0];
      assert j[|xs[0]|] == sep;
      assert IndexOf(j, sep) == |xs[0]|;
      assert j[|xs[0]| + 1..] == Join(xs[1..], sep);
      SplitJoin(xs[1..], sep);
    }
  }
}

=== FILE: dv_audio.dfy ===
/** Audio in a raw DV frame: the shuffle tables that say where each
    16-bit sample sits in the audio DIF blocks, the table that expands
    12-bit nonlinear samples to 16 bits, and the de-interleaving of one
    frame's samples into little-endian stereo PCM. */
module DvAudio {
  import opened Common
  import opened DvFrame

  /** Every shuffle table is declared with this many entries. */
  const MAP_SIZE: int := 2000
  /** Entries of the 12-bit expansion table. */
  const COMPMAP_SIZE: int := 4096

  // ---------------------------------------------------------------------
  // Shuffle tables

  /** The shuffle pattern repeats every `Period` samples: 54 for the
      625/50 system, 45 for 525/60. */
  function Period(pal: bool): int
  {
    if pal then 54 else 45
  }

  /** Half of the DIF sequences carry each channel pair. */
  function HalfSequences(pal: bool): int
  {
    if pal then 6 else 5
  }

  /** Number of table entries the constructor fills: 36 periods. */
  function Filled(pal: bool): (n: int)
    ensures n == 36 * Period(pal)
  {
    if pal then 1944 else 1620
  }

  datatype Channel = First | Second

  /** Which repetition of the shuffle pattern sample n falls in (n/54 or
      n/45). */
  function Repetition(pal: bool, n: int): (q: int)
    requires 0 <= n < Filled(pal)
    ensures 0 <= q < 36
  {
    if pal then n / 54 else n / 45
  }

  /** Which of three consecutive audio blocks sample n falls in, within
      its block triple. */
  function BlockInTriple(pal: bool, n: int): (a: int)
    requires 0 <= n
    ensures 0 <= a < 3
  {
    if pal then (n % 54) / 18 else (n % 45) / 15
  }

  /** The DIF sequence of the first channel's half that holds sample n. */
  function FirstHalfSequence(pal: bool, n: int): (s: int)
    requires 0 <= n
    ensures 0 <= s < HalfSequences(pal)
  {
    if pal then ((n / 3) + 2 * (n % 3)) % 6 else ((n / 3) + 2 * (n % 3)) % 5
  }

  /** The DIF sequence holding sample n of a channel: the second channel
      lives in the second half of the sequences. */
  function SequenceOf(pal: bool, ch: Channel, n: int): (s: int)
    requires 0 <= n
    ensures ch == First ==> 0 <= s < HalfSequences(pal)
    ensures ch == Second ==> HalfSequences(pal) <= s < 2 * HalfSequences(pal)
  {
    if ch == First then FirstHalfSequence(pal, n) else FirstHalfSequence(pal, n) + HalfSequences(pal)
  }

  /** Index 0..8 of the audio block: block number 6 + 16 * index. */
  function AudioBlockOf(pal: bool, n: int): (a: int)
    requires 0 <= n
    ensures 0 <= a < 9
  {
    3 * (n % 3) + BlockInTriple(pal, n)
  }

  /** Byte of the audio block holding the sample's first byte. */
  function ByteOf(pal: bool, twoChannel: bool, n: int): (b: int)
    requires 0 <= n < Filled(pal)
    ensures 8 <= b && b + 1 < (if twoChannel then 115 else DIF_BLOCK_SIZE)
  {
    8 + 2 * Repetition(pal, n) + (if twoChannel then Repetition(pal, n) else 0)
  }

  /** The position of sample n in the frame, as stored in the shuffle
      tables. `twoChannel` selects the tables used for 12-bit audio, whose
      byte index grows by a further n/54 or n/45. Entries past the filled
      range keep the zero of static storage. */
  function MapEntry(pal: bool, ch: Channel, twoChannel: bool, n: int): int
    requires 0 <= n < MAP_SIZE
  {
    if n >= Filled(pal) then 0
    else
      var block := 6 + 16 * AudioBlockOf(pal, n);
      SequenceOf(pal, ch, n) * DIF_SEQUENCE_SIZE + block * DIF_BLOCK_SIZE + ByteOf(pal, twoChannel, n)
  }

  /** The 12-bit table entry lies n/54 (or n/45) bytes past the 16-bit one. */
  lemma TwoChannelOffset(pal: bool, ch: Channel, n: int)
    requires 0 <= n < Filled(pal)
    ensures MapEntry(pal, ch, true, n) == MapEntry(pal, ch, false, n) + (if pal then n / 54 else n / 45)
  {
  }

  /** Both bytes addressed through any table entry lie inside the frame of
      the table's system. */
  lemma MapEntryInFrame(pal: bool, ch: Channel, twoChannel: bool, n: int)
    requires 0 <= n < MAP_SIZE
    ensures 0 <= MapEntry(pal, ch, twoChannel, n) && MapEntry(pal, ch, twoChannel, n) + 1 < FrameSize(pal)
  {
  }

  lemma DivMod3(x: int, k: int)
    requires 0 <= x < 3
    ensures (k * 3 + x) / 3 == k && (k * 3 + x) % 3 == x
  {
  }

  lemma DivMod80(x: int, k: int)
    requires 0 <= x < 80
    ensures (k * 80 + x) / 80 == k && (k * 80 + x) % 80 == x
  {
  }

  lemma DivMod12000(x: int, k: int)
    requires 0 <= x < 12000
    ensures (k * 12000 + x) / 12000 == k && (k * 12000 + x) % 12000 == x
  {
  }

  lemma ModShift(x: int, k: int, h: int)
    requires h == 5 || h == 6
    ensures (k * h + x) % h == x % h
  {
    if h == 5 {
      assert (k * 5 + x) % 5 == x % 5;
    } else {
      assert (k * 6 + x) % 6 == x % 6;
    }
  }

  /** A filled entry splits back into its sequence, block and byte. */
  lemma EntryParts(pal: bool, ch: Channel, n: int)
    requires 0 <= n < Filled(pal)
    ensures var e := MapEntry(pal, ch, false, n);
      e / DIF_SEQUENCE_SIZE == SequenceOf(pal, ch, n)
      && (e % DIF_SEQUENCE_SIZE) / DIF_BLOCK_SIZE == 6 + 16 * AudioBlockOf(pal, n)
      && e % DIF_BLOCK_SIZE == ByteOf(pal, false, n)
  {
    var block := 6 + 16 * AudioBlockOf(pal, n);
    var x := block * DIF_BLOCK_SIZE + ByteOf(pal, false, n);
    DivMod12000(x, SequenceOf(pal, ch, n));
    DivMod80(ByteOf(pal, false, n), block);
    var e := MapEntry(pal, ch, false, n);
    assert e == SequenceOf(pal, ch, n) * 12000 + x;
    assert e % 12000 == x;
    assert e % 80 == ByteOf(pal, false, n) by {
      DivMod80(ByteOf(pal, false, n), SequenceOf(pal, ch, n) * 150 + block);
    }
  }

  /** A 16-bit sample occupies bytes 8..79 of an audio block (every 16th
      block from block 6): the data area after the block's 3-byte ID and
      5-byte AAUX pack. */
  lemma SampleInAudioData(pal: bool, ch: Channel, n: int)
    requires 0 <= n < Filled(pal)
    ensures var e := MapEntry(pal, ch, false, n);
      (e % DIF_SEQUENCE_SIZE) / DIF_BLOCK_SIZE % 16 == 6
      && 8 <= e % DIF_BLOCK_SIZE && e % DIF_BLOCK_SIZE + 1 < DIF_BLOCK_SIZE
  {
    EntryParts(pal, ch, n);
  }

  /** n in the mixed radix the table formula reads it in: repetition q,
      block a of the triple, step t within the block and phase c. */
  lemma Decompose(pal: bool, n: int) returns (q: int, a: int, t: int, c: int)
    requires 0 <= n < Filled(pal)
    ensures 0 <= q < 36 && 0 <= a < 3 && 0 <= t < HalfSequences(pal) && 0 <= c < 3
    ensures pal ==> n == 54 * q + 18 * a + 3 * t + c
    ensures !pal ==> n == 45 * q + 15 * a + 3 * t + c
    ensures Repetition(pal, n) == q && BlockInTriple(pal, n) == a && n % 3 == c
    ensures FirstHalfSequence(pal, n) == (t + 2 * c) % HalfSequences(pal)
  {
    if pal {
      q := n / 54;
      var r := n % 54;
      a := r / 18;
      var s := r % 18;
      t := s / 3;
      c := s % 3;
      assert n == 3 * (18 * q + 6 * a + t) + c;
      DivMod3(c, 18 * q + 6 * a + t);
      ModShift(t + 2 * c, 3 * q + a, 6);
    } else {
      q := n / 45;
      var r := n % 45;
      a := r / 15;
      var s := r % 15;
      t := s / 3;
      c := s % 3;
      assert n == 3 * (15 * q + 5 * a + t) + c;
      DivMod3(c, 15 * q + 5 * a + t);
      ModShift(t + 2 * c, 3 * q + a, 5);
    }
  }

  /** The 16-bit tables place distinct samples of a channel at distinct
      positions, so no byte of the frame is read for two samples. */
  lemma MapEntryInjective(pal: bool, ch: Channel, n1: int, n2: int)
    requires 0 <= n1 < Filled(pal) && 0 <= n2 < Filled(pal)
    requires MapEntry(pal, ch, false, n1) == MapEntry(pal, ch, false, n2)
    ensures n1 == n2
  {
    var q1, a1, t1, c1 := Decompose(pal, n1);
    var q2, a2, t2, c2 := Decompose(pal, n2);
    EntryParts(pal, ch, n1);
    EntryParts(pal, ch, n2);
    assert q1 == q2 by {
      assert ByteOf(pal, false, n1) == ByteOf(pal, false, n2);
    }
    assert c1 == c2 && a1 == a2 by {
      assert AudioBlockOf(pal, n1) == AudioBlockOf(pal, n2);
      DivMod3(a1, c1);
      DivMod3(a2, c2);
    }
    assert t1 == t2 by {
      assert SequenceOf(pal, ch, n1) == SequenceOf(pal, ch, n2);
      ModInjective(t1 + 2 * c1, t2 + 2 * c1, HalfSequences(pal));
    }
  }

  lemma ModInjective(x1: int, x2: int, h: int)
    requires h == 5 || h == 6
    requires 0 <= x1 && 0 <= x2 && x1 - h < x2 < x1 + h
    requires x1 % h == x2 % h
    ensures x1 == x2
  {
    if h == 5 {
      var q1, q2 := x1 / 5, x2 / 5;
      assert x1 - x2 == 5 * (q1 - q2);
    } else {
      var q1, q2 := x1 / 6, x2 / 6;
      assert x1 - x2 == 6 * (q1 - q2);
    }
  }

  // ---------------------------------------------------------------------
  // 12-bit to 16-bit expansion

  /** The nonlinear 12-bit code of IEC 61834-2 mapped to a 16-bit sample:
      the identity near zero, then segments whose step doubles, and the
      negative half as the one's complement mirror of the positive half. */
  function CompMap(y: int): (v: int)
    requires 0 <= y < COMPMAP_SIZE
    ensures -32768 <= v < 32768
    decreases if y >= 0x800 then 1 else 0
  {
    if y >= 0x800 then -1 - CompMap(0xfff - y)
    else if y >= 0x700 then (y - 0x600) * 64
    else if y >= 0x600 then (y - 0x500) * 32
    else if y >= 0x500 then (y - 0x400) * 16
    else if y >= 0x400 then (y - 0x300) * 8
    else if y >= 0x300 then (y - 0x200) * 4
    else if y >= 0x200 then (y - 0x100) * 2
    else y
  }

  lemma CompMapIdentity(y: int)
    requires 0 <= y < 0x200
    ensures CompMap(y) == y
  {
  }

  lemma CompMapMirror(y: int)
    requires 0x800 <= y < COMPMAP_SIZE
    ensures CompMap(y) == -1 - CompMap(0xfff - y)
    ensures CompMap(y) < 0
  {
  }

  lemma CompMapStep(y: int)
    requires 0 <= y < 0x7ff
    ensures CompMap(y) < CompMap(y + 1)
  {
  }

  /** The positive half is strictly increasing, from 0 up to 32704. */
  lemma {:induction false} CompMapIncreasing(y1: int, y2: int)
    requires 0 <= y1 < y2 < 0x800
    ensures CompMap(y1) < CompMap(y2)
    ensures 0 <= CompMap(y1) && CompMap(y2) <= 32704
    decreases y2 - y1
  {
    CompMapStep(y2 - 1);
    if y1 < y2 - 1 {
      CompMapIncreasing(y1, y2 - 1);
    }
  }

  /** The expansion table is strictly increasing over all 4096 codes read
      as two's complement 12-bit numbers. */
  lemma CompMapSigned(y1: int, y2: int)
    requires 0x800 <= y1 < COMPMAP_SIZE && 0 <= y2 < 0x800
    ensures CompMap(y1) < CompMap(y2)
    ensures y1 < 0xfff ==> CompMap(y1) < CompMap(y1 + 1)
  {
    if y2 > 0 {
      CompMapIncreasing(0, y2);
    }
    if y1 < 0xfff {
      CompMapIncreasing(0xfff - y1 - 1, 0xfff - y1);
    }
  }

  /** Both indices the 32 kHz path forms from a byte pair stay in the table. */
  lemma CompIndexInTable(hi: byte, lo: byte)
    ensures 0 <= hi as int * 16 + lo as int / 16 < COMPMAP_SIZE
    ensures 0 <= lo as int * 16 + lo as int % 16 < COMPMAP_SIZE
  {
  }

  // ---------------------------------------------------------------------
  // De-interleaving

  /** A 16-bit value as it lies in memory on a little-endian host. */
  function LittleEndian16(v: int): (r: seq<byte>)
    requires -32768 <= v < 32768
    ensures |r| == 2 && (r[0] as int) + 256 * (r[1] as int) == (if v < 0 then v + 0x1_0000 else v)
  {
    var u := if v < 0 then v + 0x1_0000 else v;
    [u % 256, u / 256]
  }

  /** The four output bytes of 16-bit sample n: each channel's LSB, which
      the frame stores second, then its MSB. The big-endian word of the
      frame becomes a little-endian one. */
  function LinearSample(f: RawFrame, n: int): (r: seq<byte>)
    requires WellSized(f) && 0 <= n < MAP_SIZE
    ensures |r| == 4
    ensures var m1, m2 := MapEntry(IsPAL(f), First, false, n), MapEntry(IsPAL(f), Second, false, n);
      0 <= m1 && m1 + 1 < |f| && 0 <= m2 && m2 + 1 < |f|
      && r[0] as int + 256 * r[1] as int == 256 * f[m1] as int + f[m1 + 1] as int
      && r[2] as int + 256 * r[3] as int == 256 * f[m2] as int + f[m2 + 1] as int
  {
    var pal := IsPAL(f);
    MapEntryInFrame(pal, First, false, n);
    MapEntryInFrame(pal, Second, false, n);
    var m1 := MapEntry(pal, First, false, n);
    var m2 := MapEntry(pal, Second, false, n);
    [f[m1 + 1], f[m1], f[m2 + 1], f[m2]]
  }

  /** Two 12-bit codes as IEC 61834-2 stores them in three bytes: the high
      eight bits of each, then a byte holding the first code's low nibble
      above the second's. */
  function Pack12(y: int, z: int): (b: seq<byte>)
    requires 0 <= y < COMPMAP_SIZE && 0 <= z < COMPMAP_SIZE
    ensures |b| == 3
  {
    [y / 16, z / 16, (y % 16) * 16 + z % 16]
  }

  /** The two codes read back from high bytes `b0`, `b1` and the low
      nibble byte `b2`. */
  function Unpack12(b0: byte, b1: byte, b2: byte): (c: (int, int))
    ensures 0 <= c.0 < COMPMAP_SIZE && 0 <= c.1 < COMPMAP_SIZE
  {
    (b0 as int * 16 + b2 as int / 16, b1 as int * 16 + b2 as int % 16)
  }

  lemma Pack12RoundTrip(y: int, z: int)
    requires 0 <= y < COMPMAP_SIZE && 0 <= z < COMPMAP_SIZE
    ensures var b := Pack12(y, z); Unpack12(b[0], b[1], b[2]) == (y, z)
  {
    var b := Pack12(y, z);
    assert b[2] as int / 16 == y % 16 && b[2] as int % 16 == z % 16;
  }

  /** The four output bytes of 12-bit sample n, as written: the second
      byte of the entry stands in for the low nibble byte, which the table
      places one byte further on. */
  function CompressedSample(f: RawFrame, n: int): (r: seq<byte>)
    requires WellSized(f) && 0 <= n < MAP_SIZE
    ensures |r| == 4
    ensures var m := MapEntry(IsPAL(f), First, true, n);
      0 <= m && m + 1 < |f|
      && var c := Unpack12(f[m], f[m + 1], f[m + 1]);
      r == LittleEndian16(CompMap(c.0)) + LittleEndian16(CompMap(c.1))
  {
    var pal := IsPAL(f);
    MapEntryInFrame(pal, First, true, n);
    var m := MapEntry(pal, First, true, n);
    var r := f[m + 1];
    CompIndexInTable(f[m], r);
    LittleEndian16(CompMap(f[m] as int * 16 + r as int / 16))
      + LittleEndian16(CompMap(f[m + 1] as int * 16 + r as int % 16))
  }

  /** The as-written read recovers a stored pair only when its low nibble
      byte happens to equal the second code's high byte; codes 1 and 0
      come back as 0 and 0. */
  lemma LowNibblesMisread(y: int, z: int)
    requires 0 <= y < COMPMAP_SIZE && 0 <= z < COMPMAP_SIZE
    ensures var b := Pack12(y, z); Unpack12(b[0], b[1], b[1]) == (y, z) <==> b[1] == b[2]
    ensures var b := Pack12(1, 0); Unpack12(b[0], b[1], b[1]) == (0, 0)
  {
    var b := Pack12(y, z);
    Pack12RoundTrip(y, z);
    if Unpack12(b[0], b[1], b[1]) == (y, z) {
      assert b[1] as int / 16 == b[2] as int / 16 && b[1] as int % 16 == b[2] as int % 16;
    }
  }

  /** Three bytes of the 12-bit table entry lie inside the frame. */
  lemma TwoChannelEntryInFrame(pal: bool, n: int)
    requires 0 <= n < MAP_SIZE
    ensures 0 <= MapEntry(pal, First, true, n) && MapEntry(pal, First, true, n) + 2 < FrameSize(pal)
  {
  }

  /** The 12-bit sample read as the table lays it out: the low nibbles
      from the third byte of the entry. */
  function CompressedSampleCorrected(f: RawFrame, n: int): (r: seq<byte>)
    requires WellSized(f) && 0 <= n < MAP_SIZE
    ensures |r| == 4
  {
    TwoChannelEntryInFrame(IsPAL(f), n);
    var m := MapEntry(IsPAL(f), First, true, n);
    var c := Unpack12(f[m], f[m + 1], f[m + 2]);
    LittleEndian16(CompMap(c.0)) + LittleEndian16(CompMap(c.1))
  }

  /** A pair stored as IEC 61834-2 lays it out comes back as the two
      expanded codes, first code first. */
  lemma CorrectedSampleRoundTrip(f: RawFrame, n: int, y: int, z: int)
    requires WellSized(f) && 0 <= n < MAP_SIZE
    requires 0 <= y < COMPMAP_SIZE && 0 <= z < COMPMAP_SIZE
    requires var m := MapEntry(IsPAL(f), First, true, n);
      0 <= m && m + 2 < |f| && f[m..m + 3] == Pack12(y, z)
    ensures CompressedSampleCorrected(f, n) == LittleEndian16(CompMap(y)) + LittleEndian16(CompMap(z))
  {
    var m := MapEntry(IsPAL(f), First, true, n);
    var b := Pack12(y, z);
    assert f[m] == b[0] && f[m + 1] == b[1] && f[m + 2] == b[2];
    Pack12RoundTrip(y, z);
  }

  /** Output of sample n at the given sampling rate. */
  function SampleBytes(f: RawFrame, frequency: int, n: int): (r: seq<byte>)
    requires WellSized(f) && 0 <= n < MAP_SIZE
    ensures |r| == 4
  {
    if frequency == 32000 then CompressedSample(f, n) else LinearSample(f, n)
  }

  /** The four bytes written for sample n. */
  function Group(out: seq<byte>, n: int): seq<byte>
    requires 0 <= n && 4 * n + 4 <= |out|
  {
    out[4 * n..4 * n + 4]
  }

  /** Appending four bytes keeps the earlier groups and adds one. */
  lemma GroupAppend(out: seq<byte>, next: seq<byte>, n: nat)
    requires |out| == 4 * n && |next| == 4
    ensures Group(out + next, n) == next
    ensures forall m :: 0 <= m < n ==> Group(out + next, m) == Group(out, m)
  {
    assert (out + next)[4 * n..4 * n + 4] == next;
    forall m | 0 <= m < n
      ensures Group(out + next, m) == Group(out, m)
    {
      assert (out + next)[4 * m..4 * m + 4] == out[4 * m..4 * m + 4];
    }
  }

  /** The blocks `sample(0)`, ..., `sample(n - 1)` one after the other. */
  function Concat(sample: nat -> seq<byte>, n: nat): seq<byte>
  {
    if n == 0 then [] else Concat(sample, n - 1) + sample(n - 1)
  }

  /** Concatenated four-byte blocks: group `m` is block `m`. */
  lemma {:induction false} ConcatGroups(sample: nat -> seq<byte>, n: nat)
    requires forall m: nat :: m < n ==> |sample(m)| == 4
    ensures |Concat(sample, n)| == 4 * n
    ensures forall m :: 0 <= m < n ==> Group(Concat(sample, n), m) == sample(m)
  {
    if n > 0 {
      ConcatGroups(sample, n - 1);
      GroupAppend(Concat(sample, n - 1), sample(n - 1), n - 1);
    }
  }

  /** The output loop: block after block, `total` of them. */
  method ExtractSamples(sample: nat -> seq<byte>, total: int) returns (out: seq<byte>)
    ensures out == Concat(sample, if total < 0 then 0 else total)
  {
    out := [];
    var n := 0;
    while n < total
      invariant 0 <= n <= (if total < 0 then 0 else total)
      invariant out == Concat(sample, n)
    {
      out := out + sample(n);
      n := n + 1;
    }
  }

  predicate Supported(frequency: int)
  {
    frequency == 32000 || frequency == 44100 || frequency == 48000
  }

  /** The audio of one frame as 16-bit stereo. `prior` is the record the
      caller passes in, whose fields the frame may leave untouched; the
      returned count is samples * channels * 2, with samples forced to 0 for
      a rate the decoder does not handle. */
  method ExtractAudio(f: RawFrame, prior: AudioInfo) returns (out: seq<byte>, count: int)
    requires WellSized(f)
    requires prior.samples <= MAP_SIZE
    ensures var info := GetAudioInfo(f, prior).1;
      var samples := if Supported(info.frequency) then info.samples else 0;
      count == samples * 2 * 2
      && |out| == 4 * (if samples < 0 then 0 else samples)
      && forall n :: 0 <= n < samples ==> Group(out, n) == SampleBytes(f, info.frequency, n)
    ensures count >= 0 ==> count == |out|
  {
    var info := GetAudioInfo(f, prior).1;
    if !Supported(info.frequency) {
      info := info.(samples := 0);
    }
    var frequency := info.frequency;
    var sample := (n: nat) => if n < MAP_SIZE then SampleBytes(f, frequency, n) else [];
    out := ExtractSamples(sample, info.samples);
    ConcatGroups(sample, if info.samples < 0 then 0 else info.samples);
    count := info.samples * info.channels * 2;
  }
}

=== FILE: dv_frame.dfy ===
/** The raw DV frame: system detection, the fixed DIF layout of the
    subcode (SSYB), video auxiliary (VAUX) and audio auxiliary (AAUX)
    packs, and the decoders that read timecode, recording date and audio
    parameters out of those packs. The layout is the consumer DV format of
    IEC 61834-2; the pack contents follow IEC 61834-4. */
module DvFrame {
  import opened Common

  // ---------------------------------------------------------------------
  // Geometry

  const FRAME_MAX_WIDTH: int := 720
  const FRAME_MAX_HEIGHT: int := 576

  const PAL_FRAME_SIZE: int := 144000
  const NTSC_FRAME_SIZE: int := 120000

  /** 150 DIF blocks of 80 bytes make one DIF sequence. */
  const DIF_BLOCK_SIZE: int := 80
  const DIF_SEQUENCE_SIZE: int := 12000

  /** The bytes of one frame as read from the file. */
  type RawFrame = seq<byte>

  /** Bit 0x80 of byte 3 (the DSF flag of the header block) selects the
      625/50 system. */
  predicate IsPAL(f: RawFrame)
    requires |f| > 3
  {
    f[3] >= 0x80
  }

  /** The same flag tested the way the C code does it, with a mask. */
  lemma IsPALMatchesMask(f: RawFrame)
    requires |f| > 3
    ensures IsPAL(f) <==> (f[3] as bv8) & 0x80 != 0
  {
  }

  function FrameSize(pal: bool): (n: int)
    ensures n == DIF_SEQUENCE_SIZE * SequenceCount(pal)
  {
    if pal then PAL_FRAME_SIZE else NTSC_FRAME_SIZE
  }

  /** Frames per second, as the rational number num/den. */
  function FrameRate(pal: bool): (r: (int, int))
    ensures r.1 > 0
    ensures pal ==> r.0 == 25 * r.1
    ensures !pal ==> r.0 * 1001 == 30000 * r.1
  {
    if pal then (25, 1) else (30000, 1001)
  }

  function SequenceCount(pal: bool): nat
  {
    if pal then 12 else 10
  }

  /** A frame whose buffer holds at least as many bytes as its system needs. */
  predicate WellSized(f: RawFrame)
  {
    |f| > 3 && |f| >= FrameSize(IsPAL(f))
  }

  // ---------------------------------------------------------------------
  // Packs and their addresses

  /** Five bytes: the pack id followed by four bytes of payload. */
  type Pack = s: seq<byte> | |s| == 5 witness [0, 0, 0, 0, 0]

  datatype Section = Subcode | VideoAux | AudioAux

  /** Sequence, block within the section, pack within the block. */
  datatype Loc = Loc(i: int, j: int, k: int)

  function BlocksPerSequence(sec: Section): nat
  {
    match sec
    case Subcode => 2
    case VideoAux => 3
    case AudioAux => 9
  }

  function PacksPerBlock(sec: Section): nat
  {
    match sec
    case Subcode => 6
    case VideoAux => 15
    case AudioAux => 1
  }

  predicate InRange(sec: Section, pal: bool, l: Loc)
  {
    0 <= l.i < SequenceCount(pal) && 0 <= l.j < BlocksPerSequence(sec) && 0 <= l.k < PacksPerBlock(sec)
  }

  /** Byte offset of a pack: subcode packs are 8 bytes with a 3-byte header
      in blocks 1-2, VAUX packs are 5 bytes in blocks 3-5, and the AAUX pack
      leads every 16th block starting with block 6. */
  function Offset(sec: Section, l: Loc): int
  {
    match sec
    case Subcode => l.i * DIF_SEQUENCE_SIZE + 1 * DIF_BLOCK_SIZE + l.j * DIF_BLOCK_SIZE + 3 + l.k * 8 + 3
    case VideoAux => l.i * DIF_SEQUENCE_SIZE + 3 * DIF_BLOCK_SIZE + l.j * DIF_BLOCK_SIZE + 3 + l.k * 5
    case AudioAux => l.i * DIF_SEQUENCE_SIZE + 6 * DIF_BLOCK_SIZE + l.j * 16 * DIF_BLOCK_SIZE + 3
  }

  /** Every pack of every section lies wholly inside the frame of the
      system it is read for. */
  lemma OffsetInFrame(sec: Section, pal: bool, l: Loc)
    requires InRange(sec, pal, l)
    ensures 0 <= Offset(sec, l) && Offset(sec, l) + 4 < FrameSize(pal)
  {
  }

  /** Lexicographic order of the three nested loop counters. */
  predicate Before(a: Loc, b: Loc)
  {
    a.i < b.i || (a.i == b.i && (a.j < b.j || (a.j == b.j && a.k < b.k)))
  }

  predicate Matches(f: RawFrame, sec: Section, id: int, l: Loc)
    requires 0 <= Offset(sec, l) < |f|
  {
    f[Offset(sec, l)] == id
  }

  predicate Searchable(f: RawFrame, sec: Section, l: Loc)
  {
    |f| > 3 && InRange(sec, IsPAL(f), l) && 0 <= Offset(sec, l) < |f|
  }

  /** The nested scan, resumed at sequence i, block j, pack k. */
  function FindFrom(f: RawFrame, sec: Section, id: int, i: int, j: int, k: int): (r: Option<Loc>)
    requires WellSized(f)
    requires 0 <= i <= SequenceCount(IsPAL(f))
    requires 0 <= j <= BlocksPerSequence(sec) && 0 <= k <= PacksPerBlock(sec)
    ensures r.Some? ==> Searchable(f, sec, r.value) && Matches(f, sec, id, r.value)
    ensures r.Some? ==> !Before(r.value, Loc(i, j, k))
    ensures forall l :: (Searchable(f, sec, l) && !Before(l, Loc(i, j, k)) && (r.None? || Before(l, r.value)))
                        ==> !Matches(f, sec, id, l)
    decreases SequenceCount(IsPAL(f)) - i, BlocksPerSequence(sec) - j, PacksPerBlock(sec) - k
  {
    if i == SequenceCount(IsPAL(f)) then None
    else if j == BlocksPerSequence(sec) then FindFrom(f, sec, id, i + 1, 0, 0)
    else if k == PacksPerBlock(sec) then FindFrom(f, sec, id, i, j + 1, 0)
    else
      OffsetInFrame(sec, IsPAL(f), Loc(i, j, k));
      if f[Offset(sec, Loc(i, j, k))] == id then Some(Loc(i, j, k))
      else FindFrom(f, sec, id, i, j, k + 1)
  }

  /** Location of the first pack of a section whose id byte is `id`. */
  function Find(f: RawFrame, sec: Section, id: int): (r: Option<Loc>)
    requires WellSized(f)
    ensures r.Some? ==> InRange(sec, IsPAL(f), r.value) && Matches(f, sec, id, r.value)
    ensures forall l :: Searchable(f, sec, l) && (r.None? || Before(l, r.value)) ==> !Matches(f, sec, id, l)
  {
    FindFrom(f, sec, id, 0, 0, 0)
  }

  /** `l` is the first location of the section, in scan order, whose id
      byte is `id`. */
  ghost predicate FirstMatch(f: RawFrame, sec: Section, id: int, l: Loc)
    requires WellSized(f)
  {
    InRange(sec, IsPAL(f), l) && Matches(f, sec, id, l)
    && forall m :: Searchable(f, sec, m) && Before(m, l) ==> !Matches(f, sec, id, m)
  }

  /** The five bytes of the pack at an in-range location. */
  function PackAt(f: RawFrame, sec: Section, l: Loc): Pack
    requires WellSized(f) && InRange(sec, IsPAL(f), l)
  {
    OffsetInFrame(sec, IsPAL(f), l);
    f[Offset(sec, l)..Offset(sec, l) + 5]
  }

  /** The five bytes of the first matching pack, or None when no pack of
      the section carries that id. */
  function GetPack(f: RawFrame, sec: Section, id: int): (r: Option<Pack>)
    requires WellSized(f)
    ensures r.Some? <==> exists l :: Searchable(f, sec, l) && Matches(f, sec, id, l)
    ensures r.Some? ==> r.value[0] == id
    ensures r.Some? ==> exists l :: FirstMatch(f, sec, id, l) && r.value == PackAt(f, sec, l)
  {
    match Find(f, sec, id)
    case None => None
    case Some(l) =>
      OffsetInFrame(sec, IsPAL(f), l);
      Some(PackAt(f, sec, l))
  }

  function GetSSYBPack(f: RawFrame, id: int): (r: Option<Pack>)
    requires WellSized(f)
    ensures r.Some? <==> exists l :: Searchable(f, Subcode, l) && Matches(f, Subcode, id, l)
    ensures r.Some? ==> r.value[0] == id
    ensures r.Some? ==> exists l :: FirstMatch(f, Subcode, id, l) && r.value == PackAt(f, Subcode, l)
  {
    GetPack(f, Subcode, id)
  }

  function GetVAUXPack(f: RawFrame, id: int): (r: Option<Pack>)
    requires WellSized(f)
    ensures r.Some? <==> exists l :: Searchable(f, VideoAux, l) && Matches(f, VideoAux, id, l)
    ensures r.Some? ==> r.value[0] == id
    ensures r.Some? ==> exists l :: FirstMatch(f, VideoAux, id, l) && r.value == PackAt(f, VideoAux, l)
  {
    GetPack(f, VideoAux, id)
  }

  function GetAAUXPack(f: RawFrame, id: int): (r: Option<Pack>)
    requires WellSized(f)
    ensures r.Some? <==> exists l :: Searchable(f, AudioAux, l) && Matches(f, AudioAux, id, l)
    ensures r.Some? ==> r.value[0] == id
    ensures r.Some? ==> exists l :: FirstMatch(f, AudioAux, id, l) && r.value == PackAt(f, AudioAux, l)
  {
    GetPack(f, AudioAux, id)
  }

  /** The pack at the first position of a section (sequence 0, block 0,
      pack 0) is always the one found when it carries the id. */
  lemma FirstSlotWins(f: RawFrame, sec: Section, id: int)
    requires WellSized(f) && f[Offset(sec, Loc(0, 0, 0))] == id
    ensures GetPack(f, sec, id).Some?
    ensures GetPack(f, sec, id).value == PackAt(f, sec, Loc(0, 0, 0))
  {
    var l0 := Loc(0, 0, 0);
    OffsetInFrame(sec, IsPAL(f), l0);
    var r := Find(f, sec, id);
    assert Searchable(f, sec, l0) && Matches(f, sec, id, l0);
    assert r.Some?;
    assert !Before(l0, r.value);
    assert r.value == l0;
  }

  // ---------------------------------------------------------------------
  // BCD

  /** Packed BCD: low nibble plus ten times the high nibble masked to the
      field width (`tensMask` is 0x1, 0x3, 0x7 or 0xf). */
  function Bcd(b: byte, tensMask: int): (v: nat)
    requires tensMask in {1, 3, 7, 15}
    ensures v <= 15 + 10 * tensMask
  {
    b % 16 + 10 * ((b / 16) % (tensMask + 1))
  }

  /** The BCD byte a recorder writes for a two-digit value. */
  function EncodeBcd(v: nat): byte
    requires v < 100
  {
    (v / 10) * 16 + v % 10
  }

  lemma BcdRoundTrip(v: nat, tensMask: int)
    requires tensMask in {1, 3, 7, 15} && v < 100 && v / 10 <= tensMask
    ensures Bcd(EncodeBcd(v), tensMask) == v
  {
    var t, u := v / 10, v % 10;
    assert EncodeBcd(v) == 16 * t + u;
    assert (16 * t + u) % 16 == u && (16 * t + u) / 16 == t;
    assert t % (tensMask + 1) == t;
  }

  // ---------------------------------------------------------------------
  // Timecode (SSYB pack 0x13)

  datatype TimeCode = TimeCode(hour: int, min: int, sec: int, frame: int)

  const TIMECODE_PACK: int := 0x13

  /** The four BCD fields of a timecode pack. */
  function DecodeTimeCode(p: Pack): (tc: TimeCode)
    ensures 0 <= tc.frame <= 45 && 0 <= tc.sec <= 85 && 0 <= tc.min <= 85 && 0 <= tc.hour <= 45
  {
    TimeCode(Bcd(p[4], 3), Bcd(p[3], 7), Bcd(p[2], 7), Bcd(p[1], 3))
  }

  /** Absent exactly when no subcode pack carries 0x13; otherwise the
      decoding of the first one. */
  function GetTimeCode(f: RawFrame): (r: Option<TimeCode>)
    requires WellSized(f)
    ensures r.Some? <==> exists l :: Searchable(f, Subcode, l) && Matches(f, Subcode, TIMECODE_PACK, l)
    ensures r.Some? ==> exists l :: FirstMatch(f, Subcode, TIMECODE_PACK, l)
                                    && r.value == DecodeTimeCode(PackAt(f, Subcode, l))
  {
    match GetSSYBPack(f, TIMECODE_PACK)
    case None => None
    case Some(p) => Some(DecodeTimeCode(p))
  }

  predicate ValidTimeCode(tc: TimeCode)
  {
    0 <= tc.hour < 24 && 0 <= tc.min < 60 && 0 <= tc.sec < 60 && 0 <= tc.frame < 30
  }

  function EncodeTimeCode(tc: TimeCode): Pack
    requires ValidTimeCode(tc)
  {
    [TIMECODE_PACK, EncodeBcd(tc.frame), EncodeBcd(tc.sec), EncodeBcd(tc.min), EncodeBcd(tc.hour)]
  }

  /** Any timecode a camera can record decodes back to itself. */
  lemma TimeCodeRoundTrip(tc: TimeCode)
    requires ValidTimeCode(tc)
    ensures DecodeTimeCode(EncodeTimeCode(tc)) == tc
  {
    var p := EncodeTimeCode(tc);
    BcdRoundTrip(tc.frame, 3);
    BcdRoundTrip(tc.sec, 7);
    BcdRoundTrip(tc.min, 7);
    BcdRoundTrip(tc.hour, 3);
  }

  /** A frame whose first subcode pack is a recorded timecode reports that
      timecode. */
  lemma RecordedTimeCode(f: RawFrame, tc: TimeCode)
    requires WellSized(f) && ValidTimeCode(tc)
    requires PackAt(f, Subcode, Loc(0, 0, 0)) == EncodeTimeCode(tc)
    ensures GetTimeCode(f) == Some(tc)
  {
    FirstSlotWins(f, Subcode, TIMECODE_PACK);
    TimeCodeRoundTrip(tc);
  }

  // ---------------------------------------------------------------------
  // Recording date (SSYB packs 0x62 and 0x63)

  /** The fields of a `struct tm` that the decoder fills: the month counts
      from 0 and the year from 1900. */
  datatype DateTime = DateTime(year: int, mon: int, mday: int, hour: int, min: int, sec: int)

  const DATE_PACK: int := 0x62
  const TIME_PACK: int := 0x63

  /** Two-digit years below 25 belong to the 2000s, the rest to the 1900s. */
  function FullYear(yy: int): (y: int)
    ensures 0 <= yy < 100 ==> 1925 <= y <= 2024 && y % 100 == yy
    ensures yy >= 100 ==> y == 1900 + yy
  {
    if yy < 25 then yy + 2000 else yy + 1900
  }

  function DecodeDate(date: Pack, time: Pack): DateTime
  {
    DateTime(FullYear(Bcd(date[4], 15)) - 1900, Bcd(date[3], 1) - 1, Bcd(date[2], 3),
             Bcd(time[4], 3), Bcd(time[3], 7), Bcd(time[2], 7))
  }

  /** Present exactly when both a 0x62 and a 0x63 subcode pack exist; the
      date then decodes the first of each. */
  function GetRecordingDate(f: RawFrame): (r: Option<DateTime>)
    requires WellSized(f)
    ensures r.Some? <==> (exists l :: Searchable(f, Subcode, l) && Matches(f, Subcode, DATE_PACK, l))
                         && (exists l :: Searchable(f, Subcode, l) && Matches(f, Subcode, TIME_PACK, l))
    ensures r.Some? ==> exists ld, lt :: FirstMatch(f, Subcode, DATE_PACK, ld) && FirstMatch(f, Subcode, TIME_PACK, lt)
                                         && r.value == DecodeDate(PackAt(f, Subcode, ld), PackAt(f, Subcode, lt))
  {
    match GetSSYBPack(f, DATE_PACK)
    case None => None
    case Some(d) =>
      match GetSSYBPack(f, TIME_PACK)
      case None => None
      case Some(t) => Some(DecodeDate(d, t))
  }

  /** A date and time between 1925 and 2024 that a recorder can store. */
  predicate Recordable(d: DateTime)
  {
    25 <= d.year <= 124 && 0 <= d.mon < 12 && 1 <= d.mday <= 31
    && 0 <= d.hour < 24 && 0 <= d.min < 60 && 0 <= d.sec < 60
  }

  function EncodeDatePack(d: DateTime): Pack
    requires Recordable(d)
  {
    [DATE_PACK, 0, EncodeBcd(d.mday), EncodeBcd(d.mon + 1), EncodeBcd(d.year % 100)]
  }

  function EncodeTimePack(d: DateTime): Pack
    requires Recordable(d)
  {
    [TIME_PACK, 0, EncodeBcd(d.sec), EncodeBcd(d.min), EncodeBcd(d.hour)]
  }

  lemma YearWindow(year: int)
    requires 25 <= year <= 124
    ensures FullYear(year % 100) == year + 1900
  {
    if year >= 100 {
      assert year % 100 == year - 100;
    } else {
      assert year % 100 == year;
    }
  }

  /** The two-digit year window round-trips exactly the century 1925-2024. */
  lemma DateRoundTrip(d: DateTime)
    requires Recordable(d)
    ensures DecodeDate(EncodeDatePack(d), EncodeTimePack(d)) == d
  {
    var date := EncodeDatePack(d);
    var time := EncodeTimePack(d);
    BcdRoundTrip(d.mday, 3);
    assert Bcd(date[2], 3) == d.mday;
    BcdRoundTrip(d.mon + 1, 1);
    assert Bcd(date[3], 1) == d.mon + 1;
    BcdRoundTrip(d.year % 100, 15);
    assert Bcd(date[4], 15) == d.year % 100;
    YearWindow(d.year);
    BcdRoundTrip(d.sec, 7);
    assert Bcd(time[2], 7) == d.sec;
    BcdRoundTrip(d.min, 7);
    assert Bcd(time[3], 7) == d.min;
    BcdRoundTrip(d.hour, 3);
    assert Bcd(time[4], 3) == d.hour;
  }

  // ---------------------------------------------------------------------
  // Audio parameters (AAUX packs 0x50 and 0x51)

  datatype AudioInfo = AudioInfo(frames: int, frequency: int, samples: int, channels: int, quantization: int)

  const AUDIO_SOURCE_PACK: int := 0x50
  const AUDIO_CONTROL_PACK: int := 0x51

  /** The fields the AAUX source pack determines: the 50/60 flag selects
      the field rate, the SMP code the sampling rate, and the AF_SIZE field
      is added to the per-rate minimum sample count. A sampling code above 2
      leaves frequency and sample count as they were. */
  function ApplySourcePack(p: Pack, prior: AudioInfo): (info: AudioInfo)
    ensures info.channels == prior.channels && info.quantization == prior.quantization
    ensures info.frames == (if p[3] / 32 % 2 == 0 then 60 else 50)
    ensures (p[4] / 8) % 8 >= 3 ==> info.frequency == prior.frequency && info.samples == prior.samples
    ensures (p[4] / 8) % 8 < 3 ==> info.frequency in {48000, 44100, 32000}
    ensures (p[4] / 8) % 8 < 3 && info.frequency != 44100 ==> info.samples - p[1] as int % 64 in {1580, 1053, 1896, 1264}
    ensures (p[4] / 8) % 8 < 3 && info.frequency == 44100 ==> info.samples in {1452 + p[1] as int % 64, 0}
  {
    var size: int := p[1] % 64;
    var smp := (p[4] / 8) % 8;
    var fifty := p[3] / 32 % 2 == 1;
    var frames := if fifty then 50 else 60;
    var withFrames := prior.(frames := frames);
    if smp == 0 then withFrames.(frequency := 48000, samples := (if fifty then 1896 else 1580) + size)
    else if smp == 1 then withFrames.(frequency := 44100, samples := if fifty then 0 else 1452 + size)
    else if smp == 2 then withFrames.(frequency := 32000, samples := (if fifty then 1264 else 1053) + size)
    else withFrames
  }

  /** Returns whether the source pack was found, and the record after the
      call: the channel count is set to 2 before the pack is looked up. */
  function GetAudioInfo(f: RawFrame, prior: AudioInfo): (r: (bool, AudioInfo))
    requires WellSized(f)
    ensures r.1.channels == 2
    ensures r.0 <==> GetAAUXPack(f, AUDIO_SOURCE_PACK).Some?
    ensures !r.0 ==> r.1 == prior.(channels := 2)
    ensures r.0 ==> r.1.quantization == prior.quantization
    ensures r.0 ==> exists l ::
                      FirstMatch(f, AudioAux, AUDIO_SOURCE_PACK, l)
                      && r.1 == ApplySourcePack(PackAt(f, AudioAux, l), prior.(channels := 2))
  {
    var withChannels := prior.(channels := 2);
    match GetAAUXPack(f, AUDIO_SOURCE_PACK)
    case None => (false, withChannels)
    case Some(p) => (true, ApplySourcePack(p, withChannels))
  }

  /** A table of the sample counts the decoder derives, independent of the
      nested branches. */
  function ExpectedSamples(fifty: bool, smp: int, size: int): int
    requires 0 <= smp < 3
  {
    [1580, 1452, 1053, 1896, 0, 1264][(if fifty then 3 else 0) + smp] + (if fifty && smp == 1 then 0 else size)
  }

  lemma SourcePackTable(p: Pack, prior: AudioInfo)
    requires (p[4] / 8) % 8 < 3
    ensures ApplySourcePack(p, prior).samples == ExpectedSamples(p[3] / 32 % 2 == 1, (p[4] / 8) % 8, p[1] % 64)
    ensures ApplySourcePack(p, prior).frequency == [48000, 44100, 32000][(p[4] / 8) % 8]
  {
  }

  /** A frame whose first AAUX slot holds a source pack with a sampling code
      the decoder knows reports the rates and the sample count of the table
      above, read from that pack. */
  lemma RecordedAudioInfo(f: RawFrame, prior: AudioInfo)
    requires WellSized(f) && f[Offset(AudioAux, Loc(0, 0, 0))] == AUDIO_SOURCE_PACK
    requires var p := PackAt(f, AudioAux, Loc(0, 0, 0)); (p[4] / 8) % 8 < 3
    ensures var p := PackAt(f, AudioAux, Loc(0, 0, 0));
      var fifty := p[3] / 32 % 2 == 1;
      var smp := (p[4] / 8) % 8;
      GetAudioInfo(f, prior) == (true, AudioInfo(if fifty then 50 else 60, [48000, 44100, 32000][smp],
                                                 ExpectedSamples(fifty, smp, p[1] % 64), 2, prior.quantization))
  {
    var p := PackAt(f, AudioAux, Loc(0, 0, 0));
    FirstSlotWins(f, AudioAux, AUDIO_SOURCE_PACK);
    SourcePackTable(p, prior.(channels := 2));
  }

  /** A decoded sample count never exceeds 1896 + 63, so it can exceed the
      1944 table entries that the PAL shuffle tables fill. */
  lemma SamplesBound(f: RawFrame, prior: AudioInfo)
    requires WellSized(f) && 0 <= prior.samples <= 1959
    ensures 0 <= GetAudioInfo(f, prior).1.samples <= 1959
  {
  }

  /** A recording starts in this frame iff the REC ST bit of the AAUX source
      control pack is clear; a frame without that pack is not a start. */
  function IsNewRecording(f: RawFrame): (r: bool)
    requires WellSized(f)
    ensures r ==> GetAAUXPack(f, AUDIO_CONTROL_PACK).Some?
  {
    match GetAAUXPack(f, AUDIO_CONTROL_PACK)
    case None => false
    case Some(p) => p[2] < 0x80
  }

  /** The same test the way the C code does it, with a mask on the REC ST
      bit. */
  lemma IsNewRecordingMatchesMask(f: RawFrame)
    requires WellSized(f)
    ensures IsNewRecording(f) <==>
      GetAAUXPack(f, AUDIO_CONTROL_PACK).Some? && (GetAAUXPack(f, AUDIO_CONTROL_PACK).value[2] as bv8) & 0x80 == 0
  {
    var p := GetAAUXPack(f, AUDIO_CONTROL_PACK);
    if p.Some? {
      HighBitClear(p.value[2]);
    }
  }

  lemma HighBitClear(x: byte)
    ensures x < 0x80 <==> (x as bv8) & 0x80 == 0
  {
  }
}

=== FILE: dv_picture.dfy ===
/** Picture post-processing of a decoded DV frame: the linear-blend
    deinterlacer and the repack of packed 4:2:2 (Y U Y V) scanlines into
    planar 4:2:0. Images are sequences of scanlines; a scanline holds
    `stride` bytes. */
module DvPicture {
  import opened Common

  type Image = seq<seq<byte>>

  predicate Rectangular(img: Image, h: int, w: int)
  {
    |img| == h && forall r :: 0 <= r < |img| ==> |img[r]| == w
  }

  // ---------------------------------------------------------------------
  // Deinterlace

  /** The 1-2-1 vertical filter: (above + 2 * centre + below) >> 2. */
  function Blend(above: byte, centre: byte, below: byte): (v: byte)
    ensures 4 * v <= above + 2 * centre + below < 4 * v + 4
  {
    (above + 2 * centre + below) / 4
  }

  /** The blend stays between the smallest and largest of its inputs, so
      a uniform column is left unchanged. */
  lemma BlendBetween(above: byte, centre: byte, below: byte)
    ensures Min(Min(above, centre), below) <= Blend(above, centre, below)
    ensures Blend(above, centre, below) <= if above < centre then (if centre < below then below else centre)
                                           else (if above < below then below else above)
    ensures above == centre == below ==> Blend(above, centre, below) == centre
  {
  }

  /** One filtered scanline. */
  function BlendRows(above: seq<byte>, centre: seq<byte>, below: seq<byte>): (r: seq<byte>)
    requires |above| == |centre| == |below|
    ensures |r| == |centre|
    ensures forall x :: 0 <= x < |r| ==> r[x] == Blend(above[x], centre[x], below[x])
  {
    seq(|centre|, x requires 0 <= x < |centre| => Blend(above[x], centre[x], below[x]))
  }

  /** Output of the filter written to a separate buffer: the first line is
      copied, every inner line is the blend of its source neighbourhood,
      and the last line receives source line h-2. */
  predicate DeinterlacedAsWritten(src: Image, stride: nat, out: Image)
    requires Rectangular(src, |src|, stride) && |src| >= 2
  {
    var h := |src|;
    Rectangular(out, h, stride)
    && out[0] == src[0]
    && (forall y, x :: 1 <= y < h - 1 && 0 <= x < stride ==> out[y][x] == Blend(src[y - 1][x], src[y][x], src[y + 1][x]))
    && out[h - 1] == src[h - 2]
  }

  /** What the filter's own description promises: first and last lines
      pass through unfiltered. */
  predicate DeinterlacedKeepingEdges(src: Image, stride: nat, out: Image)
    requires Rectangular(src, |src|, stride) && |src| >= 2
  {
    var h := |src|;
    Rectangular(out, h, stride)
    && out[0] == src[0]
    && (forall y, x :: 1 <= y < h - 1 && 0 <= x < stride ==> out[y][x] == Blend(src[y - 1][x], src[y][x], src[y + 1][x]))
    && out[h - 1] == src[h - 1]
  }

  /** The filter as coded: the line pointers trail the output by one
      line, so after the loop the first source pointer is at line h-2. */
  method Deinterlace(src: Image, stride: nat) returns (out: Image)
    requires |src| >= 2 && Rectangular(src, |src|, stride)
    ensures DeinterlacedAsWritten(src, stride, out)
  {
    var h := |src|;
    out := [src[0]];
    var y := 1;
    var l1 := 0;
    while y < h - 1
      invariant 1 <= y <= h - 1 && l1 == y - 1
      invariant |out| == y && out[0] == src[0]
      invariant forall r :: 0 <= r < y ==> |out[r]| == stride
      invariant forall r, x :: 1 <= r < y && 0 <= x < stride ==> out[r][x] == Blend(src[r - 1][x], src[r][x], src[r + 1][x])
    {
      out := out + [BlendRows(src[l1], src[l1 + 1], src[l1 + 2])];
      l1 := l1 + 1;
      y := y + 1;
    }
    out := out + [src[l1]];
  }

  /** The corrected filter, whose last line is source line h-1. */
  method DeinterlaceCorrected(src: Image, stride: nat) returns (out: Image)
    requires |src| >= 2 && Rectangular(src, |src|, stride)
    ensures DeinterlacedKeepingEdges(src, stride, out)
  {
    var h := |src|;
    out := [src[0]];
    var y := 1;
    while y < h - 1
      invariant 1 <= y <= h - 1
      invariant |out| == y && out[0] == src[0]
      invariant forall r :: 0 <= r < y ==> |out[r]| == stride
      invariant forall r, x :: 1 <= r < y && 0 <= x < stride ==> out[r][x] == Blend(src[r - 1][x], src[r][x], src[r + 1][x])
    {
      out := out + [BlendRows(src[y - 1], src[y], src[y + 1])];
      y := y + 1;
    }
    out := out + [src[h - 1]];
  }

  /** The filter run with destination equal to source: every line above
      the current one has already been overwritten, so each blend reads the
      previous OUTPUT line, and the last line copies output line h-2. */
  predicate DeinterlacedInPlace(src: Image, stride: nat, out: Image)
    requires Rectangular(src, |src|, stride) && |src| >= 2
  {
    var h := |src|;
    Rectangular(out, h, stride)
    && out[0] == src[0]
    && (forall y, x {:trigger out[y][x], src[y][x]} :: 1 <= y < h - 1 && 0 <= x < stride ==>
          out[y][x] == Blend(out[y - 1][x], src[y][x], src[y + 1][x]))
    && out[h - 1] == out[h - 2]
  }

  method DeinterlaceInPlace(src: Image, stride: nat) returns (out: Image)
    requires |src| >= 2 && Rectangular(src, |src|, stride)
    ensures DeinterlacedInPlace(src, stride, out)
  {
    var h := |src|;
    out := [src[0]];
    var y := 1;
    while y < h - 1
      invariant 1 <= y <= h - 1
      invariant |out| == y && out[0] == src[0]
      invariant forall r :: 0 <= r < y ==> |out[r]| == stride
      invariant forall r, x {:trigger out[r][x], src[r][x]} :: 1 <= r < y && 0 <= x < stride ==>
                  out[r][x] == Blend(out[r - 1][x], src[r][x], src[r + 1][x])
    {
      out := out + [BlendRows(out[y - 1], src[y], src[y + 1])];
      y := y + 1;
    }
    out := out + [out[h - 2]];
  }

  /** Three one-pixel lines, black, black, white: the filter as written
      turns the white last line black into a separate buffer, and into the
      blend 63 of the line above when run in place; the described filter
      keeps it white. */
  lemma LastLineNotKept()
    ensures forall out :: DeinterlacedAsWritten([[0], [0], [255]], 1, out) ==> out[2] != [255]
    ensures forall out :: DeinterlacedInPlace([[0], [0], [255]], 1, out) ==> out[2] == [63]
    ensures exists out :: DeinterlacedKeepingEdges([[0], [0], [255]], 1, out)
  {
    var src: Image := [[0], [0], [255]];
    assert Rectangular(src, 3, 1);
    forall out | DeinterlacedAsWritten(src, 1, out)
      ensures out[2] != [255]
    {
      assert out[2] == src[1];
    }
    forall out | DeinterlacedInPlace(src, 1, out)
      ensures out[2] == [63]
    {
      assert out[1][0] == Blend(out[0][0], src[1][0], src[2][0]) == 63;
      assert out[1] == [63];
    }
    var good: Image := [[0], [Blend(0, 0, 255)], [255]];
    assert DeinterlacedKeepingEdges(src, 1, good);
  }

  /** Filtering in place gives a different picture from filtering into a
      separate buffer. */
  lemma InPlaceDiffers()
    ensures forall a, b :: (DeinterlacedAsWritten([[0], [0], [255], [0]], 1, a)
                            && DeinterlacedInPlace([[0], [0], [255], [0]], 1, b)) ==> a != b
  {
    var src: Image := [[0], [0], [255], [0]];
    assert Rectangular(src, 4, 1);
    forall a, b | DeinterlacedAsWritten(src, 1, a) && DeinterlacedInPlace(src, 1, b)
      ensures a != b
    {
      assert a[1][0] == Blend(0, 0, 255) == 63;
      assert a[2][0] == Blend(0, 255, 0) == 127;
      assert b[1][0] == Blend(b[0][0], src[1][0], src[2][0]) == 63;
      assert b[2][0] == Blend(b[1][0], src[2][0], src[3][0]) == 143;
      assert a[2] != b[2];
    }
  }

  /** A picture whose lines are all equal (no interlace combing) passes
      through the corrected filter unchanged. */
  lemma UniformPictureFixed(src: Image, stride: nat, out: Image)
    requires |src| >= 2 && Rectangular(src, |src|, stride)
    requires forall y :: 0 <= y < |src| ==> src[y] == src[0]
    requires DeinterlacedKeepingEdges(src, stride, out)
    ensures out == src
  {
    forall y | 0 <= y < |src|
      ensures out[y] == src[y]
    {
      if 1 <= y < |src| - 1 {
        forall x | 0 <= x < stride
          ensures out[y][x] == src[y][x]
        {
          BlendBetween(src[y - 1][x], src[y][x], src[y + 1][x]);
        }
      }
    }
  }

  // ---------------------------------------------------------------------
  // Packed 4:2:2 to planar 4:2:0

  /** Planar output: Y is h lines of w bytes; Cb and Cr are h/2 lines of
      w/2 bytes. */
  datatype Planes = Planes(y: Image, cb: Image, cr: Image)

  /** The repack of the non-avcodec path: Y bytes are taken from every
      line, Cb and Cr only from even lines, and each packed line holds
      2 * w bytes as Y U Y V groups. */
  method ExtractYUV420(packed: Image, w: nat, h: nat) returns (planes: Planes)
    requires w % 2 == 0 && h % 2 == 0
    requires Rectangular(packed, h, 2 * w)
    ensures Rectangular(planes.y, h, w)
    ensures Rectangular(planes.cb, h / 2, w / 2) && Rectangular(planes.cr, h / 2, w / 2)
    ensures forall r, c :: 0 <= r < h && 0 <= c < w ==> planes.y[r][c] == packed[r][2 * c]
    ensures forall q, j :: 0 <= q < h / 2 && 0 <= j < w / 2 ==> planes.cb[q][j] == packed[2 * q][4 * j + 1]
    ensures forall q, j :: 0 <= q < h / 2 && 0 <= j < w / 2 ==> planes.cr[q][j] == packed[2 * q][4 * j + 3]
  {
    var w2 := w / 2;
    var ys: Image := [];
    var cbs: Image := [];
    var crs: Image := [];
    var i := 0;
    while i < h
      invariant 0 <= i <= h && i % 2 == 0
      invariant |ys| == i && |cbs| == i / 2 && |crs| == i / 2
      invariant forall r :: 0 <= r < i ==> |ys[r]| == w
      invariant forall q :: 0 <= q < i / 2 ==> |cbs[q]| == w2 && |crs[q]| == w2
      invariant forall r, c :: 0 <= r < i && 0 <= c < w ==> ys[r][c] == packed[r][2 * c]
      invariant forall q, j :: 0 <= q < i / 2 && 0 <= j < w2 ==> cbs[q][j] == packed[2 * q][4 * j + 1]
      invariant forall q, j :: 0 <= q < i / 2 && 0 <= j < w2 ==> crs[q][j] == packed[2 * q][4 * j + 3]
    {
      var line0, cb, cr := ChromaLine(packed[i], w2);
      var line1 := LumaLine(packed[i + 1], w2);
      ys := ys + [line0, line1];
      cbs := cbs + [cb];
      crs := crs + [cr];
      i := i + 2;
    }
    planes := Planes(ys, cbs, crs);
  }

  /** First line of a pair: Y U Y V groups, all four bytes used. */
  method ChromaLine(line: seq<byte>, w2: nat) returns (y: seq<byte>, cb: seq<byte>, cr: seq<byte>)
    requires |line| == 4 * w2
    ensures |y| == 2 * w2 && |cb| == w2 && |cr| == w2
    ensures forall c :: 0 <= c < 2 * w2 ==> y[c] == line[2 * c]
    ensures forall j :: 0 <= j < w2 ==> cb[j] == line[4 * j + 1] && cr[j] == line[4 * j + 3]
  {
    y, cb, cr := [], [], [];
    var j := 0;
    while j < w2
      invariant 0 <= j <= w2
      invariant |y| == 2 * j && |cb| == j && |cr| == j
      invariant forall c :: 0 <= c < 2 * j ==> y[c] == line[2 * c]
      invariant forall k :: 0 <= k < j ==> cb[k] == line[4 * k + 1] && cr[k] == line[4 * k + 3]
    {
      y := y + [line[4 * j], line[4 * j + 2]];
      cb := cb + [line[4 * j + 1]];
      cr := cr + [line[4 * j + 3]];
      j := j + 1;
    }
  }

  /** Second line of a pair: only the Y bytes are kept. */
  method LumaLine(line: seq<byte>, w2: nat) returns (y: seq<byte>)
    requires |line| == 4 * w2
    ensures |y| == 2 * w2
    ensures forall c :: 0 <= c < 2 * w2 ==> y[c] == line[2 * c]
  {
    y := [];
    var j := 0;
    while j < w2
      invariant 0 <= j <= w2
      invariant |y| == 2 * j
      invariant forall c :: 0 <= c < 2 * j ==> y[c] == line[2 * c]
    {
      y := y + [line[4 * j], line[4 * j + 2]];
      j := j + 1;
    }
  }

  /** The planes hold w*h luma bytes and w*h/4 bytes of each chroma
      component. */
  lemma PlaneSizes(planes: Planes, w: nat, h: nat)
    requires w % 2 == 0 && h % 2 == 0
    requires Rectangular(planes.y, h, w)
    requires Rectangular(planes.cb, h / 2, w / 2) && Rectangular(planes.cr, h / 2, w / 2)
    ensures |Flatten(planes.y)| == w * h
    ensures |Flatten(planes.cb)| == w * h / 4 && |Flatten(planes.cr)| == w * h / 4
  {
    FlattenLength(planes.y, w);
    FlattenLength(planes.cb, w / 2);
    FlattenLength(planes.cr, w / 2);
    assert (h / 2) * (w / 2) == w * h / 4 by {
      var a := h / 2;
      var b := w / 2;
      assert w * h == 4 * (a * b);
    }
  }
}

=== FILE: export.dfy ===
/** The detectors inside `CClipList::output`: subtitle cues cut wherever
    the recording date changes, the chapter and title marks of the DVD
    menu, and the small string helpers the exported files are built from.
    Each detector is a pure step over one served frame; the frame's
    recording date and chapter label come in as inputs. */
module Export {
  import opened Common
  import DvFrame
  import Misc

  type DateTime = DvFrame.DateTime

  // ---------------------------------------------------------------------
  // Date changes

  /** `timeDiff`: the dates differ in year, month, day, hour or minute, or
      in the seconds when those are checked. */
  function TimeDiff(a: DateTime, b: DateTime, checkSeconds: bool): bool
  {
    a.year != b.year || a.mon != b.mon || a.mday != b.mday ||
    a.hour != b.hour || a.min != b.min || (checkSeconds && a.sec != b.sec)
  }

  /** With seconds checked, any difference at all is a change. */
  lemma TimeDiffWithSeconds(a: DateTime, b: DateTime)
    ensures TimeDiff(a, b, true) <==> a != b
  {
  }

  /** Without, two dates within the same minute are the same. */
  lemma TimeDiffWithoutSeconds(a: DateTime, b: DateTime)
    ensures TimeDiff(a, b, false) <==> a.(sec := 0) != b.(sec := 0)
  {
  }

  /** `pat` occurs in `s` at index `i`. */
  predicate OccursAt(s: string, pat: string, i: int)
  {
    0 <= i && i + |pat| <= |s| && s[i..i + |pat|] == pat
  }

  /** `strstr(s, pat) != NULL`. */
  function Contains(s: string, pat: string): (r: bool)
    ensures r <==> exists i :: OccursAt(s, pat, i)
    decreases |s|
  {
    if |s| < |pat| then false
    else if s[..|pat|] == pat then
      assert OccursAt(s, pat, 0);
      true
    else
      var r := Contains(s[1..], pat);
      assert forall i :: OccursAt(s[1..], pat, i) <==> OccursAt(s, pat, i + 1) by {
        forall i ensures OccursAt(s[1..], pat, i) <==> OccursAt(s, pat, i + 1) {
          if 0 <= i && i + |pat| <= |s| - 1 {
            assert s[1..][i..i + |pat|] == s[i + 1..i + 1 + |pat|];
          }
        }
      }
      assert forall i :: OccursAt(s, pat, i) ==> i == 0 || OccursAt(s[1..], pat, i - 1);
      r
  }

  /** `secondsInSubtitles`: the change detector looks at seconds only
      when subtitles are written and their format prints seconds. */
  function SecondsInSubtitles(sub: bool, format: Option<string>): (r: bool)
    ensures r ==> sub && format.Some?
  {
    sub && format.Some? && Contains(format.value, "%S")
  }

  lemma SecondsFormat(before: string, after: string)
    ensures SecondsInSubtitles(true, Some(before + "%S" + after))
    ensures !SecondsInSubtitles(false, Some(before + "%S" + after))
  {
    assert OccursAt(before + "%S" + after, "%S", |before|);
  }

  // ---------------------------------------------------------------------
  // Displaying a date

  /** What `output` was asked for and the environment `displayTime` reads:
      the files requested, whether seconds count, the hour adjustment, the
      latest year accepted, the `strftime` formatting and whether the start
      and end dates are recorded for the menu titles. */
  datatype Config = Config(sub: bool, dvda: bool, kmf: bool, checkSeconds: bool, adjust: int,
                           lastYear: int, format: DateTime -> string, recordDates: bool)

  /** The configuration as written: dates up to the current year are
      displayed, and the start and end dates are only recorded for a
      dvdauthor file. */
  function ConfigOf(sub: bool, dvda: bool, kmf: bool, subFormat: Option<string>, adjust: int,
                    nowYear: int, format: DateTime -> string): (cfg: Config)
    ensures cfg.lastYear == nowYear && (cfg.recordDates <==> dvda)
    ensures cfg.checkSeconds ==> sub
  {
    Config(sub, dvda, kmf, SecondsInSubtitles(sub, subFormat), adjust, nowYear, format, dvda)
  }

  /** The configuration as intended: dates up to the year after the
      current one are displayed, and the dates are recorded whenever a
      menu title will be built from them. */
  function ConfigCorrected(sub: bool, dvda: bool, kmf: bool, subFormat: Option<string>, adjust: int,
                           nowYear: int, format: DateTime -> string): (cfg: Config)
    ensures cfg.lastYear == nowYear + 1 && (cfg.recordDates <==> dvda || kmf)
    ensures cfg.checkSeconds ==> sub
  {
    Config(sub, dvda, kmf, SecondsInSubtitles(sub, subFormat), adjust, nowYear + 1, format, dvda || kmf)
  }

  /** `displayTime`'s validity test: a year from 1999 (tm_year 99) to
      `lastYear`, and a time of day within 00:00:00 to 23:59:59. */
  predicate Displayable(tm: DateTime, lastYear: int)
  {
    !(tm.year < 99 || tm.year > lastYear ||
      tm.hour < 0 || tm.hour > 23 ||
      tm.min < 0 || tm.min > 59 ||
      tm.sec < 0 || tm.sec > 59)
  }

  /** `displayTime`: nothing for a date that fails the test; otherwise
      the date, with `adjust` added to its hour, formatted. */
  function DisplayTime(cfg: Config, tm: DateTime): (r: Option<string>)
    ensures r.Some? <==> 99 <= tm.year <= cfg.lastYear && 0 <= tm.hour < 24 && 0 <= tm.min < 60 && 0 <= tm.sec < 60
    ensures r.Some? ==> r.value == cfg.format(tm.(hour := tm.hour + cfg.adjust))
  {
    if Displayable(tm, cfg.lastYear) then Some(cfg.format(tm.(hour := tm.hour + cfg.adjust))) else None
  }

  /** A valid time of day in the year after the current one. */
  lemma NextYearRejected(nowYear: int, tm: DateTime, sub: bool, dvda: bool, kmf: bool,
                         subFormat: Option<string>, adjust: int, format: DateTime -> string)
    requires nowYear >= 99 && tm.year == nowYear + 1
    requires 0 <= tm.hour <= 23 && 0 <= tm.min <= 59 && 0 <= tm.sec <= 59
    ensures DisplayTime(ConfigOf(sub, dvda, kmf, subFormat, adjust, nowYear, format), tm).None?
    ensures DisplayTime(ConfigCorrected(sub, dvda, kmf, subFormat, adjust, nowYear, format), tm).Some?
  {
  }

  /** For every date, the corrected bound shows what the written one shows,
      with the same text, and in addition exactly the dates of the year
      after the current one. */
  lemma CorrectedDisplaysNextYear(nowYear: int, tm: DateTime, sub: bool, dvda: bool, kmf: bool,
                                  subFormat: Option<string>, adjust: int, format: DateTime -> string)
    ensures var written := DisplayTime(ConfigOf(sub, dvda, kmf, subFormat, adjust, nowYear, format), tm);
      var corrected := DisplayTime(ConfigCorrected(sub, dvda, kmf, subFormat, adjust, nowYear, format), tm);
      (written.Some? ==> corrected == written)
      && (corrected.Some? && written.None? <==> corrected.Some? && tm.year == nowYear + 1)
  {
  }

  /** A subtitle: frames `from` to `to` show `text`. */
  datatype Cue = Cue(from: nat, to: nat, text: string)

  /** The subtitle line `displayTime` writes: "{from}{to}text\n". */
  function CueLine(c: Cue): string
  {
    "{" + CueBody(c) + "\n"
  }

  function CueBody(c: Cue): string
  {
    IntToString(c.from) + "}" + CueTo(c)
  }

  function CueTo(c: Cue): string
  {
    "{" + IntToString(c.to) + "}" + c.text
  }

  /** Reads a subtitle line back. */
  function ParseCue(line: string): (r: Option<Cue>)
  {
    if |line| < 2 || line[0] != '{' || line[|line| - 1] != '\n' then None
    else ParseCueBody(line[1..|line| - 1])
  }

  /** "from}{to}text". */
  function ParseCueBody(body: string): Option<Cue>
  {
    match SplitAt(body, '}')
    case None => None
    case Some((from, more)) =>
      if |more| == 0 || more[0] != '{' then None
      else
        match SplitAt(more[1..], '}')
        case None => None
        case Some((to, text)) =>
          if AllDigits(from) && AllDigits(to) then Some(Cue(ParseNat(from), ParseNat(to), text)) else None
  }

  predicate AllDigits(s: string)
  {
    forall i :: 0 <= i < |s| ==> IsDigit(s[i])
  }

  /** The text before and after the first `x`. */
  function SplitAt(s: string, x: char): (r: Option<(string, string)>)
    ensures r.Some? ==> s == r.value.0 + [x] + r.value.1 && x !in r.value.0
    ensures r.None? <==> x !in s
  {
    var i := IndexOf(s, x);
    if i < 0 then None
    else
      assert s == s[..i] + [x] + s[i + 1..];
      Some((s[..i], s[i + 1..]))
  }

  lemma Unwrap(body: string)
    ensures ("{" + body + "\n")[1..|body| + 1] == body
  {
  }

  lemma SplitAtFirst(p: string, x: char, q: string)
    requires x !in p
    ensures SplitAt(p + [x] + q, x) == Some((p, q))
  {
    var s := p + [x] + q;
    assert s[|p|] == x;
    forall j | 0 <= j < |p|
      ensures s[j] == p[j] && s[j] != x
    {
      assert p[j] in p;
    }
    var i := IndexOf(s, x);
    assert i == |p|;
    assert s[..|p|] == p && s[|p| + 1..] == q;
  }

  /** Every subtitle line reads back as its cue. */
  lemma CueLineRoundTrip(c: Cue)
    ensures ParseCue(CueLine(c)) == Some(c)
  {
    Unwrap(CueBody(c));
    CueBodyRoundTrip(c);
  }

  lemma CueBodyRoundTrip(c: Cue)
    ensures ParseCueBody(CueBody(c)) == Some(c)
  {
    var f, t := NatToString(c.from), NatToString(c.to);
    assert IntToString(c.from) == f && IntToString(c.to) == t;
    assert '}' !in f && '}' !in t;
    SplitAtFirst(f, '}', CueTo(c));
    assert CueTo(c)[1..] == t + ['}'] + c.text;
    SplitAtFirst(t, '}', c.text);
    ParseNatToString(c.from);
    ParseNatToString(c.to);
  }

  // ---------------------------------------------------------------------
  // Subtitle cues

  /** The state of the date detector: the first frame of the next cue, the
      reference date, the cues displayed so far and the first and last
      date displayed. */
  datatype Dates = Dates(lastFrame: nat, lastTime: DateTime, cues: seq<Cue>,
                         startDateTime: string, endDateTime: string)

  /** Before the first frame. The reference date is never set before it is
      first compared, so it is a parameter. */
  function InitialDates(lastTime: DateTime): (s: Dates)
    ensures s.lastFrame == 0 && s.cues == [] && s.startDateTime == "" && s.endDateTime == ""
  {
    Dates(0, lastTime, [], "", "")
  }

  /** A date was displayed: the first one (not empty) becomes the start
      date, every one the end date, when dates are recorded. */
  function Record(cfg: Config, s: Dates, date: string): Dates
  {
    if cfg.recordDates then
      s.(startDateTime := if s.startDateTime == "" then date else s.startDateTime, endDateTime := date)
    else s
  }

  /** The date detector on frame `frameCount`: when the frame's date
      differs from the reference date, the reference date is displayed
      over the frames since the last cue up to the next frame, the next
      cue starts after this frame if the reference date was displayable,
      and the frame's date becomes the reference date. */
  function DateStep(cfg: Config, s: Dates, frameCount: nat, date: Option<DateTime>): (r: Dates)
    ensures r.lastFrame == s.lastFrame || r.lastFrame == frameCount + 1
    ensures |r.cues| <= |s.cues| + 1
  {
    if (cfg.sub || cfg.dvda || cfg.kmf) && date.Some? && TimeDiff(date.value, s.lastTime, cfg.checkSeconds) then
      var shown := DisplayTime(cfg, s.lastTime);
      var s1 := if shown.Some? then
        Record(cfg, s.(lastFrame := frameCount + 1, cues := s.cues + [Cue(s.lastFrame, frameCount + 1, shown.value)]), shown.value)
      else s;
      s1.(lastTime := date.value)
    else s
  }

  /** The date detector over frames `start`, `start + 1`, ... */
  function DateRun(cfg: Config, s: Dates, dates: seq<Option<DateTime>>, start: nat): (r: Dates)
    decreases |dates|
  {
    if |dates| == 0 then s else DateRun(cfg, DateStep(cfg, s, start, dates[0]), dates[1..], start + 1)
  }

  /** After the last frame: the reference date is displayed over the frames
      since the last cue up to `total`, if any frame was served and frames
      remain. */
  function FinalCue(cfg: Config, s: Dates, frameCount: nat, total: int): (r: Dates)
    ensures r.lastFrame == s.lastFrame && r.lastTime == s.lastTime
    ensures |r.cues| > |s.cues| ==> frameCount > 0 && s.lastFrame < total && r.cues == s.cues + [r.cues[|s.cues|]]
  {
    if (cfg.sub || cfg.dvda || cfg.kmf) && frameCount != 0 && s.lastFrame < total then
      var shown := DisplayTime(cfg, s.lastTime);
      if shown.Some? then Record(cfg, s.(cues := s.cues + [Cue(s.lastFrame, total, shown.value)]), shown.value)
      else s
    else s
  }

  /** The text written to the subtitle file. */
  function SubtitleText(cfg: Config, s: Dates): string
  {
    if cfg.sub then Lines(s.cues) else ""
  }

  function Lines(cues: seq<Cue>): string
  {
    if |cues| == 0 then "" else CueLine(cues[0]) + Lines(cues[1..])
  }

  /** The cues cover frames `0..end-1`, one after another, each non-empty. */
  predicate Tiles(cues: seq<Cue>, end: int)
  {
    (|cues| == 0 ==> end == 0) &&
    (|cues| > 0 ==> cues[0].from == 0 && cues[|cues| - 1].to == end) &&
    (forall i :: 0 <= i < |cues| ==> cues[i].from < cues[i].to) &&
    (forall i :: 0 <= i < |cues| - 1 ==> cues[i].to == cues[i + 1].from)
  }

  lemma TilesAppend(cues: seq<Cue>, end: nat, c: Cue)
    requires Tiles(cues, end) && c.from == end && c.from < c.to
    ensures Tiles(cues + [c], c.to)
  {
    var n := cues + [c];
    forall i | 0 <= i < |n| - 1
      ensures n[i].to == n[i + 1].from
    {
      if i < |cues| - 1 {
        assert n[i] == cues[i] && n[i + 1] == cues[i + 1];
      }
    }
  }

  /** One frame keeps the cues tiling the frames before the next cue. */
  lemma DateStepTiles(cfg: Config, s: Dates, frameCount: nat, date: Option<DateTime>)
    requires Tiles(s.cues, s.lastFrame) && s.lastFrame <= frameCount
    ensures var r := DateStep(cfg, s, frameCount, date);
      Tiles(r.cues, r.lastFrame) && r.lastFrame <= frameCount + 1
  {
    if (cfg.sub || cfg.dvda || cfg.kmf) && date.Some? && TimeDiff(date.value, s.lastTime, cfg.checkSeconds) {
      var shown := DisplayTime(cfg, s.lastTime);
      if shown.Some? {
        TilesAppend(s.cues, s.lastFrame, Cue(s.lastFrame, frameCount + 1, shown.value));
      }
    }
  }

  /** Over any run of frames the cues tile the frames before the next
      cue, which starts no later than the frame after the run. */
  lemma {:induction false} DateRunTiles(cfg: Config, s: Dates, dates: seq<Option<DateTime>>, start: nat)
    requires Tiles(s.cues, s.lastFrame) && s.lastFrame <= start
    ensures var r := DateRun(cfg, s, dates, start);
      Tiles(r.cues, r.lastFrame) && r.lastFrame <= start + |dates|
    decreases |dates|
  {
    if |dates| > 0 {
      DateStepTiles(cfg, s, start, dates[0]);
      DateRunTiles(cfg, DateStep(cfg, s, start, dates[0]), dates[1..], start + 1);
    }
  }

  /** When the final cue is displayed, the cues tile all `total` frames. */
  lemma FinalCueTiles(cfg: Config, s: Dates, frameCount: nat, total: int)
    requires Tiles(s.cues, s.lastFrame)
    ensures var r := FinalCue(cfg, s, frameCount, total);
      |r.cues| > |s.cues| ==> Tiles(r.cues, total)
  {
    var r := FinalCue(cfg, s, frameCount, total);
    if |r.cues| > |s.cues| {
      TilesAppend(s.cues, s.lastFrame, r.cues[|s.cues|]);
    }
  }

  /** A whole export: from the start of the list, the detector's cues tile
      the frames served, when the final cue is displayed. */
  lemma ExportTiles(cfg: Config, lastTime: DateTime, dates: seq<Option<DateTime>>, total: int)
    ensures var s := DateRun(cfg, InitialDates(lastTime), dates, 0);
      var r := FinalCue(cfg, s, |dates|, total);
      Tiles(s.cues, s.lastFrame) && (|r.cues| > |s.cues| ==> Tiles(r.cues, total))
  {
    DateRunTiles(cfg, InitialDates(lastTime), dates, 0);
    FinalCueTiles(cfg, DateRun(cfg, InitialDates(lastTime), dates, 0), |dates|, total);
  }

  /** A zero-filled reference date is not displayable, so the first change
      of date starts no cue: the frames before it join the next cue. */
  lemma ZeroReferenceStartsNoCue(cfg: Config, frameCount: nat, date: DateTime)
    requires cfg.sub || cfg.dvda || cfg.kmf
    requires date.year != 0
    ensures var r := DateStep(cfg, InitialDates(DvFrame.DateTime(0, 0, 0, 0, 0, 0)), frameCount, Some(date));
      r.cues == [] && r.lastFrame == 0 && r.lastTime == date
  {
  }

  // ---------------------------------------------------------------------
  // Start and end dates

  function Texts(cues: seq<Cue>): (r: seq<string>)
    ensures |r| == |cues|
    ensures forall i :: 0 <= i < |cues| ==> r[i] == cues[i].text
  {
    seq(|cues|, i requires 0 <= i < |cues| => cues[i].text)
  }

  /** The first non-empty string, or empty. */
  function FirstNonEmpty(xs: seq<string>): string
  {
    if |xs| == 0 then "" else if xs[0] != "" then xs[0] else FirstNonEmpty(xs[1..])
  }

  function LastOr(xs: seq<string>): string
  {
    if |xs| == 0 then "" else xs[|xs| - 1]
  }

  lemma {:induction false} FirstNonEmptyAppend(xs: seq<string>, x: string)
    ensures FirstNonEmpty(xs + [x]) == if FirstNonEmpty(xs) == "" then x else FirstNonEmpty(xs)
    decreases |xs|
  {
    if |xs| > 0 {
      assert (xs + [x])[1..] == xs[1..] + [x];
      FirstNonEmptyAppend(xs[1..], x);
    }
  }

  /** The start date is the first non-empty date displayed and the end
      date the last one, when dates are recorded; both stay empty when they
      are not. */
  predicate DatesRecorded(cfg: Config, s: Dates)
  {
    if cfg.recordDates then
      s.startDateTime == FirstNonEmpty(Texts(s.cues)) && s.endDateTime == LastOr(Texts(s.cues))
    else
      s.startDateTime == "" && s.endDateTime == ""
  }

  lemma RecordCue(cfg: Config, s: Dates, c: Cue)
    requires DatesRecorded(cfg, s)
    ensures DatesRecorded(cfg, Record(cfg, s.(cues := s.cues + [c]), c.text))
  {
    assert Texts(s.cues + [c]) == Texts(s.cues) + [c.text];
    FirstNonEmptyAppend(Texts(s.cues), c.text);
  }

  lemma DateStepRecords(cfg: Config, s: Dates, frameCount: nat, date: Option<DateTime>)
    requires DatesRecorded(cfg, s)
    ensures DatesRecorded(cfg, DateStep(cfg, s, frameCount, date))
  {
    if (cfg.sub || cfg.dvda || cfg.kmf) && date.Some? && TimeDiff(date.value, s.lastTime, cfg.checkSeconds) {
      var shown := DisplayTime(cfg, s.lastTime);
      if shown.Some? {
        var c := Cue(s.lastFrame, frameCount + 1, shown.value);
        RecordCue(cfg, s.(lastFrame := frameCount + 1), c);
      }
    }
  }

  lemma {:induction false} DateRunRecords(cfg: Config, s: Dates, dates: seq<Option<DateTime>>, start: nat)
    requires DatesRecorded(cfg, s)
    ensures DatesRecorded(cfg, DateRun(cfg, s, dates, start))
    decreases |dates|
  {
    if |dates| > 0 {
      DateStepRecords(cfg, s, start, dates[0]);
      DateRunRecords(cfg, DateStep(cfg, s, start, dates[0]), dates[1..], start + 1);
    }
  }

  lemma FinalCueRecords(cfg: Config, s: Dates, frameCount: nat, total: int)
    requires DatesRecorded(cfg, s)
    ensures DatesRecorded(cfg, FinalCue(cfg, s, frameCount, total))
  {
    if (cfg.sub || cfg.dvda || cfg.kmf) && frameCount != 0 && s.lastFrame < total {
      var shown := DisplayTime(cfg, s.lastTime);
      if shown.Some? {
        RecordCue(cfg, s, Cue(s.lastFrame, total, shown.value));
      }
    }
  }

  /** The dates of a whole export, as the menu titles see them. */
  function ExportDates(cfg: Config, lastTime: DateTime, dates: seq<Option<DateTime>>, total: int): Dates
  {
    FinalCue(cfg, DateRun(cfg, InitialDates(lastTime), dates, 0), |dates|, total)
  }

  lemma ExportRecords(cfg: Config, lastTime: DateTime, dates: seq<Option<DateTime>>, total: int)
    ensures DatesRecorded(cfg, ExportDates(cfg, lastTime, dates, total))
  {
    DateRunRecords(cfg, InitialDates(lastTime), dates, 0);
    FinalCueRecords(cfg, DateRun(cfg, InitialDates(lastTime), dates, 0), |dates|, total);
  }

  /** Without a dvdauthor file the dates are never recorded, so a KMF
      project gets an empty title whatever dates were displayed. */
  lemma KmfTitleEmptyWithoutDvda(sub: bool, subFormat: Option<string>, adjust: int, nowYear: int,
                                 format: DateTime -> string, lastTime: DateTime,
                                 dates: seq<Option<DateTime>>, total: int)
    ensures var cfg := ConfigOf(sub, false, true, subFormat, adjust, nowYear, format);
      var r := ExportDates(cfg, lastTime, dates, total);
      r.startDateTime == "" && r.endDateTime == "" && MenuTitle(r.startDateTime, r.endDateTime) == ""
  {
    var cfg := ConfigOf(sub, false, true, subFormat, adjust, nowYear, format);
    ExportRecords(cfg, lastTime, dates, total);
  }

  /** Recording the dates for a KMF project as well, its title is built
      from the first and the last date displayed. */
  lemma KmfTitleFromDates(sub: bool, dvda: bool, subFormat: Option<string>, adjust: int, nowYear: int,
                          format: DateTime -> string, lastTime: DateTime,
                          dates: seq<Option<DateTime>>, total: int)
    ensures var cfg := ConfigCorrected(sub, dvda, true, subFormat, adjust, nowYear, format);
      var r := ExportDates(cfg, lastTime, dates, total);
      r.startDateTime == FirstNonEmpty(Texts(r.cues)) && r.endDateTime == LastOr(Texts(r.cues))
  {
    var cfg := ConfigCorrected(sub, dvda, true, subFormat, adjust, nowYear, format);
    ExportRecords(cfg, lastTime, dates, total);
  }

  // ---------------------------------------------------------------------
  // Menu titles

  /** `onlyDate`: the text before the first '|', or all of it. */
  function OnlyDate(s: string): (r: string)
    ensures '|' !in r || r == s
  {
    var pos := IndexOf(s, '|');
    if pos == -1 then s else s[..pos]
  }

  /** `onlyTime`: the text after the first '|', or all of it. */
  function OnlyTime(s: string): (r: string)
  {
    var pos := IndexOf(s, '|');
    if pos == -1 then s else s[pos + 1..]
  }

  /** A "date|time" string splits back into its date and its time. */
  lemma OnlyDateTime(date: string, time: string)
    requires '|' !in date
    ensures OnlyDate(date + "|" + time) == date && OnlyTime(date + "|" + time) == time
  {
    SplitAtFirst(date, '|', time);
  }

  /** Without a '|' both halves are the whole string. */
  lemma OnlyDateTimeWhole(s: string)
    requires '|' !in s
    ensures OnlyDate(s) == s && OnlyTime(s) == s
  {
  }

  /** The title of the KMF project and of the dvdauthor ".title" file:
      one date, a date with a time span, or a span of dates. */
  function MenuTitle(startDateTime: string, endDateTime: string): string
  {
    var startDate, endDate := OnlyDate(startDateTime), OnlyDate(endDateTime);
    if startDate == endDate then
      var startTime, endTime := OnlyTime(startDateTime), OnlyTime(endDateTime);
      if startTime == endTime then startDate
      else startDate + " (" + startTime + " - " + endTime + ")"
    else startDate + " - " + endDate
  }

  lemma MenuTitleOneStamp(s: string)
    ensures MenuTitle(s, s) == OnlyDate(s)
  {
  }

  lemma MenuTitleOneDay(date: string, t1: string, t2: string)
    requires '|' !in date && t1 != t2
    ensures MenuTitle(date + "|" + t1, date + "|" + t2) == date + " (" + t1 + " - " + t2 + ")"
  {
    OnlyDateTime(date, t1);
    OnlyDateTime(date, t2);
  }

  lemma MenuTitleDays(d1: string, t1: string, d2: string, t2: string)
    requires '|' !in d1 && '|' !in d2 && d1 != d2
    ensures MenuTitle(d1 + "|" + t1, d2 + "|" + t2) == d1 + " - " + d2
  {
    OnlyDateTime(d1, t1);
    OnlyDateTime(d2, t2);
  }

  // ---------------------------------------------------------------------
  // Chapters and titles

  /** A chapter mark: its timestamp and its frame. Two chapters are the
      same chapter when their timestamps are. */
  datatype Chapter = Chapter(str: string, frame: int)

  /** A menu title: the chapter label and the timestamp it starts at. */
  datatype Title = Title(name: string, pos: string)

  /** The state of the chapter detector. */
  datatype Marks = Marks(chapters: seq<Chapter>, chapterName: string, titles: seq<Title>, lastChapterFrame: int)

  const NO_MARKS: Marks := Marks([], "", [], -1)

  /** The spacing of periodic chapters and the least distance between two
      chapters, in frames. */
  datatype Gaps = Gaps(chapterGap: int, minChapterGap: int)

  /** `QList<Chapter>::indexOf`: the first chapter with timestamp `str`,
      or -1. */
  function ChapterIndex(cs: seq<Chapter>, str: string): (r: int)
    ensures -1 <= r < |cs|
    ensures r >= 0 ==> cs[r].str == str
    decreases |cs|
  {
    if |cs| == 0 then -1
    else if cs[0].str == str then 0
    else
      var k := ChapterIndex(cs[1..], str);
      if k == -1 then -1 else k + 1
  }

  /** `ChapterIndex` finds the first chapter with the timestamp, and -1
      only when there is none. */
  lemma {:induction false} ChapterIndexFirst(cs: seq<Chapter>, str: string)
    ensures var r := ChapterIndex(cs, str);
      (r >= 0 ==> forall j :: 0 <= j < r ==> cs[j].str != str) &&
      (r == -1 <==> forall j :: 0 <= j < |cs| ==> cs[j].str != str)
    decreases |cs|
  {
    if |cs| > 0 && cs[0].str != str {
      ChapterIndexFirst(cs[1..], str);
      assert forall j :: 1 <= j < |cs| ==> cs[j] == cs[1..][j - 1];
    }
  }

  /** The chapter detector on frame `frameCount` whose label is `cName`:
      a chapter is proposed every `chapterGap` frames and wherever a new
      non-empty label starts; a proposal too close to the last chapter is
      dropped, unless it starts a label, which then replaces the last
      chapter when that one does not start a title; and every new label
      adds a title. */
  function MarkStep(gaps: Gaps, timeStr: int -> string, s: Marks, frameCount: nat, cName: string): (r: Marks)
    requires gaps.chapterGap > 0
    ensures |r.chapters| <= |s.chapters| + 1
  {
    var diffName := cName != "" && cName != s.chapterName;
    if frameCount % gaps.chapterGap == 0 || diffName then Propose(gaps, timeStr(frameCount), s, frameCount, cName)
    else s
  }

  /** A chapter is proposed at `frameCount`, with timestamp `chapterStr`. */
  function Propose(gaps: Gaps, chapterStr: string, s: Marks, frameCount: int, cName: string): (r: Marks)
    ensures |r.chapters| <= |s.chapters| + 1
  {
    var emptyName := cName == "";
    var diffName := !emptyName && cName != s.chapterName;
    var tooClose := s.lastChapterFrame > -1 && frameCount - s.lastChapterFrame < gaps.minChapterGap;
    var prevIsTitle := PrevIsTitle(s);
    if tooClose && prevIsTitle && emptyName then s
    else
      var kept := if tooClose && diffName && !prevIsTitle && |s.chapters| > 0
                  then s.chapters[..|s.chapters| - 1] else s.chapters;
      Place(s, kept, chapterStr, frameCount, cName, diffName,
            (!tooClose || diffName) && ChapterIndex(kept, chapterStr) == -1)
  }

  /** The last chapter is where the last title starts. */
  predicate PrevIsTitle(s: Marks)
  {
    |s.titles| > 0 && ChapterIndex(s.chapters, s.titles[|s.titles| - 1].pos) == |s.chapters| - 1
  }

  /** The chapters `kept`, with the proposed one when `add`; a title for a
      new label. */
  function Place(s: Marks, kept: seq<Chapter>, chapterStr: string, frameCount: int, cName: string,
                 diffName: bool, add: bool): (r: Marks)
    ensures r.chapters == if add then kept + [Chapter(chapterStr, frameCount)] else kept
    ensures r.titles == if diffName then s.titles + [Title(cName, chapterStr)] else s.titles
  {
    var chapters := if add then kept + [Chapter(chapterStr, frameCount)] else kept;
    var last := if add then frameCount else s.lastChapterFrame;
    if diffName then Marks(chapters, cName, s.titles + [Title(cName, chapterStr)], last)
    else Marks(chapters, s.chapterName, s.titles, last)
  }

  /** The chapter detector over frames `start`, `start + 1`, ... with
      labels `labels`. */
  function MarkRun(gaps: Gaps, timeStr: int -> string, s: Marks, labels: seq<string>, start: nat): Marks
    requires gaps.chapterGap > 0
    decreases |labels|
  {
    if |labels| == 0 then s else MarkRun(gaps, timeStr, MarkStep(gaps, timeStr, s, start, labels[0]), labels[1..], start + 1)
  }

  /** Different frames get different timestamps. */
  ghost predicate Injective(timeStr: int -> string)
  {
    forall a: int, b: int :: timeStr(a) == timeStr(b) ==> a == b
  }

  /** The chapters have distinct timestamps, one per frame, in increasing
      frame order before `bound`. */
  ghost predicate ChaptersValid(timeStr: int -> string, cs: seq<Chapter>, bound: int)
  {
    (forall i, j :: 0 <= i < j < |cs| ==> cs[i].str != cs[j].str) &&
    (forall i :: 0 <= i < |cs| ==> cs[i].str == timeStr(cs[i].frame) && 0 <= cs[i].frame < bound) &&
    (forall i, j :: 0 <= i < j < |cs| ==> cs[i].frame < cs[j].frame)
  }

  /** Every title starts at a chapter, titles in chapter order. */
  predicate TitlesValid(cs: seq<Chapter>, titles: seq<Title>)
  {
    (forall k :: 0 <= k < |titles| ==> ChapterIndex(cs, titles[k].pos) >= 0) &&
    (forall k, m :: 0 <= k <= m < |titles| ==> ChapterIndex(cs, titles[k].pos) <= ChapterIndex(cs, titles[m].pos))
  }

  /** The detector's invariant: valid chapters before `bound`, the last
      chapter frame is the last chapter's (-1 for none), valid titles, and
      the current label is the last title's. */
  ghost predicate MarksValid(timeStr: int -> string, s: Marks, bound: int)
  {
    ChaptersValid(timeStr, s.chapters, bound) &&
    (if |s.chapters| == 0 then s.lastChapterFrame == -1 else s.lastChapterFrame == s.chapters[|s.chapters| - 1].frame) &&
    TitlesValid(s.chapters, s.titles) &&
    s.chapterName == (if |s.titles| == 0 then "" else s.titles[|s.titles| - 1].name)
  }

  lemma ChapterIndexPrefix(cs: seq<Chapter>, n: nat, str: string)
    requires n <= |cs| && 0 <= ChapterIndex(cs, str) < n
    ensures ChapterIndex(cs[..n], str) == ChapterIndex(cs, str)
  {
    var r := ChapterIndex(cs, str);
    ChapterIndexFirst(cs, str);
    ChapterIndexFirst(cs[..n], str);
    assert cs[..n][r] == cs[r];
    var q := ChapterIndex(cs[..n], str);
    assert q >= 0 ==> cs[q] == cs[..n][q];
  }

  lemma ChapterIndexAppend(cs: seq<Chapter>, c: Chapter, str: string)
    requires ChapterIndex(cs, str) >= 0
    ensures ChapterIndex(cs + [c], str) == ChapterIndex(cs, str)
  {
    var r := ChapterIndex(cs, str);
    ChapterIndexFirst(cs, str);
    ChapterIndexFirst(cs + [c], str);
    assert (cs + [c])[r] == cs[r];
    var q := ChapterIndex(cs + [c], str);
    assert q >= 0 ==> q < |cs| ==> (cs + [c])[q] == cs[q];
  }

  lemma ChapterIndexLast(cs: seq<Chapter>, c: Chapter)
    requires forall i :: 0 <= i < |cs| ==> cs[i].str != c.str
    ensures ChapterIndex(cs + [c], c.str) == |cs|
  {
    var n := cs + [c];
    ChapterIndexFirst(n, c.str);
    assert n[|cs|] == c;
    assert forall j :: 0 <= j < |cs| ==> n[j] == cs[j];
  }

  /** Dropping the last chapters keeps the chapters valid, and the titles
      too when none of them starts at a dropped chapter. */
  lemma PrefixValid(timeStr: int -> string, cs: seq<Chapter>, titles: seq<Title>, n: nat, bound: int)
    requires n <= |cs| && ChaptersValid(timeStr, cs, bound) && TitlesValid(cs, titles)
    requires forall k :: 0 <= k < |titles| ==> ChapterIndex(cs, titles[k].pos) < n
    ensures ChaptersValid(timeStr, cs[..n], bound) && TitlesValid(cs[..n], titles)
  {
    forall k | 0 <= k < |titles|
      ensures ChapterIndex(cs[..n], titles[k].pos) == ChapterIndex(cs, titles[k].pos)
    {
      ChapterIndexPrefix(cs, n, titles[k].pos);
    }
  }

  /** Appending a chapter for a later frame keeps the chapters valid and
      the titles' chapters where they were. */
  lemma AppendValid(timeStr: int -> string, cs: seq<Chapter>, titles: seq<Title>, frame: nat, bound: int)
    requires Injective(timeStr) && ChaptersValid(timeStr, cs, frame) && TitlesValid(cs, titles) && frame < bound
    ensures var n := cs + [Chapter(timeStr(frame), frame)];
      ChaptersValid(timeStr, n, bound) && TitlesValid(n, titles) &&
      ChapterIndex(cs, timeStr(frame)) == -1 && ChapterIndex(n, timeStr(frame)) == |cs| &&
      forall k :: 0 <= k < |titles| ==> ChapterIndex(n, titles[k].pos) < |cs|
  {
    var c := Chapter(timeStr(frame), frame);
    AppendChapters(timeStr, cs, frame, bound);
    AppendTitles(cs, c, titles);
  }

  lemma AppendChapters(timeStr: int -> string, cs: seq<Chapter>, frame: nat, bound: int)
    requires Injective(timeStr) && ChaptersValid(timeStr, cs, frame) && frame < bound
    ensures var n := cs + [Chapter(timeStr(frame), frame)];
      ChaptersValid(timeStr, n, bound) &&
      ChapterIndex(cs, timeStr(frame)) == -1 && ChapterIndex(n, timeStr(frame)) == |cs|
  {
    var c := Chapter(timeStr(frame), frame);
    var n := cs + [c];
    forall i | 0 <= i < |cs|
      ensures cs[i].str != c.str
    {
      assert cs[i].str == timeStr(cs[i].frame) && cs[i].frame < frame;
    }
    assert ChaptersValid(timeStr, n, bound) by {
      assert forall i :: 0 <= i < |cs| ==> n[i] == cs[i];
      assert n[|cs|] == c;
    }
    ChapterIndexLast(cs, c);
    ChapterIndexFirst(cs, c.str);
  }

  lemma AppendTitles(cs: seq<Chapter>, c: Chapter, titles: seq<Title>)
    requires TitlesValid(cs, titles)
    ensures TitlesValid(cs + [c], titles)
    ensures forall k :: 0 <= k < |titles| ==> ChapterIndex(cs + [c], titles[k].pos) < |cs|
  {
    forall k | 0 <= k < |titles|
      ensures ChapterIndex(cs + [c], titles[k].pos) == ChapterIndex(cs, titles[k].pos)
    {
      ChapterIndexAppend(cs, c, titles[k].pos);
    }
  }

  /** The detector keeps its invariant over a frame, for timestamps that
      tell frames apart. */
  lemma MarkStepValid(gaps: Gaps, timeStr: int -> string, s: Marks, frameCount: nat, cName: string)
    requires gaps.chapterGap > 0 && Injective(timeStr) && MarksValid(timeStr, s, frameCount)
    ensures MarksValid(timeStr, MarkStep(gaps, timeStr, s, frameCount, cName), frameCount + 1)
  {
    var diffName := cName != "" && cName != s.chapterName;
    if frameCount % gaps.chapterGap == 0 || diffName {
      ProposeValid(gaps, timeStr, s, frameCount, cName);
    }
  }

  lemma ProposeValid(gaps: Gaps, timeStr: int -> string, s: Marks, frameCount: nat, cName: string)
    requires Injective(timeStr) && MarksValid(timeStr, s, frameCount)
    ensures MarksValid(timeStr, Propose(gaps, timeStr(frameCount), s, frameCount, cName), frameCount + 1)
  {
    var cs := s.chapters;
    var str := timeStr(frameCount);
    var diffName := cName != "" && cName != s.chapterName;
    var tooClose := s.lastChapterFrame > -1 && frameCount - s.lastChapterFrame < gaps.minChapterGap;
    var prevIsTitle := PrevIsTitle(s);
    if tooClose && prevIsTitle && cName == "" {
      assert Propose(gaps, str, s, frameCount, cName) == s;
      Widen(timeStr, s, frameCount);
    } else if !tooClose || diffName {
      var drop := tooClose && diffName && !prevIsTitle && |cs| > 0;
      var n := if drop then |cs| - 1 else |cs|;
      if drop && |s.titles| > 0 {
        var last := |s.titles| - 1;
        forall k | 0 <= k < |s.titles|
          ensures ChapterIndex(cs, s.titles[k].pos) < n
        {
          assert ChapterIndex(cs, s.titles[k].pos) <= ChapterIndex(cs, s.titles[last].pos);
        }
      }
      KeepAndAdd(timeStr, s, n, frameCount, cName, diffName);
      ProposePlaces(gaps, str, s, frameCount, cName, n);
    } else {
      assert Propose(gaps, str, s, frameCount, cName) == Place(s, cs, str, frameCount, cName, false, false) == s;
      Widen(timeStr, s, frameCount);
    }
  }

  /** A proposal that is not dropped keeps the first `n` chapters and adds
      one when its timestamp is new. */
  lemma ProposePlaces(gaps: Gaps, str: string, s: Marks, frameCount: int, cName: string, n: nat)
    requires var diffName := cName != "" && cName != s.chapterName;
      var tooClose := s.lastChapterFrame > -1 && frameCount - s.lastChapterFrame < gaps.minChapterGap;
      !(tooClose && PrevIsTitle(s) && cName == "") && (!tooClose || diffName) &&
      n == (if tooClose && diffName && !PrevIsTitle(s) && |s.chapters| > 0 then |s.chapters| - 1 else |s.chapters|)
    requires ChapterIndex(s.chapters[..n], str) == -1
    ensures Propose(gaps, str, s, frameCount, cName) ==
      Place(s, s.chapters[..n], str, frameCount, cName, cName != "" && cName != s.chapterName, true)
  {
    assert s.chapters[..|s.chapters|] == s.chapters;
  }

  /** Keeping the first `n` chapters and adding one at `frameCount` keeps
      the marks valid, provided no title points past the kept chapters. */
  lemma KeepAndAdd(timeStr: int -> string, s: Marks, n: nat, frameCount: nat, cName: string, diffName: bool)
    requires Injective(timeStr) && MarksValid(timeStr, s, frameCount) && n <= |s.chapters|
    requires n < |s.chapters| ==> forall k :: 0 <= k < |s.titles| ==> ChapterIndex(s.chapters, s.titles[k].pos) < n
    ensures ChapterIndex(s.chapters[..n], timeStr(frameCount)) == -1
    ensures MarksValid(timeStr, Place(s, s.chapters[..n], timeStr(frameCount), frameCount, cName, diffName, true), frameCount + 1)
  {
    var cs := s.chapters;
    PrefixValid(timeStr, cs, s.titles, n, frameCount);
    assert cs[..|cs|] == cs;
    AppendChapters(timeStr, cs[..n], frameCount, frameCount + 1);
    PlaceAdded(timeStr, s, cs[..n], frameCount, cName, diffName);
  }

  lemma Widen(timeStr: int -> string, s: Marks, bound: int)
    requires MarksValid(timeStr, s, bound)
    ensures MarksValid(timeStr, s, bound + 1)
  {
  }

  lemma PlaceAdded(timeStr: int -> string, s: Marks, kept: seq<Chapter>, frameCount: nat, cName: string, diffName: bool)
    requires Injective(timeStr) && ChaptersValid(timeStr, kept, frameCount) && TitlesValid(kept, s.titles)
    requires s.chapterName == (if |s.titles| == 0 then "" else s.titles[|s.titles| - 1].name)
    ensures MarksValid(timeStr, Place(s, kept, timeStr(frameCount), frameCount, cName, diffName, true), frameCount + 1)
  {
    var str := timeStr(frameCount);
    var n := kept + [Chapter(str, frameCount)];
    var titles := if diffName then s.titles + [Title(cName, str)] else s.titles;
    var x := Marks(n, if diffName then cName else s.chapterName, titles, frameCount);
    assert MarksValid(timeStr, x, frameCount + 1) by {
      AppendValid(timeStr, kept, s.titles, frameCount, frameCount + 1);
      if diffName {
        AppendTitleValid(n, s.titles, Title(cName, str));
        LastOfAppend(s.titles, Title(cName, str));
      }
      AddedMarksValid(timeStr, n, x.chapterName, titles, frameCount);
    }
    PlaceAppends(s, kept, str, frameCount, cName, diffName);
  }

  lemma LastOfAppend(titles: seq<Title>, t: Title)
    ensures (titles + [t])[|titles + [t]| - 1] == t
  {
  }

  /** The invariant for marks whose last chapter was just added. */
  lemma AddedMarksValid(timeStr: int -> string, cs: seq<Chapter>, name: string, titles: seq<Title>, frameCount: int)
    requires |cs| > 0 && cs[|cs| - 1].frame == frameCount
    requires ChaptersValid(timeStr, cs, frameCount + 1) && TitlesValid(cs, titles)
    requires name == (if |titles| == 0 then "" else titles[|titles| - 1].name)
    ensures MarksValid(timeStr, Marks(cs, name, titles, frameCount), frameCount + 1)
  {
  }

  /** Placing an added chapter, field by field. */
  lemma PlaceAppends(s: Marks, kept: seq<Chapter>, str: string, frameCount: int, cName: string, diffName: bool)
    ensures Place(s, kept, str, frameCount, cName, diffName, true)
            == Marks(kept + [Chapter(str, frameCount)], if diffName then cName else s.chapterName,
                     if diffName then s.titles + [Title(cName, str)] else s.titles, frameCount)
  {
  }

  /** A title at a chapter no earlier than every other title's keeps the
      titles valid. */
  lemma AppendTitleValid(cs: seq<Chapter>, titles: seq<Title>, t: Title)
    requires TitlesValid(cs, titles) && ChapterIndex(cs, t.pos) >= 0
    requires forall k :: 0 <= k < |titles| ==> ChapterIndex(cs, titles[k].pos) <= ChapterIndex(cs, t.pos)
    ensures TitlesValid(cs, titles + [t])
  {
    var ts := titles + [t];
    assert forall k :: 0 <= k < |titles| ==> ts[k] == titles[k];
  }

  /** The detector keeps its invariant over any run of frames. */
  lemma {:induction false} MarkRunValid(gaps: Gaps, timeStr: int -> string, s: Marks, labels: seq<string>, start: nat)
    requires gaps.chapterGap > 0 && Injective(timeStr) && MarksValid(timeStr, s, start)
    ensures MarksValid(timeStr, MarkRun(gaps, timeStr, s, labels, start), start + |labels|)
    decreases |labels|
  {
    if |labels| > 0 {
      MarkStepValid(gaps, timeStr, s, start, labels[0]);
      MarkRunValid(gaps, timeStr, MarkStep(gaps, timeStr, s, start, labels[0]), labels[1..], start + 1);
    }
  }

  /** A label that starts within the least chapter distance of the start
      displaces the chapter at frame 0: the label's chapter replaces it. */
  lemma ChapterZeroReplaced(timeStr: int -> string)
    requires Injective(timeStr)
    ensures var gaps := Gaps(100, 10);
      MarkRun(gaps, timeStr, NO_MARKS, ["", "A"], 0).chapters == [Chapter(timeStr(1), 1)]
  {
    var gaps := Gaps(100, 10);
    var s1 := MarkStep(gaps, timeStr, NO_MARKS, 0, "");
    assert s1 == Marks([Chapter(timeStr(0), 0)], "", [], 0);
    assert ChapterIndex([], timeStr(1)) == -1;
    var s2 := MarkStep(gaps, timeStr, s1, 1, "A");
    assert s2.chapters == [Chapter(timeStr(1), 1)];
    assert ["", "A"][1..] == ["A"];
    assert ["", "A"][1..][1..] == [];
  }

  /** The very first frame always proposes a chapter, and with no chapter
      before it the proposal is taken. */
  lemma FirstChapterAtZero(gaps: Gaps, timeStr: int -> string, cName: string)
    requires gaps.chapterGap > 0
    ensures var r := MarkStep(gaps, timeStr, NO_MARKS, 0, cName);
      r.chapters == [Chapter(timeStr(0), 0)] && r.lastChapterFrame == 0 &&
      r.titles == (if cName == "" then [] else [Title(cName, timeStr(0))])
  {
    assert ChapterIndex([], timeStr(0)) == -1;
  }

  // ---------------------------------------------------------------------
  // The exported chapter lists

  /** The timestamps of the chapters, in order. */
  function Strs(cs: seq<Chapter>): (r: seq<string>)
    ensures |r| == |cs| && forall i :: 0 <= i < |cs| ==> r[i] == cs[i].str
  {
    seq(|cs|, i requires 0 <= i < |cs| => cs[i].str)
  }

  /** `toString(chapters)`: the timestamps joined with commas. */
  function ChapterList(cs: seq<Chapter>): string
  {
    Join(Strs(cs), ',')
  }

  /** The chapter list reads back as the chapters' timestamps when no
      timestamp holds a comma; no chapters give the empty list. */
  lemma ChapterListSplits(cs: seq<Chapter>)
    requires forall i :: 0 <= i < |cs| ==> ',' !in cs[i].str
    ensures |cs| == 0 ==> ChapterList(cs) == ""
    ensures |cs| > 0 ==> Split(ChapterList(cs), ',') == Strs(cs)
  {
    if |cs| > 0 {
      SplitJoin(Strs(cs), ',');
    }
  }

  /** The KMF cell lengths: each chapter lasts until the next one, the
      last until the end of the export. */
  function CellLengths(cs: seq<Chapter>, frameCount: int): (r: seq<int>)
    ensures |r| == |cs|
    decreases |cs|
  {
    if |cs| == 0 then []
    else [(if |cs| == 1 then frameCount else cs[1].frame) - cs[0].frame] + CellLengths(cs[1..], frameCount)
  }

  function Total(xs: seq<int>): int
    decreases |xs|
  {
    if |xs| == 0 then 0 else xs[0] + Total(xs[1..])
  }

  /** Cell `i` runs from chapter `i` to chapter `i + 1`, or to the end. */
  lemma {:induction false} CellLengthsAt(cs: seq<Chapter>, frameCount: int, i: nat)
    requires i < |cs|
    ensures CellLengths(cs, frameCount)[i] == (if i + 1 < |cs| then cs[i + 1].frame else frameCount) - cs[i].frame
    decreases |cs|
  {
    if i > 0 {
      CellLengthsAt(cs[1..], frameCount, i - 1);
    }
  }

  /** The cells cover the export from the first chapter to its end. */
  lemma {:induction false} CellLengthsCover(cs: seq<Chapter>, frameCount: int)
    requires |cs| > 0
    ensures Total(CellLengths(cs, frameCount)) == frameCount - cs[0].frame
    decreases |cs|
  {
    if |cs| > 1 {
      CellLengthsCover(cs[1..], frameCount);
    }
  }

  /** Chapters of a valid detector run give cells of positive length. */
  lemma CellLengthsPositive(timeStr: int -> string, cs: seq<Chapter>, frameCount: int)
    requires ChaptersValid(timeStr, cs, frameCount)
    ensures forall i :: 0 <= i < |cs| ==> CellLengths(cs, frameCount)[i] > 0
  {
    forall i | 0 <= i < |cs|
      ensures CellLengths(cs, frameCount)[i] > 0
    {
      CellLengthsAt(cs, frameCount, i);
    }
  }

  /** A dvdauthor title entry: the 1-based chapter a title starts at, and
      its label. */
  datatype Entry = Entry(chapter: int, name: string)

  /** The dvdauthor title entries; a single title at the very start gives
      none, since then the menu has nothing to choose. */
  function TitleEntries(titles: seq<Title>, cs: seq<Chapter>, zeroStr: string): (r: seq<Entry>)
  {
    if |titles| == 1 && titles[0].pos == zeroStr then []
    else seq(|titles|, k requires 0 <= k < |titles| => Entry(ChapterIndex(cs, titles[k].pos) + 1, titles[k].name))
  }

  /** There are entries for all titles unless the only title starts at
      frame 0; for titles of a valid run each entry names the chapter its
      title starts at, in chapter order. */
  lemma TitleEntriesValid(titles: seq<Title>, cs: seq<Chapter>, zeroStr: string)
    requires TitlesValid(cs, titles)
    ensures var r := TitleEntries(titles, cs, zeroStr);
      (|titles| == 1 && titles[0].pos == zeroStr ==> r == []) &&
      (!(|titles| == 1 && titles[0].pos == zeroStr) ==> |r| == |titles|) &&
      (forall k :: 0 <= k < |r| ==> 1 <= r[k].chapter <= |cs| && cs[r[k].chapter - 1].str == titles[k].pos &&
                                     r[k].name == titles[k].name) &&
      (forall k, m :: 0 <= k <= m < |r| ==> r[k].chapter <= r[m].chapter)
  {
    var r := TitleEntries(titles, cs, zeroStr);
    if !(|titles| == 1 && titles[0].pos == zeroStr) {
      forall k | 0 <= k < |r|
        ensures 1 <= r[k].chapter <= |cs| && cs[r[k].chapter - 1].str == titles[k].pos && r[k].name == titles[k].name
      {
        var c := ChapterIndex(cs, titles[k].pos);
        assert r[k] == Entry(c + 1, titles[k].name);
        assert c >= 0;
      }
      forall k, m | 0 <= k <= m < |r|
        ensures r[k].chapter <= r[m].chapter
      {
        assert r[k].chapter == ChapterIndex(cs, titles[k].pos) + 1;
        assert r[m].chapter == ChapterIndex(cs, titles[m].pos) + 1;
      }
    }
  }

  // ---------------------------------------------------------------------
  // Paths

  /** `toPath`: a name not starting with '/' is placed in directory `d`. */
  function ToPath(d: string, f: string): (r: string)
    ensures |f| > 0 && f[0] == '/' ==> r == f
    ensures !(|f| > 0 && f[0] == '/') ==> |r| == |d| + 1 + |f| && r[..|d|] == d && r[|d|] == '/'
    ensures |r| >= |f| && r[|r| - |f|..] == f
  {
    if |f| == 0 || f[0] != '/' then d + "/" + f else f
  }

  /** A plain file name placed in a directory is the path's file part. */
  lemma ToPathFile(d: string, f: string)
    requires '/' !in f
    ensures Misc.GetFile(ToPath(d, f)) == f
  {
    var p := ToPath(d, f);
    var k := LastIndexOf(p, '/');
    assert p[|d|] == '/';
    forall j | |d| < j < |p|
      ensures p[j] != '/'
    {
      assert p[j] == f[j - |d| - 1];
      assert f[j - |d| - 1] in f;
    }
    assert k == |d|;
    assert p[k + 1..] == f;
  }
}

=== FILE: misc.dfy ===
/** File-name helpers: the extension test and the directory/file split of
    a path, on '/'-separated names. */
module Misc {
  import opened Common

  /** `checkExt`: the name is longer than "." + ext and ends with it,
      compared case-sensitively. */
  function CheckExt(fname: string, ext: string): (r: bool)
    ensures r <==> |fname| > |ext| + 1 && fname[|fname| - |ext| - 1..] == "." + ext
  {
    var extension := "." + ext;
    if |fname| > |extension| then fname[|fname| - |extension|..] == extension else false
  }

  /** A name passes for `ext` exactly when it is a non-empty stem, a dot
      and the extension. */
  lemma CheckExtStem(stem: string, ext: string)
    ensures CheckExt(stem + "." + ext, ext) <==> |stem| > 0
  {
    var f := stem + "." + ext;
    assert f[|f| - |ext| - 1..] == "." + ext;
  }

  lemma CheckExtSplits(fname: string, ext: string)
    requires CheckExt(fname, ext)
    ensures var stem := fname[..|fname| - |ext| - 1];
      |stem| > 0 && fname == stem + "." + ext
  {
    var k := |fname| - |ext| - 1;
    assert fname == fname[..k] + fname[k..];
  }

  /** No two consecutive slashes. */
  predicate NoDoubleSlash(s: string)
  {
    forall i :: 0 <= i < |s| - 1 ==> !(s[i] == '/' && s[i + 1] == '/')
  }

  /** The characters of `s` other than '/'. */
  function Unslashed(s: string): (r: string)
    ensures '/' !in r
  {
    if |s| == 0 then [] else (if s[0] == '/' then [] else [s[0]]) + Unslashed(s[1..])
  }

  /** `replace("//", "/")`: one left-to-right pass over non-overlapping
      occurrences. */
  function ReplaceDoubleSlash(s: string): (r: string)
    ensures |r| <= |s|
    ensures |s| > 0 ==> |r| > 0
    ensures Unslashed(r) == Unslashed(s)
    decreases |s|
  {
    if |s| >= 2 && s[0] == '/' && s[1] == '/' then
      assert Unslashed(s) == Unslashed(s[1..]) && Unslashed(s[1..]) == Unslashed(s[2..]) by {
        assert s[1..][1..] == s[2..];
      }
      "/" + ReplaceDoubleSlash(s[2..])
    else if |s| == 0 then s
    else
      assert ([s[0]] + ReplaceDoubleSlash(s[1..]))[1..] == ReplaceDoubleSlash(s[1..]);
      [s[0]] + ReplaceDoubleSlash(s[1..])
  }

  /** A name without a double slash is left as it is. */
  lemma {:induction false} ReplaceKeepsClean(s: string)
    requires NoDoubleSlash(s)
    ensures ReplaceDoubleSlash(s) == s
    decreases |s|
  {
    if |s| > 0 {
      assert NoDoubleSlash(s[1..]) by {
        forall i | 0 <= i < |s[1..]| - 1
          ensures !(s[1..][i] == '/' && s[1..][i + 1] == '/')
        {
          assert s[1..][i] == s[i + 1] && s[1..][i + 1] == s[i + 2];
        }
      }
      ReplaceKeepsClean(s[1..]);
    }
  }

  /** One pass does not remove every double slash: three slashes leave two. */
  lemma TripleSlashLeavesTwo()
    ensures ReplaceDoubleSlash("///") == "//"
    ensures ReplaceDoubleSlash("a///b") == "a//b"
  {
    assert ReplaceDoubleSlash("/") == "/";
    assert "///"[2..] == "/";
    assert ReplaceDoubleSlash("/b") == "/b" by {
      assert "/b"[1..] == "b";
      assert ReplaceDoubleSlash("b") == "b";
    }
    assert "///b"[2..] == "/b";
    assert ReplaceDoubleSlash("///b") == "//b";
    assert "a///b"[1..] == "///b";
  }

  /** `dirSyntax`: an empty name stays empty; otherwise double slashes are
      collapsed once and a slash is appended unless the result already
      ends with one. */
  function DirSyntax(d: string): (r: string)
    ensures d == "" ==> r == ""
    ensures d != "" ==> |r| > 0 && r[|r| - 1] == '/'
    ensures d != "" ==> r == ReplaceDoubleSlash(d) || r == ReplaceDoubleSlash(d) + "/"
    ensures Unslashed(r) == Unslashed(d)
  {
    if d != "" then
      var ds := ReplaceDoubleSlash(d);
      var slashPos := LastIndexOf(ds, '/');
      if slashPos != |ds| - 1 then
        assert Unslashed(ds + "/") == Unslashed(ds) by {
          UnslashedAppend(ds, "/");
        }
        ds + "/"
      else ds
    else d
  }

  lemma {:induction false} UnslashedAppend(a: string, b: string)
    ensures Unslashed(a + b) == Unslashed(a) + Unslashed(b)
    decreases |a|
  {
    if |a| == 0 {
      assert a + b == b;
    } else {
      assert (a + b)[1..] == a[1..] + b;
      UnslashedAppend(a[1..], b);
    }
  }

  /** A directory name that already ends in a slash and has no double
      slash passes through unchanged. */
  lemma DirSyntaxKeepsClean(d: string)
    requires |d| > 0 && d[|d| - 1] == '/' && NoDoubleSlash(d)
    ensures DirSyntax(d) == d
  {
    ReplaceKeepsClean(d);
  }

  /** `getDir`: everything up to and including the last slash, then
      `dirSyntax`; a name with no slash becomes the name plus "/". */
  function GetDir(f: string): (r: string)
    ensures '/' !in f && f != "" ==> r == f + "/"
    ensures f == "" ==> r == ""
  {
    var slashPos := LastIndexOf(f, '/');
    var d := if slashPos != -1 then f[..slashPos + 1] else f;
    if slashPos == -1 && f != "" then
      NoSlashIsClean(f);
      ReplaceKeepsClean(f);
      DirSyntax(d)
    else DirSyntax(d)
  }

  lemma NoSlashIsClean(f: string)
    requires '/' !in f
    ensures NoDoubleSlash(f)
  {
    forall i | 0 <= i < |f| - 1
      ensures f[i] != '/'
    {
      assert f[i] in f;
    }
  }

  /** `getFile`: everything after the last slash; a name with no slash is
      returned whole. */
  function GetFile(f: string): (r: string)
    ensures '/' !in r
    ensures '/' !in f ==> r == f
    ensures |r| <= |f| && r == f[|f| - |r|..]
  {
    var slashPos := LastIndexOf(f, '/');
    if slashPos != -1 then f[slashPos + 1..] else f
  }

  /** A path with a slash and no double slash splits into its directory
      and its file name. */
  lemma GetDirGetFile(f: string)
    requires '/' in f && NoDoubleSlash(f)
    ensures GetDir(f) + GetFile(f) == f
    ensures |GetDir(f)| > 0 && GetDir(f)[|GetDir(f)| - 1] == '/'
  {
    var k := LastIndexOf(f, '/');
    var d := f[..k + 1];
    assert NoDoubleSlash(d) by {
      forall i | 0 <= i < |d| - 1
        ensures !(d[i] == '/' && d[i + 1] == '/')
      {
        assert d[i] == f[i] && d[i + 1] == f[i + 1];
      }
    }
    DirSyntaxKeepsClean(d);
    assert d + f[k + 1..] == f;
  }
}

=== FILE: wav.dfy ===
/** The WAV muxer: a 44-byte RIFF/WAVE header (a `fmt ` chunk describing
    PCM and a `data` chunk) written through the buffered writer, followed
    by 16-bit little-endian samples, with the two length fields patched in
    place when the stream is finished. */
module Wav {
  import opened Common
  import opened BufferedWriter

  type i16 = x: int | -32768 <= x < 32768
  type u32 = x: int | 0 <= x < 0x1_0000_0000

  /** The header struct, field for field in declared order. The four
      character tags are four bytes each. */
  datatype Header = Header(
    riff: seq<byte>, riffLength: u32, kind: seq<byte>, format: seq<byte>, formatLength: u32,
    filler: i16, channels: i16, rate: u32, bytesPerSecond: u32, bytesPerSample: i16,
    bitsPerSample: i16, data: seq<byte>, dataLength: u32)

  predicate WellFormed(h: Header)
  {
    |h.riff| == 4 && |h.kind| == 4 && |h.format| == 4 && |h.data| == 4
  }

  const HEADER_SIZE: int := 44
  /** The header bytes that follow the RIFF length field. */
  const RIFF_HEADER_REST: int := HEADER_SIZE - 4 - 4

  const RIFF_TAG: seq<byte> := [0x52, 0x49, 0x46, 0x46]
  const WAVE_TAG: seq<byte> := [0x57, 0x41, 0x56, 0x45]
  const FMT_TAG: seq<byte> := [0x66, 0x6d, 0x74, 0x20]
  const DATA_TAG: seq<byte> := [0x64, 0x61, 0x74, 0x61]

  lemma TagsSpellNames()
    ensures RIFF_TAG == Bytes("RIFF") && WAVE_TAG == Bytes("WAVE")
    ensures FMT_TAG == Bytes("fmt ") && DATA_TAG == Bytes("data")
  {
  }

  // ---------------------------------------------------------------------
  // Little-endian fields

  function LE16(v: i16): (r: seq<byte>)
    ensures |r| == 2
  {
    [LowByte(v), LowByte(v / 256)]
  }

  function LE32(v: u32): (r: seq<byte>)
    ensures |r| == 4
  {
    [v % 256, (v / 256) % 256, (v / 0x1_0000) % 256, v / 0x100_0000]
  }

  function ReadU32(b: seq<byte>, i: nat): int
    requires i + 4 <= |b|
  {
    b[i] as int + 256 * (b[i + 1] as int) + 0x1_0000 * (b[i + 2] as int) + 0x100_0000 * (b[i + 3] as int)
  }

  function ReadI16(b: seq<byte>, i: nat): int
    requires i + 2 <= |b|
  {
    var u := b[i] as int + 256 * (b[i + 1] as int);
    if u >= 0x8000 then u - 0x1_0000 else u
  }

  lemma LE32RoundTrip(v: u32)
    ensures ReadU32(LE32(v), 0) == v
  {
    var q1 := v / 256;
    var q2 := q1 / 256;
    assert v / 0x1_0000 == q2;
    assert v / 0x100_0000 == q2 / 256;
  }

  lemma LE16RoundTrip(v: i16)
    ensures ReadI16(LE16(v), 0) == v
  {
  }

  // ---------------------------------------------------------------------
  // The header image

  /** The 44 bytes WriteHeader emits, in order. */
  function Serialize(h: Header): (r: seq<byte>)
    requires WellFormed(h)
    ensures |r| == HEADER_SIZE
  {
    h.riff + LE32(h.riffLength) + h.kind + h.format + LE32(h.formatLength)
    + LE16(h.filler) + LE16(h.channels) + LE32(h.rate) + LE32(h.bytesPerSecond)
    + LE16(h.bytesPerSample) + LE16(h.bitsPerSample) + h.data + LE32(h.dataLength)
  }

  /** Reads a header back from the offsets of the packed struct. */
  function Parse(b: seq<byte>): (h: Header)
    requires |b| >= HEADER_SIZE
    ensures WellFormed(h)
  {
    Header(b[0..4], ReadU32(b, 4), b[8..12], b[12..16], ReadU32(b, 16),
           ReadI16(b, 20), ReadI16(b, 22), ReadU32(b, 24), ReadU32(b, 28),
           ReadI16(b, 32), ReadI16(b, 34), b[36..40], ReadU32(b, 40))
  }

  /** The byte image has no padding: every field reads back from its
      offset. */
  lemma ParseSerialize(h: Header)
    requires WellFormed(h)
    ensures Parse(Serialize(h)) == h
  {
    var b := Serialize(h);
    assert b[0..4] == h.riff;
    assert b[4..8] == LE32(h.riffLength);
    LE32RoundTrip(h.riffLength);
    assert b[8..12] == h.kind;
    assert b[12..16] == h.format;
    assert b[16..20] == LE32(h.formatLength);
    LE32RoundTrip(h.formatLength);
    assert b[20..22] == LE16(h.filler);
    LE16RoundTrip(h.filler);
    assert b[22..24] == LE16(h.channels);
    LE16RoundTrip(h.channels);
    assert b[24..28] == LE32(h.rate);
    LE32RoundTrip(h.rate);
    assert b[28..32] == LE32(h.bytesPerSecond);
    LE32RoundTrip(h.bytesPerSecond);
    assert b[32..34] == LE16(h.bytesPerSample);
    LE16RoundTrip(h.bytesPerSample);
    assert b[34..36] == LE16(h.bitsPerSample);
    LE16RoundTrip(h.bitsPerSample);
    assert b[36..40] == h.data;
    assert b[40..44] == LE32(h.dataLength);
    LE32RoundTrip(h.dataLength);
  }

  /** The constructor's `memset` is given the size of the pointer typedef
      rather than of the struct, so only the first eight bytes (the RIFF tag
      and length) are cleared; the rest keeps whatever was there. */
  function ClearedHeader(garbage: Header): (h: Header)
    ensures h.riff == [0, 0, 0, 0] && h.riffLength == 0
    ensures h.(riff := garbage.riff, riffLength := garbage.riffLength) == garbage
  {
    garbage.(riff := [0, 0, 0, 0], riffLength := 0)
  }

  /** `SetInfo`: a PCM format chunk for the given channels, rate and bytes
      per sample, and an empty data chunk. */
  function SetInfo(h: Header, channels: i16, rate: int, bytesPerSample: int): (r: Header)
    ensures WellFormed(r)
    ensures r.riff == RIFF_TAG && r.kind == WAVE_TAG && r.format == FMT_TAG && r.data == DATA_TAG
    ensures r.riffLength == RIFF_HEADER_REST && r.dataLength == 0
    ensures r.formatLength == 16 && r.filler == 1 && r.channels == channels
    ensures r.rate == U32(rate) && r.bytesPerSecond == U32(rate * channels * bytesPerSample)
    ensures r.bytesPerSample == I16(bytesPerSample * channels) && r.bitsPerSample == I16(bytesPerSample * 8)
  {
    Header(RIFF_TAG, RIFF_HEADER_REST, WAVE_TAG, FMT_TAG, 16, 1, channels, U32(rate),
           U32(rate * channels * bytesPerSample), I16(bytesPerSample * channels),
           I16(bytesPerSample * 8), DATA_TAG, 0)
  }

  /** Multiplication commutes with the uint32 wrap. */
  lemma U32Mul(a: int, b: int)
    ensures U32(U32(a) * b) == U32(a * b)
  {
    var k := a / TWO_32;
    assert a == k * TWO_32 + U32(a);
    assert a * b == U32(a) * b + (k * b) * TWO_32;
    ModMultiple(U32(a) * b, k * b);
  }

  /** SetInfo's header is a consistent PCM header whenever the block size
      and the sample width fit their 16-bit fields: the block size covers one
      sample of every channel, the byte rate is the sample rate times the
      block size, the sample width is given in bits, and the RIFF length is
      the serialized header after its tag and length field plus the data. */
  lemma SetInfoConsistent(h: Header, channels: i16, rate: int, bytesPerSample: int)
    requires 0 < channels && 0 < bytesPerSample && bytesPerSample * channels < 0x8000 && bytesPerSample * 8 < 0x8000
    ensures var r := SetInfo(h, channels, rate, bytesPerSample);
      r.bytesPerSample == channels * bytesPerSample
      && r.bytesPerSecond == U32(r.rate * r.bytesPerSample)
      && r.bitsPerSample == 8 * bytesPerSample
      && r.riffLength == |Serialize(r)| - 8 + r.dataLength
  {
    var r := SetInfo(h, channels, rate, bytesPerSample);
    var block := bytesPerSample * channels;
    assert r.bytesPerSample == block;
    assert r.bitsPerSample == 8 * bytesPerSample;
    Associate(rate, channels, bytesPerSample);
    U32Mul(rate, block);
    assert |Serialize(r)| == HEADER_SIZE;
  }

  lemma Associate(a: int, b: int, c: int)
    ensures a * b * c == a * (c * b)
  {
  }

  /** Whatever the constructor left in the struct, SetInfo overwrites all
      of it. */
  lemma SetInfoOverwritesAll(h1: Header, h2: Header, channels: i16, rate: int, bytesPerSample: int)
    ensures SetInfo(h1, channels, rate, bytesPerSample) == SetInfo(h2, channels, rate, bytesPerSample)
  {
  }

  // ---------------------------------------------------------------------
  // Writing through the buffered writer

  /** `w2` is `w1` with `b` accepted at its cursor. */
  predicate Appends(w1: Writer, w2: Writer, b: seq<byte>)
  {
    Valid(w1) && Valid(w2) && w2.name == w1.name && w2.sink.open == w1.sink.open && w2.sink.limit == w1.sink.limit
    && Effective(w2) == Put(Effective(w1), Cursor(w1), b) && Cursor(w2) == Cursor(w1) + |b|
  }

  lemma AppendsChain(w1: Writer, w2: Writer, w3: Writer, a: seq<byte>, b: seq<byte>)
    requires Appends(w1, w2, a) && Appends(w2, w3, b)
    ensures Appends(w1, w3, a + b)
  {
    assert Cursor(w1) <= |Effective(w1)| by {
      assert w1.sink.offset <= |w1.sink.data|;
    }
    PutPut(Effective(w1), Cursor(w1), a, b);
  }

  /** Room for `n` more bytes on an open descriptor. */
  predicate HasRoom(w: Writer, n: int)
  {
    w.sink.open && Cursor(w) + n <= w.sink.limit
  }

  lemma ByteFits(w: Writer, b: byte)
    requires Valid(w) && HasRoom(w, 1)
    ensures WriteByte(w, b).1
    ensures Appends(w, WriteByte(w, b).0, [b])
  {
  }

  /** Each byte through `write(unsigned char)`, counting the successes as
      the `+` of the returned bools does. */
  function WriteEach(w: Writer, bs: seq<byte>): (r: (Writer, int))
    requires Valid(w)
    ensures Valid(r.0) && r.0.name == w.name && r.0.sink.open == w.sink.open && r.0.sink.limit == w.sink.limit
    ensures 0 <= r.1 <= |bs|
    decreases |bs|
  {
    if |bs| == 0 then (w, 0)
    else
      var (w1, ok) := WriteByte(w, bs[0]);
      var (w2, n) := WriteEach(w1, bs[1..]);
      (w2, n + if ok then 1 else 0)
  }

  /** With room for all of them, every byte is accepted, in order. */
  lemma {:induction false} WriteEachFits(w: Writer, bs: seq<byte>)
    requires Valid(w) && HasRoom(w, |bs|)
    ensures WriteEach(w, bs).1 == |bs|
    ensures Appends(w, WriteEach(w, bs).0, bs)
    decreases |bs|
  {
    if |bs| == 0 {
      PutEmpty(Effective(w), Cursor(w));
    } else {
      var w1 := WriteByte(w, bs[0]).0;
      ByteFits(w, bs[0]);
      WriteEachFits(w1, bs[1..]);
      AppendsChain(w, w1, WriteEach(w1, bs[1..]).0, [bs[0]], bs[1..]);
      assert [bs[0]] + bs[1..] == bs;
    }
  }

  /** `Write(uint32_t)`: four single-byte writes, least significant first. */
  function WriteU32(w: Writer, v: u32): (r: (Writer, int))
    requires Valid(w)
    ensures Valid(r.0) && r.0.name == w.name && r.0.sink.open == w.sink.open && r.0.sink.limit == w.sink.limit
    ensures 0 <= r.1 <= 4
    ensures HasRoom(w, 4) ==> r.1 == 4 && Appends(w, r.0, LE32(v))
  {
    if HasRoom(w, 4) then WriteEachFits(w, LE32(v)); WriteEach(w, LE32(v))
    else WriteEach(w, LE32(v))
  }

  /** `Write(int16_t)`: two single-byte writes, low byte first. */
  function WriteI16(w: Writer, v: i16): (r: (Writer, int))
    requires Valid(w)
    ensures Valid(r.0) && r.0.name == w.name && r.0.sink.open == w.sink.open && r.0.sink.limit == w.sink.limit
    ensures 0 <= r.1 <= 2
    ensures HasRoom(w, 2) ==> r.1 == 2 && Appends(w, r.0, LE16(v))
  {
    if HasRoom(w, 2) then WriteEachFits(w, LE16(v)); WriteEach(w, LE16(v))
    else WriteEach(w, LE16(v))
  }

  /** `Write(uint8_t *, int)`: one buffered block write, counted as 1. */
  function WriteTag(w: Writer, tag: seq<byte>): (r: (Writer, int))
    requires Valid(w) && |tag| == 4
    ensures Valid(r.0) && r.0.name == w.name && r.0.sink.open == w.sink.open && r.0.sink.limit == w.sink.limit
    ensures 0 <= r.1 <= 1
    ensures HasRoom(w, 4) ==> r.1 == 1 && Appends(w, r.0, tag)
  {
    var (w1, ok) := if HasRoom(w, 4) then WriteSucceedsWithRoom(w, tag); WriteBytes(w, tag)
                    else WriteBytes(w, tag);
    (w1, if ok then 1 else 0)
  }

  /** The bytes of 16-bit samples, each low byte first. */
  function SampleBytes(values: seq<i16>): (r: seq<byte>)
    ensures |r| == 2 * |values|
  {
    if |values| == 0 then [] else LE16(values[0]) + SampleBytes(values[1..])
  }

  /** `Write(int16_t *, int)`: two single-byte writes per sample. */
  function WriteSamples(w: Writer, values: seq<i16>): (r: (Writer, int))
    requires Valid(w)
    ensures Valid(r.0) && r.0.name == w.name && r.0.sink.open == w.sink.open && r.0.sink.limit == w.sink.limit
    ensures 0 <= r.1 <= 2 * |values|
    ensures HasRoom(w, 2 * |values|) ==> r.1 == 2 * |values| && Appends(w, r.0, SampleBytes(values))
  {
    if HasRoom(w, 2 * |values|) then WriteEachFits(w, SampleBytes(values)); WriteEach(w, SampleBytes(values))
    else WriteEach(w, SampleBytes(values))
  }

  /** `WriteHeader`: thirteen writes in the struct's order. A tag counts 1
      and a numeric field counts its byte writes, so a header written in
      full reports 32, not 44. */
  function WriteHeader(w: Writer, h: Header): (r: (Writer, int))
    requires Valid(w) && WellFormed(h)
    ensures Valid(r.0) && r.0.name == w.name && r.0.sink.open == w.sink.open && r.0.sink.limit == w.sink.limit
    ensures 0 <= r.1 <= 32
    ensures HasRoom(w, HEADER_SIZE) ==> r.1 == 32 && Appends(w, r.0, Serialize(h))
  {
    var (w1, n1) := WriteTag(w, h.riff);
    var (w2, n2) := WriteU32(w1, h.riffLength);
    var (w3, n3) := WriteTag(w2, h.kind);
    var (w4, n4) := WriteTag(w3, h.format);
    var (w5, n5) := WriteU32(w4, h.formatLength);
    var (w6, n6) := WriteI16(w5, h.filler);
    var (w7, n7) := WriteI16(w6, h.channels);
    var (w8, n8) := WriteU32(w7, h.rate);
    var (w9, n9) := WriteU32(w8, h.bytesPerSecond);
    var (w10, n10) := WriteI16(w9, h.bytesPerSample);
    var (w11, n11) := WriteI16(w10, h.bitsPerSample);
    var (w12, n12) := WriteTag(w11, h.data);
    var (w13, n13) := WriteU32(w12, h.dataLength);
    if HasRoom(w, HEADER_SIZE) then
      HeaderAppends(w, h, w1, w2, w3, w4, w5, w6, w7, w8, w9, w10, w11, w12, w13);
      (w13, n1 + n2 + n3 + n4 + n5 + n6 + n7 + n8 + n9 + n10 + n11 + n12 + n13)
    else
      (w13, n1 + n2 + n3 + n4 + n5 + n6 + n7 + n8 + n9 + n10 + n11 + n12 + n13)
  }

  lemma HeaderAppends(w: Writer, h: Header, w1: Writer, w2: Writer, w3: Writer, w4: Writer, w5: Writer,
                      w6: Writer, w7: Writer, w8: Writer, w9: Writer, w10: Writer, w11: Writer,
                      w12: Writer, w13: Writer)
    requires Valid(w) && WellFormed(h) && HasRoom(w, HEADER_SIZE)
    requires w1 == WriteTag(w, h.riff).0 && w2 == WriteU32(w1, h.riffLength).0
    requires w3 == WriteTag(w2, h.kind).0 && w4 == WriteTag(w3, h.format).0
    requires w5 == WriteU32(w4, h.formatLength).0 && w6 == WriteI16(w5, h.filler).0
    requires w7 == WriteI16(w6, h.channels).0 && w8 == WriteU32(w7, h.rate).0
    requires w9 == WriteU32(w8, h.bytesPerSecond).0 && w10 == WriteI16(w9, h.bytesPerSample).0
    requires w11 == WriteI16(w10, h.bitsPerSample).0 && w12 == WriteTag(w11, h.data).0
    requires w13 == WriteU32(w12, h.dataLength).0
    ensures WriteTag(w, h.riff).1 == 1 && WriteU32(w1, h.riffLength).1 == 4
    ensures WriteTag(w2, h.kind).1 == 1 && WriteTag(w3, h.format).1 == 1
    ensures WriteU32(w4, h.formatLength).1 == 4 && WriteI16(w5, h.filler).1 == 2
    ensures WriteI16(w6, h.channels).1 == 2 && WriteU32(w7, h.rate).1 == 4
    ensures WriteU32(w8, h.bytesPerSecond).1 == 4 && WriteI16(w9, h.bytesPerSample).1 == 2
    ensures WriteI16(w10, h.bitsPerSample).1 == 2 && WriteTag(w11, h.data).1 == 1
    ensures WriteU32(w12, h.dataLength).1 == 4
    ensures Appends(w, w13, Serialize(h))
  {
    var b1 := h.riff;
    var b2 := b1 + LE32(h.riffLength);
    var b3 := b2 + h.kind;
    var b4 := b3 + h.format;
    var b5 := b4 + LE32(h.formatLength);
    var b6 := b5 + LE16(h.filler);
    var b7 := b6 + LE16(h.channels);
    var b8 := b7 + LE32(h.rate);
    var b9 := b8 + LE32(h.bytesPerSecond);
    var b10 := b9 + LE16(h.bytesPerSample);
    var b11 := b10 + LE16(h.bitsPerSample);
    var b12 := b11 + h.data;
    AppendsChain(w, w1, w2, b1, LE32(h.riffLength));
    AppendsChain(w, w2, w3, b2, h.kind);
    AppendsChain(w, w3, w4, b3, h.format);
    AppendsChain(w, w4, w5, b4, LE32(h.formatLength));
    AppendsChain(w, w5, w6, b5, LE16(h.filler));
    AppendsChain(w, w6, w7, b6, LE16(h.channels));
    AppendsChain(w, w7, w8, b7, LE32(h.rate));
    AppendsChain(w, w8, w9, b8, LE32(h.bytesPerSecond));
    AppendsChain(w, w9, w10, b9, LE16(h.bytesPerSample));
    AppendsChain(w, w10, w11, b10, LE16(h.bitsPerSample));
    AppendsChain(w, w11, w12, b11, h.data);
    AppendsChain(w, w12, w13, b12, LE32(h.dataLength));
  }

  // ---------------------------------------------------------------------
  // The muxer

  datatype Muxer = Muxer(header: Header, out: Writer)

  /** The two length fields agree: the RIFF chunk is the data plus the
      36 header bytes after its length field, modulo 2^32. */
  predicate LengthsAgree(h: Header)
  {
    h.riffLength == U32(RIFF_HEADER_REST + h.dataLength)
  }

  /** The constructor over a writer. */
  function NewMuxer(out: Writer, garbage: Header): (m: Muxer)
    ensures m.out == out && m.header.riffLength == 0
  {
    Muxer(ClearedHeader(garbage), out)
  }

  /** `Initialise`: nothing is written to a writer that is not open;
      otherwise a 16-bit PCM header for the channel count and rate the
      decoder reports, and success iff any header write succeeded. */
  function Initialise(m: Muxer, channels: i16, frequency: int): (r: (Muxer, bool))
    requires Valid(m.out)
    ensures !IsOpen(m.out) ==> r == (m, false)
    ensures IsOpen(m.out) ==> r.0.header == SetInfo(m.header, channels, frequency, 2)
    ensures IsOpen(m.out) ==> LengthsAgree(r.0.header) && r.0.header.bitsPerSample == 16
    ensures Valid(r.0.out) && r.0.out.name == m.out.name && r.0.out.sink.open == m.out.sink.open
    ensures r.0.out.sink.limit == m.out.sink.limit
    ensures HasRoom(m.out, HEADER_SIZE) ==> r.1 && Appends(m.out, r.0.out, Serialize(r.0.header))
  {
    if !IsOpen(m.out) then (m, false)
    else
      var h := SetInfo(m.header, channels, frequency, 2);
      var (w, n) := WriteHeader(m.out, h);
      (Muxer(h, w), n != 0)
  }

  /** Both length fields grown by `n` bytes, each wrapping as a uint32. */
  function Grown(h: Header, n: int): (r: Header)
    ensures r.dataLength == U32(h.dataLength + n) && r.riffLength == U32(h.riffLength + n)
  {
    h.(dataLength := U32(h.dataLength + n), riffLength := U32(h.riffLength + n))
  }

  /** Growing by `a` and then by `b` is growing by `a + b`: the wrap-around
      loses nothing that a later addition could need. */
  lemma GrownTwice(h: Header, a: int, b: int)
    ensures Grown(Grown(h, a), b) == Grown(h, a + b)
  {
    U32Add(h.dataLength + a, b);
    U32Add(h.riffLength + a, b);
  }

  /** `Set`: both length fields grow by `length` (wrapping as uint32), then
      length/2 samples are written; the result says whether the byte writes
      counted add up to `length`. */
  function Set(m: Muxer, samples: seq<i16>, length: int): (r: (Muxer, bool))
    requires Valid(m.out)
    requires length > 0 ==> length / 2 <= |samples|
    ensures r.0.header == Grown(m.header, length)
    ensures LengthsAgree(m.header) ==> LengthsAgree(r.0.header)
    ensures Valid(r.0.out) && r.0.out.name == m.out.name && r.0.out.sink.open == m.out.sink.open
    ensures r.0.out.sink.limit == m.out.sink.limit
    ensures length % 2 == 1 ==> !r.1
    ensures length >= 0 && HasRoom(m.out, 2 * (length / 2)) ==>
      Appends(m.out, r.0.out, SampleBytes(samples[..length / 2])) && (r.1 <==> length % 2 == 0)
  {
    var h := Grown(m.header, length);
    U32Shift(m.header.dataLength, length);
    var count := if length <= 0 then 0 else length / 2;
    var (w, n) := WriteSamples(m.out, samples[..count]);
    (Muxer(h, w), n == length)
  }

  lemma U32Shift(d: int, length: int)
    ensures U32(RIFF_HEADER_REST + U32(d + length)) == U32(U32(RIFF_HEADER_REST + d) + length)
  {
    var a, x := d + length, RIFF_HEADER_REST + d;
    U32Add(a, RIFF_HEADER_REST);
    U32Add(x, length);
    var s := a + RIFF_HEADER_REST;
    assert s == x + length;
    assert U32(RIFF_HEADER_REST + U32(a)) == U32(s);
    assert U32(U32(x) + length) == U32(s);
  }


  lemma U32Add(a: int, b: int)
    ensures U32(U32(a) + b) == U32(a + b)
  {
    var k := a / TWO_32;
    assert a == k * TWO_32 + U32(a);
    ModMultiple(U32(a) + b, k);
    assert a + b == (U32(a) + b) + k * TWO_32;
  }

  lemma ModAddCongruent(x: int, y: int)
    requires (x - y) % TWO_32 == 0
    ensures U32(x) == U32(y)
  {
    var k := (x - y) / TWO_32;
    assert x == y + k * TWO_32;
    ModMultiple(y, k);
  }

  lemma {:induction false} ModMultiple(y: int, k: int)
    ensures (y + k * TWO_32) % TWO_32 == y % TWO_32
    decreases if k < 0 then -k else k
  {
    if k > 0 {
      ModMultiple(y, k - 1);
      assert y + k * TWO_32 == (y + (k - 1) * TWO_32) + TWO_32;
    } else if k < 0 {
      ModMultiple(y, k + 1);
      assert y + k * TWO_32 == (y + (k + 1) * TWO_32) - TWO_32;
    }
  }

  /** `Flush`: rewrite the header at the start of the file when the writer
      can seek there; always reports success. */
  function Flush(m: Muxer): (r: (Muxer, bool))
    requires Valid(m.out) && WellFormed(m.header)
    ensures r.1
    ensures r.0.header == m.header
    ensures Valid(r.0.out) && r.0.out.name == m.out.name && r.0.out.sink.open == m.out.sink.open
    ensures !SeekToStart(m.out).1 ==> r.0.out == SeekToStart(m.out).0
    ensures SeekToStart(m.out).1 && HEADER_SIZE <= m.out.sink.limit ==>
      Effective(r.0.out) == Put(Effective(m.out), 0, Serialize(m.header)) && Cursor(r.0.out) == HEADER_SIZE
  {
    var (w1, ok) := SeekToStart(m.out);
    if ok then
      var (w2, _) := WriteHeader(w1, m.header);
      if HEADER_SIZE <= m.out.sink.limit then
        HeaderOverStart(m.out, w1, w2, m.header);
        (Muxer(m.header, w2), true)
      else (Muxer(m.header, w2), true)
    else (Muxer(m.header, w1), true)
  }

  /** After the seek, the header written from offset 0 lies over the start
      of the file as it stood. */
  lemma HeaderOverStart(w: Writer, w1: Writer, w2: Writer, h: Header)
    requires Valid(w) && Valid(w1) && WellFormed(h) && HEADER_SIZE <= w.sink.limit
    requires w1.buffer == [] && Cursor(w1) == 0 && w1.sink.data == Effective(w)
    requires w1.sink.open && w1.sink.limit == w.sink.limit
    requires w2 == WriteHeader(w1, h).0
    ensures Effective(w2) == Put(Effective(w), 0, Serialize(h)) && Cursor(w2) == HEADER_SIZE
  {
    PutEmpty(w1.sink.data, 0);
    var e := Effective(w);
    assert Effective(w1) == e;
    assert HasRoom(w1, HEADER_SIZE);
    assert Appends(w1, w2, Serialize(h));
    assert Effective(w2) == Put(e, 0, Serialize(h));
  }

  // ---------------------------------------------------------------------
  // A whole stream

  /** Writes each block of samples in turn with `Set`, as `Output` does for
      every frame. */
  function SetAll(m: Muxer, blocks: seq<seq<i16>>): (r: Muxer)
    requires Valid(m.out)
    ensures Valid(r.out) && r.out.name == m.out.name && r.out.sink.open == m.out.sink.open
    ensures r.out.sink.limit == m.out.sink.limit
    ensures WellFormed(m.header) ==> WellFormed(r.header)
    decreases |blocks|
  {
    if |blocks| == 0 then m
    else SetAll(Set(m, blocks[0], 2 * |blocks[0]|).0, blocks[1..])
  }

  function AllSampleBytes(blocks: seq<seq<i16>>): (r: seq<byte>)
  {
    if |blocks| == 0 then [] else SampleBytes(blocks[0]) + AllSampleBytes(blocks[1..])
  }

  lemma {:induction false} SetAllAppends(m: Muxer, blocks: seq<seq<i16>>)
    requires Valid(m.out) && HasRoom(m.out, |AllSampleBytes(blocks)|)
    ensures Appends(m.out, SetAll(m, blocks).out, AllSampleBytes(blocks))
    decreases |blocks|
  {
    if |blocks| == 0 {
      PutEmpty(Effective(m.out), Cursor(m.out));
    } else {
      var len := 2 * |blocks[0]|;
      assert blocks[0][..len / 2] == blocks[0];
      var m1 := Set(m, blocks[0], len).0;
      SetAllAppends(m1, blocks[1..]);
      AppendsChain(m.out, m1.out, SetAll(m1, blocks[1..]).out, SampleBytes(blocks[0]), AllSampleBytes(blocks[1..]));
    }
  }

  /** Both length fields grow by the number of sample bytes written, and
      the rest of the header is untouched. */
  lemma {:induction false} SetAllHeader(m: Muxer, blocks: seq<seq<i16>>)
    requires Valid(m.out)
    ensures SetAll(m, blocks).header == Grown(m.header, |AllSampleBytes(blocks)|)
    decreases |blocks|
  {
    if |blocks| == 0 {
      assert SetAll(m, blocks) == m;
      GrownZero(m.header);
    } else {
      var m1, len, rest := SetAllFirst(m, blocks);
      SetAllHeader(m1, blocks[1..]);
      GrownTwice(m.header, len, rest);
    }
  }

  /** The muxer after the first block, through which the rest runs. */
  lemma SetAllFirst(m: Muxer, blocks: seq<seq<i16>>) returns (m1: Muxer, len: int, rest: int)
    requires Valid(m.out) && |blocks| > 0
    ensures Valid(m1.out) && m1.header == Grown(m.header, len)
    ensures SetAll(m, blocks) == SetAll(m1, blocks[1..]) && rest == |AllSampleBytes(blocks[1..])|
    ensures len + rest == |AllSampleBytes(blocks)|
  {
    len := 2 * |blocks[0]|;
    rest := |AllSampleBytes(blocks[1..])|;
    m1 := Set(m, blocks[0], len).0;
  }

  lemma GrownZero(h: Header)
    ensures Grown(h, 0) == h
  {
  }

  /** From an empty data chunk, growing by `n` bytes records `n` (mod
      2^32) and keeps the two lengths in agreement. */
  lemma FreshLengths(h: Header, n: nat)
    requires h.dataLength == 0 && h.riffLength == RIFF_HEADER_REST
    ensures Grown(h, n).dataLength == U32(n) && LengthsAgree(Grown(h, n))
  {
    U32Add(n, RIFF_HEADER_REST);
  }

  /** A buffer that fits on the device flushes completely. */
  lemma FlushFits(w: Writer)
    requires Valid(w) && HasRoom(w, 0)
    ensures BufferedWriter.Flush(w).1
  {
  }

  lemma PutOverPrefix(a: seq<byte>, b: seq<byte>, rest: seq<byte>)
    requires |a| == |b|
    ensures Put(a + rest, 0, b) == b + rest
  {
    assert (a + rest)[|b|..] == rest;
  }

  /** Initialise on a freshly created file: the header is the whole file so
      far. */
  lemma InitialiseFresh(name: string, limit: nat, garbage: Header, channels: i16, frequency: int, stdout: Sink)
    requires name != STDOUT_NAME && SinkValid(stdout) && HEADER_SIZE <= limit
    ensures var r := Initialise(NewMuxer(Create(name, stdout, true, limit), garbage), channels, frequency);
      r.1 && r.0.out.name == name && r.0.out.sink.open && r.0.out.sink.limit == limit
      && r.0.header == SetInfo(garbage, channels, frequency, 2)
      && Effective(r.0.out) == Serialize(r.0.header) && Cursor(r.0.out) == HEADER_SIZE
  {
    var w := FreshFile(name, stdout, limit);
    var m0 := NewMuxer(w, garbage);
    var r := Initialise(m0, channels, frequency);
    var h := SetInfo(garbage, channels, frequency, 2);
    SetInfoOverwritesAll(garbage, m0.header, channels, frequency, 2);
    assert r.0.header == h;
    assert Appends(w, r.0.out, Serialize(h));
    PutIntoEmpty(Serialize(h));
  }

  /** A newly created file is empty and open, with room up to its limit. */
  lemma FreshFile(name: string, stdout: Sink, limit: nat) returns (w: Writer)
    requires name != STDOUT_NAME && SinkValid(stdout)
    ensures w == Create(name, stdout, true, limit)
    ensures Valid(w) && Effective(w) == [] && Cursor(w) == 0 && IsOpen(w)
    ensures w.name == name && w.sink.limit == limit
  {
    w := Create(name, stdout, true, limit);
    PutEmpty([], 0);
  }

  lemma PutIntoEmpty(b: seq<byte>)
    ensures Put([], 0, b) == b
  {
  }

  /** A WAV file written from start to finish on a device with room for it:
      Initialise, one Set per block of samples, Flush and the writer's
      destructor leave exactly the final header followed by every sample,
      and the header's data length counts the sample bytes. */
  lemma WholeFile(name: string, limit: nat, garbage: Header, channels: i16, frequency: int,
                  blocks: seq<seq<i16>>, stdout: Sink)
    requires name != STDOUT_NAME && SinkValid(stdout)
    requires HEADER_SIZE + |AllSampleBytes(blocks)| <= limit
    ensures var w := Create(name, stdout, true, limit);
      var (m1, ok) := Initialise(NewMuxer(w, garbage), channels, frequency);
      var m2 := SetAll(m1, blocks);
      ok && WellFormed(m2.header)
      && m2.header.dataLength == U32(|AllSampleBytes(blocks)|)
      && LengthsAgree(m2.header)
      && var m3 := Flush(m2).0;
      BufferedWriter.Flush(m3.out).1
      && Destroy(m3.out).data == Serialize(m2.header) + AllSampleBytes(blocks)
  {
    var w := Create(name, stdout, true, limit);
    var (m1, ok) := Initialise(NewMuxer(w, garbage), channels, frequency);
    InitialiseFresh(name, limit, garbage, channels, frequency, stdout);
    var s := AllSampleBytes(blocks);
    SetAllAppends(m1, blocks);
    SetAllHeader(m1, blocks);
    var m2 := SetAll(m1, blocks);
    assert m1.header.dataLength == 0 && LengthsAgree(m1.header);
    FreshLengths(m1.header, |s|);
    assert Effective(m2.out) == Serialize(m1.header) + s by {
      assert Effective(m2.out) == Put(Serialize(m1.header), HEADER_SIZE, s);
    }
    assert WellFormed(m2.header);
    FlushFits(m2.out);
    assert SeekToStart(m2.out).1;
    var m3 := Flush(m2).0;
    PutOverPrefix(Serialize(m1.header), Serialize(m2.header), s);
    assert Effective(m3.out) == Serialize(m2.header) + s;
    FlushFits(m3.out);
  }
}

=== FILE: yuv_extractor.dfy ===
/** The YUV4MPEG2 muxer: a one-line stream header, then for every frame the
    word FRAME and the three planes Y, Cb, Cr. Three extractors fill the
    planes: the plain 4:2:0 repack of the decoder's packed 4:2:2 output, a
    "crufty" RGB to YCbCr conversion that doubles every even line, and a
    4:1:1 repack for NTSC material. */
module YuvExtractor {
  import opened Common
  import opened BufferedWriter
  import opened DvPicture

  // ---------------------------------------------------------------------
  // Stream header

  /** The pixel aspect ratio tag, keyed on a 576-line (PAL) picture and
      the wide-screen flag. */
  function AspectTag(height: int, wide: bool): (tag: string)
    ensures |tag| > 1 && tag[0] == ' ' && ' ' !in tag[1..]
  {
    if height == 576 then (if wide then " A118:81" else " A59:54")
    else (if wide then " A40:33" else " A10:11")
  }

  /** The tag tells the picture system and the wide-screen flag apart. */
  lemma AspectTagInjective(h1: int, w1: bool, h2: int, w2: bool)
    requires AspectTag(h1, w1) == AspectTag(h2, w2)
    ensures (h1 == 576 <==> h2 == 576) && w1 == w2
  {
    var t1, t2 := AspectTag(h1, w1), AspectTag(h2, w2);
    assert t1[2] == t2[2] && |t1| == |t2|;
  }

  function FrameRate420(height: int): string
  {
    if height == 576 then "25:1" else "30000:1001"
  }

  function Chroma420(height: int): string
  {
    if height == 576 then "C420paldv" else "C420mpeg2"
  }

  /** The words of "YUV4MPEG2 W%d H%d F%s Ib%s %s\n" as the 4:2:0
      extractors print it. The aspect tag carries its own leading blank,
      so "Ib" and the tag are separate words. */
  function Words420(w: nat, h: nat, wide: bool): (t: seq<string>)
    ensures |t| == 7
  {
    ["YUV4MPEG2", "W" + IntToString(w), "H" + IntToString(h), "F" + FrameRate420(h),
     "Ib", AspectTag(h, wide)[1..], Chroma420(h)]
  }

  /** The words of "YUV4MPEG2 W%d H%d F30000:1001 Ib%s C411\n": the 4:1:1
      extractor is for NTSC only and always names the NTSC rate. */
  function Words411(w: nat, h: nat, wide: bool): (t: seq<string>)
    ensures |t| == 7
  {
    ["YUV4MPEG2", "W" + IntToString(w), "H" + IntToString(h), "F30000:1001",
     "Ib", AspectTag(h, wide)[1..], "C411"]
  }

  /** A header line: the words separated by single blanks, then a newline. */
  function HeaderLine(words: seq<string>): string
  {
    Join(words, ' ') + "\n"
  }

  function Header420(w: nat, h: nat, wide: bool): string
  {
    HeaderLine(Words420(w, h, wide))
  }

  function Header411(w: nat, h: nat, wide: bool): string
  {
    HeaderLine(Words411(w, h, wide))
  }

  /** The fields a reader takes from a stream header. */
  datatype StreamHeader = StreamHeader(width: nat, height: nat, rate: string, aspect: string, chroma: string)

  predicate AllDigits(s: string)
  {
    forall i :: 0 <= i < |s| ==> IsDigit(s[i])
  }

  /** A numeric field: its letter followed by decimal digits. */
  function ParseField(t: string, letter: char): (r: Option<nat>)
  {
    if |t| >= 2 && t[0] == letter && AllDigits(t[1..]) then Some(ParseNat(t[1..])) else None
  }

  /** Reads a header line back: seven blank-separated words ending in a
      newline, the fourth naming the rate and the fifth the word "Ib". */
  function ParseHeader(s: string): (r: Option<StreamHeader>)
    ensures r.Some? ==> |s| > 0 && s[|s| - 1] == '\n'
  {
    if |s| == 0 || s[|s| - 1] != '\n' then None
    else
      var t := Split(s[..|s| - 1], ' ');
      if |t| != 7 || t[0] != "YUV4MPEG2" || t[4] != "Ib" || |t[3]| == 0 || t[3][0] != 'F' then None
      else
        match (ParseField(t[1], 'W'), ParseField(t[2], 'H'))
        case (Some(w), Some(h)) => Some(StreamHeader(w, h, t[3][1..], t[5], t[6]))
        case _ => None
  }

  lemma NumberField(letter: char, n: nat)
    ensures ParseField([letter] + IntToString(n), letter) == Some(n)
    ensures ' ' !in [letter] + IntToString(n) || letter == ' '
  {
    var t := [letter] + IntToString(n);
    assert t[1..] == NatToString(n);
    ParseNatToString(n);
  }

  /** Seven words joined by blanks take their lengths and six blanks. */
  lemma Join7Length(t: seq<string>)
    requires |t| == 7
    ensures |Join(t, ' ')| == |t[0]| + |t[1]| + |t[2]| + |t[3]| + |t[4]| + |t[5]| + |t[6]| + 6
  {
    assert |Join(t[6..], ' ')| == |t[6]|;
    assert |Join(t[5..], ' ')| == |t[5]| + 1 + |Join(t[6..], ' ')| by { assert t[5..][1..] == t[6..]; }
    assert |Join(t[4..], ' ')| == |t[4]| + 1 + |Join(t[5..], ' ')| by { assert t[4..][1..] == t[5..]; }
    assert |Join(t[3..], ' ')| == |t[3]| + 1 + |Join(t[4..], ' ')| by { assert t[3..][1..] == t[4..]; }
    assert |Join(t[2..], ' ')| == |t[2]| + 1 + |Join(t[3..], ' ')| by { assert t[2..][1..] == t[3..]; }
    assert |Join(t[1..], ' ')| == |t[1]| + 1 + |Join(t[2..], ' ')| by { assert t[1..][1..] == t[2..]; }
  }

  /** Any header built from seven blank-free words reads back word for word. */
  lemma ParseWords(t: seq<string>, w: nat, h: nat)
    requires |t| == 7 && forall i :: 0 <= i < 7 ==> ' ' !in t[i]
    requires t[0] == "YUV4MPEG2" && t[4] == "Ib" && |t[3]| > 0 && t[3][0] == 'F'
    requires t[1] == "W" + IntToString(w) && t[2] == "H" + IntToString(h)
    ensures ParseHeader(Join(t, ' ') + "\n") == Some(StreamHeader(w, h, t[3][1..], t[5], t[6]))
  {
    var s := Join(t, ' ') + "\n";
    assert s[..|s| - 1] == Join(t, ' ');
    SplitJoin(t, ' ');
    NumberField('W', w);
    NumberField('H', h);
  }

  lemma WordsHaveNoBlank(w: nat, h: nat, wide: bool)
    ensures forall i :: 0 <= i < 7 ==> ' ' !in Words420(w, h, wide)[i] && ' ' !in Words411(w, h, wide)[i]
  {
    Words420HaveNoBlank(w, h, wide);
    Words411HaveNoBlank(w, h, wide);
  }

  lemma Words420HaveNoBlank(w: nat, h: nat, wide: bool)
    ensures forall i :: 0 <= i < 7 ==> ' ' !in Words420(w, h, wide)[i]
  {
    var a := Words420(w, h, wide);
    assert ' ' !in a[0] && ' ' !in a[4] by {
      FixedWordsHaveNoBlank();
    }
    assert ' ' !in a[1] by {
      NumberField('W', w);
      assert a[1] == ['W'] + IntToString(w);
    }
    assert ' ' !in a[2] by {
      NumberField('H', h);
      assert a[2] == ['H'] + IntToString(h);
    }
    assert ' ' !in a[3] by {
      FixedWordsHaveNoBlank();
      NoBlankAppend("F", FrameRate420(h));
    }
    assert ' ' !in a[6] by {
      FixedWordsHaveNoBlank();
    }
    SevenWords(a);
  }

  lemma SevenWords(t: seq<string>)
    requires |t| == 7 && ' ' !in t[0] && ' ' !in t[1] && ' ' !in t[2] && ' ' !in t[3]
    requires ' ' !in t[4] && ' ' !in t[5] && ' ' !in t[6]
    ensures forall i :: 0 <= i < 7 ==> ' ' !in t[i]
  {
  }

  lemma Words411HaveNoBlank(w: nat, h: nat, wide: bool)
    ensures forall i :: 0 <= i < 7 ==> ' ' !in Words411(w, h, wide)[i]
  {
    var b := Words411(w, h, wide);
    assert ' ' !in b[0] && ' ' !in b[3] && ' ' !in b[4] && ' ' !in b[6] by {
      FixedWordsHaveNoBlank();
    }
    assert ' ' !in b[1] by {
      NumberField('W', w);
      assert b[1] == ['W'] + IntToString(w);
    }
    assert ' ' !in b[2] by {
      NumberField('H', h);
      assert b[2] == ['H'] + IntToString(h);
    }
    SevenWords(b);
  }

  lemma FixedWordsHaveNoBlank()
    ensures ' ' !in "YUV4MPEG2" && ' ' !in "Ib" && ' ' !in "C411"
    ensures ' ' !in "F" && ' ' !in "25:1" && ' ' !in "30000:1001" && ' ' !in "F30000:1001"
    ensures ' ' !in "C420paldv" && ' ' !in "C420mpeg2"
  {
    NoBlankAt("YUV4MPEG2");
    NoBlankAt("30000:1001");
    NoBlankAt("F30000:1001");
    NoBlankAt("C420paldv");
    NoBlankAt("C420mpeg2");
  }

  lemma NoBlankAppend(a: string, b: string)
    requires ' ' !in a && ' ' !in b
    ensures ' ' !in a + b
  {
  }

  lemma NoBlankAt(s: string)
    requires forall i :: 0 <= i < |s| ==> s[i] != ' '
    ensures ' ' !in s
  {
  }

  /** The 4:2:0 header reads back as the geometry, rate, aspect and chroma
      it was printed from. */
  lemma Header420RoundTrip(w: nat, h: nat, wide: bool)
    ensures ParseHeader(Header420(w, h, wide))
         == Some(StreamHeader(w, h, FrameRate420(h), AspectTag(h, wide)[1..], Chroma420(h)))
  {
    var t := Words420(w, h, wide);
    WordsHaveNoBlank(w, h, wide);
    assert t[3][1..] == FrameRate420(h);
    ParseWords(t, w, h);
  }

  /** The 4:1:1 header reads back with the NTSC rate and the C411 chroma
      whatever the picture height. */
  lemma Header411RoundTrip(w: nat, h: nat, wide: bool)
    ensures ParseHeader(Header411(w, h, wide))
         == Some(StreamHeader(w, h, "30000:1001", AspectTag(h, wide)[1..], "C411"))
  {
    var t := Words411(w, h, wide);
    WordsHaveNoBlank(w, h, wide);
    ParseWords(t, w, h);
  }

  lemma PrintedSizes()
    ensures IntToString(720) == "720" && IntToString(576) == "576" && IntToString(480) == "480"
  {
    assert NatToString(7) == "7" && NatToString(5) == "5" && NatToString(4) == "4";
    assert NatToString(72) == "72" && NatToString(57) == "57" && NatToString(48) == "48";
  }

  /** The words of a wide PAL picture's header line. */
  lemma PalWords()
    ensures Words420(720, 576, true) == ["YUV4MPEG2", "W720", "H576", "F25:1", "Ib", "A118:81", "C420paldv"]
  {
    PrintedSizes();
    assert AspectTag(576, true)[1..] == "A118:81";
    assert "W" + IntToString(720) == "W720" && "H" + IntToString(576) == "H576";
    assert "F" + FrameRate420(576) == "F25:1";
  }

  /** The words the 4:1:1 extractor prints for a 4:3 NTSC picture. */
  lemma NtscWords()
    ensures Words411(720, 480, false) == ["YUV4MPEG2", "W720", "H480", "F30000:1001", "Ib", "A10:11", "C411"]
  {
    PrintedSizes();
    assert AspectTag(480, false)[1..] == "A10:11";
    assert "W" + IntToString(720) == "W720" && "H" + IntToString(480) == "H480";
  }

  // ---------------------------------------------------------------------
  // The 4:1:1 repack

  /** One packed line of w/4 eight-byte groups Y U Y V Y U Y V: every Y is
      kept, the first U and V of each group are kept and the second pair
      is skipped. */
  method Line411(line: seq<byte>, w4: nat) returns (y: seq<byte>, cb: seq<byte>, cr: seq<byte>)
    requires |line| == 8 * w4
    ensures |y| == 4 * w4 && |cb| == w4 && |cr| == w4
    ensures forall c :: 0 <= c < 4 * w4 ==> y[c] == line[2 * c]
    ensures forall j :: 0 <= j < w4 ==> cb[j] == line[8 * j + 1] && cr[j] == line[8 * j + 3]
  {
    y, cb, cr := [], [], [];
    var j := 0;
    while j < w4
      invariant 0 <= j <= w4
      invariant |y| == 4 * j && |cb| == j && |cr| == j
      invariant forall c :: 0 <= c < 4 * j ==> y[c] == line[2 * c]
      invariant forall k :: 0 <= k < j ==> cb[k] == line[8 * k + 1] && cr[k] == line[8 * k + 3]
    {
      y := y + [line[8 * j], line[8 * j + 2], line[8 * j + 4], line[8 * j + 6]];
      cb := cb + [line[8 * j + 1]];
      cr := cr + [line[8 * j + 3]];
      j := j + 1;
    }
  }

  /** The 4:1:1 extractor: every line keeps its w luma bytes and
      contributes w/4 bytes to each chroma plane, so each chroma plane is
      h lines of w/4 bytes. */
  method Extract411(packed: Image, w: nat, h: nat) returns (planes: Planes)
    requires w % 4 == 0 && Rectangular(packed, h, 2 * w)
    ensures Rectangular(planes.y, h, w)
    ensures Rectangular(planes.cb, h, w / 4) && Rectangular(planes.cr, h, w / 4)
    ensures forall r, c :: 0 <= r < h && 0 <= c < w ==> planes.y[r][c] == packed[r][2 * c]
    ensures forall r, j :: 0 <= r < h && 0 <= j < w / 4 ==> planes.cb[r][j] == packed[r][8 * j + 1]
    ensures forall r, j :: 0 <= r < h && 0 <= j < w / 4 ==> planes.cr[r][j] == packed[r][8 * j + 3]
  {
    var w4 := w / 4;
    var ys: Image := [];
    var cbs: Image := [];
    var crs: Image := [];
    var i := 0;
    while i < h
      invariant 0 <= i <= h
      invariant |ys| == i && |cbs| == i && |crs| == i
      invariant forall r :: 0 <= r < i ==> |ys[r]| == w && |cbs[r]| == w4 && |crs[r]| == w4
      invariant forall r, c :: 0 <= r < i && 0 <= c < w ==> ys[r][c] == packed[r][2 * c]
      invariant forall r, j :: 0 <= r < i && 0 <= j < w4 ==> cbs[r][j] == packed[r][8 * j + 1]
      invariant forall r, j :: 0 <= r < i && 0 <= j < w4 ==> crs[r][j] == packed[r][8 * j + 3]
    {
      var y, cb, cr := Line411(packed[i], w4);
      ys := ys + [y];
      cbs := cbs + [cb];
      crs := crs + [cr];
      i := i + 1;
    }
    planes := Planes(ys, cbs, crs);
  }

  /** The 4:1:1 planes hold w*h luma bytes and w*h/4 bytes of each chroma
      component, the sizes the frame writer sends. */
  lemma Planes411Sizes(planes: Planes, w: nat, h: nat)
    requires w % 4 == 0
    requires Rectangular(planes.y, h, w)
    requires Rectangular(planes.cb, h, w / 4) && Rectangular(planes.cr, h, w / 4)
    ensures |Flatten(planes.y)| == w * h
    ensures |Flatten(planes.cb)| == w * h / 4 && |Flatten(planes.cr)| == w * h / 4
  {
    FlattenLength(planes.y, w);
    FlattenLength(planes.cb, w / 4);
    FlattenLength(planes.cr, w / 4);
    var q := w / 4;
    assert w * h == 4 * (q * h);
  }

  // ---------------------------------------------------------------------
  // The crufty RGB to YCbCr conversion

  /** The fixed-point weights, each FIX(x) = (int)(x * 256 + 0.5) of the
      BT.601 coefficient named. */
  const FIX_R_Y: int := 77    // 0.29900
  const FIX_G_Y: int := 150   // 0.58700
  const FIX_B_Y: int := 29    // 0.11400
  const FIX_R_CB: int := 43   // 0.16874
  const FIX_G_CB: int := 85   // 0.33126
  const FIX_HALF: int := 128  // 0.50000
  const FIX_G_CR: int := 107  // 0.41869
  const FIX_B_CR: int := 21   // 0.08131
  const ONE_HALF: int := 128

  /** Luma of one pixel, rounded: (77r + 150g + 29b + 128) >> 8. */
  function Luma(r: byte, g: byte, b: byte): (v: int)
    ensures 0 <= v < 256
    ensures 256 * v <= FIX_R_Y * r + FIX_G_Y * g + FIX_B_Y * b + ONE_HALF < 256 * v + 256
  {
    (FIX_R_Y * r + FIX_G_Y * g + FIX_B_Y * b + ONE_HALF) / 256
  }

  /** The weights sum to 256, so grey stays grey. */
  lemma LumaOfGrey(v: byte)
    ensures Luma(v, v, v) == v
  {
  }

  /** Cb of a horizontal pixel pair from the sums of its two pixels'
      components, before it is stored: an arithmetic shift by 9 plus 128. */
  function CbRaw(r1: int, g1: int, b1: int): int
  {
    (-FIX_R_CB * r1 - FIX_G_CB * g1 + FIX_HALF * b1 + 4 * ONE_HALF - 1) / 512 + 128
  }

  function CrRaw(r1: int, g1: int, b1: int): int
  {
    (FIX_HALF * r1 - FIX_G_CR * g1 - FIX_B_CR * b1 + 4 * ONE_HALF - 1) / 512 + 128
  }

  /** For every pair of pixels the raw chroma lies in 1..256: one past the
      byte range at the top. */
  lemma ChromaRawRange(r1: int, g1: int, b1: int)
    requires 0 <= r1 <= 510 && 0 <= g1 <= 510 && 0 <= b1 <= 510
    ensures 1 <= CbRaw(r1, g1, b1) <= 256
    ensures 1 <= CrRaw(r1, g1, b1) <= 256
  {
  }

  /** What the store into a `uint8_t` keeps. */
  function StoredChroma(raw: int): byte
  {
    LowByte(raw)
  }

  /** The intended store: saturate at the top of the byte range. */
  function ClampChroma(raw: int): (v: byte)
    requires 1 <= raw <= 256
    ensures raw <= 255 ==> v == raw
    ensures raw == 256 ==> v == 255
  {
    if raw > 255 then 255 else raw
  }

  /** Two saturated blue pixels: Cb evaluates to 256 and is stored as 0,
      the value for the opposite end of the blue axis. */
  lemma SaturatedBlueWraps()
    ensures CbRaw(0, 0, 510) == 256 && StoredChroma(CbRaw(0, 0, 510)) == 0
    ensures CrRaw(510, 0, 0) == 256 && StoredChroma(CrRaw(510, 0, 0)) == 0
  {
  }

  /** The clamped store agrees with the truncating one on every value
      but the overflowing one, and never moves a chroma value to the other
      end of the range. */
  lemma ClampedChromaFaithful(raw: int)
    requires 1 <= raw <= 256
    ensures raw <= 255 ==> ClampChroma(raw) == StoredChroma(raw)
    ensures ClampChroma(raw) >= 128 <==> raw >= 128
  {
  }

  /** Component `k` (0 red, 1 green, 2 blue) of pixel `c` of an RGB line. */
  function Px(line: seq<byte>, c: nat, k: nat): byte
    requires 3 * c + k < |line|
  {
    line[3 * c + k]
  }

  function PairCb(line: seq<byte>, j: nat): int
    requires 6 * j + 5 < |line|
  {
    CbRaw(Px(line, 2 * j, 0) + Px(line, 2 * j + 1, 0), Px(line, 2 * j, 1) + Px(line, 2 * j + 1, 1),
          Px(line, 2 * j, 2) + Px(line, 2 * j + 1, 2))
  }

  function PairCr(line: seq<byte>, j: nat): int
    requires 6 * j + 5 < |line|
  {
    CrRaw(Px(line, 2 * j, 0) + Px(line, 2 * j + 1, 0), Px(line, 2 * j, 1) + Px(line, 2 * j + 1, 1),
          Px(line, 2 * j, 2) + Px(line, 2 * j + 1, 2))
  }

  /** One even RGB line: the luma of every pixel, and one Cb and one Cr for
      every horizontal pair, stored as bytes. */
  method CruftyLine(line: seq<byte>, w2: nat) returns (y: seq<byte>, cb: seq<byte>, cr: seq<byte>)
    requires |line| == 6 * w2
    ensures |y| == 2 * w2 && |cb| == w2 && |cr| == w2
    ensures forall c :: 0 <= c < 2 * w2 ==> y[c] == Luma(Px(line, c, 0), Px(line, c, 1), Px(line, c, 2))
    ensures forall j :: 0 <= j < w2 ==> cb[j] == StoredChroma(PairCb(line, j)) && cr[j] == StoredChroma(PairCr(line, j))
  {
    y, cb, cr := [], [], [];
    var j := 0;
    while j < w2
      invariant 0 <= j <= w2
      invariant |y| == 2 * j && |cb| == j && |cr| == j
      invariant forall c :: 0 <= c < 2 * j ==> y[c] == Luma(Px(line, c, 0), Px(line, c, 1), Px(line, c, 2))
      invariant forall k :: 0 <= k < j ==> cb[k] == StoredChroma(PairCb(line, k)) && cr[k] == StoredChroma(PairCr(line, k))
    {
      var l0 := Luma(Px(line, 2 * j, 0), Px(line, 2 * j, 1), Px(line, 2 * j, 2));
      var l1 := Luma(Px(line, 2 * j + 1, 0), Px(line, 2 * j + 1, 1), Px(line, 2 * j + 1, 2));
      y := y + [l0, l1];
      cb := cb + [StoredChroma(PairCb(line, j))];
      cr := cr + [StoredChroma(PairCr(line, j))];
      j := j + 1;
    }
  }

  /** The crufty extractor over an RGB picture of h lines of 3w bytes: each
      even line's luma fills that line and the next, odd RGB lines are not
      read, and each pixel pair of an even line gives one Cb and one Cr. */
  method CruftyExtract(rgb: Image, w: nat, h: nat) returns (planes: Planes)
    requires w % 2 == 0 && h % 2 == 0 && Rectangular(rgb, h, 3 * w)
    ensures Rectangular(planes.y, h, w)
    ensures Rectangular(planes.cb, h / 2, w / 2) && Rectangular(planes.cr, h / 2, w / 2)
    ensures forall q, c :: 0 <= q < h / 2 && 0 <= c < w ==>
      planes.y[2 * q][c] == planes.y[2 * q + 1][c] == Luma(Px(rgb[2 * q], c, 0), Px(rgb[2 * q], c, 1), Px(rgb[2 * q], c, 2))
    ensures forall q, j :: 0 <= q < h / 2 && 0 <= j < w / 2 ==>
      planes.cb[q][j] == StoredChroma(PairCb(rgb[2 * q], j)) && planes.cr[q][j] == StoredChroma(PairCr(rgb[2 * q], j))
  {
    var w2 := w / 2;
    var ys: Image := [];
    var cbs: Image := [];
    var crs: Image := [];
    var i := 0;
    while i < h
      invariant 0 <= i <= h && i % 2 == 0
      invariant |ys| == i && |cbs| == i / 2 && |crs| == i / 2
      invariant forall r :: 0 <= r < i ==> |ys[r]| == w
      invariant forall q :: 0 <= q < i / 2 ==> |cbs[q]| == w2 && |crs[q]| == w2
      invariant forall q, c :: 0 <= q < i / 2 && 0 <= c < w ==>
        ys[2 * q][c] == ys[2 * q + 1][c] == Luma(Px(rgb[2 * q], c, 0), Px(rgb[2 * q], c, 1), Px(rgb[2 * q], c, 2))
      invariant forall q, j :: 0 <= q < i / 2 && 0 <= j < w2 ==>
        cbs[q][j] == StoredChroma(PairCb(rgb[2 * q], j)) && crs[q][j] == StoredChroma(PairCr(rgb[2 * q], j))
    {
      var y, cb, cr := CruftyLine(rgb[i], w2);
      ys := ys + [y, y];
      cbs := cbs + [cb];
      crs := crs + [cr];
      i := i + 2;
    }
    planes := Planes(ys, cbs, crs);
  }

  /** The crufty extractor decodes RGB into the input buffer sized for a
      packed 4:2:2 PAL picture, two bytes per pixel. */
  const INPUT_BYTES: int := 720 * 576 * 2

  /** An RGB picture needs three bytes per pixel. */
  function RgbBytes(w: nat, h: nat): (n: nat)
    ensures n == 3 * (w * h)
  {
    3 * w * h
  }

  /** A PAL picture's RGB does not fit the buffer. */
  lemma PalRgbOverflowsInput()
    ensures RgbBytes(720, 576) > INPUT_BYTES
    ensures RgbBytes(720, 576) - INPUT_BYTES == 720 * 576
  {
  }

  /** The buffer size an RGB picture needs. */
  const RGB_INPUT_BYTES: int := 720 * 576 * 3

  /** Every DV picture, up to 720x576, fits a buffer of that size. */
  lemma RgbFitsCorrectedInput(w: nat, h: nat)
    requires w <= 720 && h <= 576
    ensures RgbBytes(w, h) <= RGB_INPUT_BYTES
  {
    assert w * h <= 720 * h <= 720 * 576 by {
      assert w * h <= 720 * h;
    }
  }

  // ---------------------------------------------------------------------
  // The extractors and the frame record

  datatype ExtractorKind = Plain420 | Crufty420 | Yuv411

  /** `GetExtractor`: 1 selects the crufty extractor, 2 the 4:1:1 one, and
      every other value (0 included) the plain 4:2:0 one. */
  function GetExtractor(deinterlaceType: int): (k: ExtractorKind)
    ensures k == Crufty420 <==> deinterlaceType == 1
    ensures k == Yuv411 <==> deinterlaceType == 2
    ensures k == Plain420 <==> deinterlaceType != 1 && deinterlaceType != 2
  {
    match deinterlaceType
    case 1 => Crufty420
    case 2 => Yuv411
    case _ => Plain420
  }

  /** The header line a kind of extractor prints; the crufty one inherits
      the plain one's. */
  function StreamHeaderText(k: ExtractorKind, w: nat, h: nat, wide: bool): (s: string)
    ensures ParseHeader(s).Some? && ParseHeader(s).value.width == w && ParseHeader(s).value.height == h
    ensures ParseHeader(s).value.chroma == "C411" <==> k == Yuv411
    ensures w < INT_LIMIT && h < INT_LIMIT ==> |s| < 100
  {
    Header420RoundTrip(w, h, wide);
    Header411RoundTrip(w, h, wide);
    if w < INT_LIMIT && h < INT_LIMIT then
      HeaderLength(w, h, wide);
      if k == Yuv411 then Header411(w, h, wide) else Header420(w, h, wide)
    else if k == Yuv411 then Header411(w, h, wide) else Header420(w, h, wide)
  }

  /** Whatever deinterlace type is asked for, the stream header names the
      4:1:1 chroma exactly for type 2 and always carries the picture size. */
  lemma SelectedHeader(deinterlaceType: int, w: nat, h: nat, wide: bool)
    ensures var hd := ParseHeader(StreamHeaderText(GetExtractor(deinterlaceType), w, h, wide));
      hd.Some? && hd.value.width == w && hd.value.height == h
      && (hd.value.chroma == "C411" <==> deinterlaceType == 2)
  {
  }

  /** `Initialise`: the header goes through the writer with its write
      result ignored; the call reports success (the buffers' allocation
      cannot fail). */
  function Initialise(k: ExtractorKind, out: Writer, w: nat, h: nat, wide: bool): (r: (Writer, bool))
    requires Valid(out) && w < INT_LIMIT && h < INT_LIMIT
    ensures r.1
    ensures r.0 == WriteBytes(out, Bytes(StreamHeaderText(k, w, h, wide))).0
    ensures var text := Bytes(StreamHeaderText(k, w, h, wide));
      WriteBytes(out, text).1 ==> Effective(r.0) == Put(Effective(out), Cursor(out), text) && Cursor(r.0) == Cursor(out) + |text|
  {
    var text := StreamHeaderText(k, w, h, wide);
    (WriteBytes(out, Bytes(text)).0, true)
  }

  /** Width and height are C `int`s. */
  const INT_LIMIT: int := 0x8000_0000

  /** A number below 10^k prints in at most k digits. */
  lemma {:induction false} DigitCount(n: nat, k: nat, p: nat)
    requires k >= 1 && p == Pow10(k) && n < p
    ensures |NatToString(n)| <= k
    decreases k
  {
    if n >= 10 {
      assert Pow10(1) == 10;
      assert k != 1;
      Pow10Step(k - 1);
      assert n / 10 < Pow10(k - 1);
      DigitCount(n / 10, k - 1, Pow10(k - 1));
    }
  }

  function Pow10(k: nat): (p: nat)
    ensures p >= 1
  {
    if k == 0 then 1 else 10 * Pow10(k - 1)
  }

  lemma Pow10Step(k: nat)
    ensures Pow10(k + 1) == 10 * Pow10(k)
  {
  }

  /** With C-sized numbers a header line is well under 100 characters. */
  lemma HeaderLength(w: nat, h: nat, wide: bool)
    requires w < INT_LIMIT && h < INT_LIMIT
    ensures |Header420(w, h, wide)| < 100 && |Header411(w, h, wide)| < 100
  {
    assert Pow10(10) == 10_000_000_000;
    DigitCount(w, 10, Pow10(10));
    DigitCount(h, 10, Pow10(10));
    Join7Length(Words420(w, h, wide));
    Join7Length(Words411(w, h, wide));
  }

  const FRAME_TAG: seq<byte> := [0x46, 0x52, 0x41, 0x4d, 0x45, 0x0a]

  lemma FrameTagSpellsFrame()
    ensures FRAME_TAG == Bytes("FRAME\n")
  {
  }

  /** The bytes one frame adds to the stream. */
  function FrameRecord(y: seq<byte>, cb: seq<byte>, cr: seq<byte>, n: nat): seq<byte>
    requires n <= |y| && n / 4 <= |cb| && n / 4 <= |cr|
  {
    FRAME_TAG + y[..n] + cb[..n / 4] + cr[..n / 4]
  }

  /** `Output`: "FRAME\n", then w*h bytes of Y and w*h/4 of Cb and of Cr
      from the plane buffers, each a separate write; the first failure
      ends the frame. */
  function OutputFrame(out: Writer, y: seq<byte>, cb: seq<byte>, cr: seq<byte>, w: nat, h: nat): (r: (Writer, bool))
    requires Valid(out) && w * h < TWO_32
    requires w * h <= |y| && w * h / 4 <= |cb| && w * h / 4 <= |cr|
    ensures Valid(r.0) && r.0.name == out.name && r.0.sink.open == out.sink.open && r.0.sink.limit == out.sink.limit
    ensures !WriteBytes(out, FRAME_TAG).1 ==> r == WriteBytes(out, FRAME_TAG)
    ensures r.1 && w * h + CAPACITY < TWO_32 ==>
      Effective(r.0) == Put(Effective(out), Cursor(out), FrameRecord(y, cb, cr, w * h))
      && Cursor(r.0) == Cursor(out) + |FrameRecord(y, cb, cr, w * h)|
  {
    var n := w * h;
    var (w1, ok1) := WriteBytes(out, FRAME_TAG);
    if !ok1 then (w1, false)
    else
      var (w2, ok2) := WriteBytes(w1, y[..n]);
      if !ok2 then (w2, false)
      else
        var (w3, ok3) := WriteBytes(w2, cb[..n / 4]);
        if !ok3 then (w3, false)
        else
          var (w4, ok4) := WriteBytes(w3, cr[..n / 4]);
          if ok4 && n + CAPACITY < TWO_32 then
            FrameRecordInOrder(out, w1, w2, w3, w4, y[..n], cb[..n / 4], cr[..n / 4]);
            (w4, ok4)
          else (w4, ok4)
  }

  lemma FrameRecordInOrder(w0: Writer, w1: Writer, w2: Writer, w3: Writer, w4: Writer,
                           a: seq<byte>, b: seq<byte>, c: seq<byte>)
    requires Valid(w0) && Valid(w1) && Valid(w2) && Valid(w3) && Valid(w4)
    requires Effective(w1) == Put(Effective(w0), Cursor(w0), FRAME_TAG) && Cursor(w1) == Cursor(w0) + 6
    requires Effective(w2) == Put(Effective(w1), Cursor(w1), a) && Cursor(w2) == Cursor(w1) + |a|
    requires Effective(w3) == Put(Effective(w2), Cursor(w2), b) && Cursor(w3) == Cursor(w2) + |b|
    requires Effective(w4) == Put(Effective(w3), Cursor(w3), c) && Cursor(w4) == Cursor(w3) + |c|
    ensures Effective(w4) == Put(Effective(w0), Cursor(w0), FRAME_TAG + a + b + c)
    ensures Cursor(w4) == Cursor(w0) + 6 + |a| + |b| + |c|
  {
    assert Cursor(w0) <= |Effective(w0)| by {
      assert w0.sink.offset <= |w0.sink.data|;
    }
    PutChain(Effective(w0), Cursor(w0), Effective(w1), Effective(w2), Effective(w3), Effective(w4), a, b, c);
  }

  /** Four writes placed one after the other are one write of the four. */
  lemma PutChain(e0: seq<byte>, c0: nat, e1: seq<byte>, e2: seq<byte>, e3: seq<byte>, e4: seq<byte>,
                 a: seq<byte>, b: seq<byte>, c: seq<byte>)
    requires c0 <= |e0|
    requires e1 == Put(e0, c0, FRAME_TAG)
    requires e2 == Put(e1, c0 + 6, a)
    requires e3 == Put(e2, c0 + 6 + |a|, b)
    requires e4 == Put(e3, c0 + 6 + |a| + |b|, c)
    ensures e4 == Put(e0, c0, FRAME_TAG + a + b + c)
  {
    var ab := FRAME_TAG + a;
    var abc := ab + b;
    PutPut(e0, c0, FRAME_TAG, a);
    assert e2 == Put(e0, c0, ab);
    PutPut(e0, c0, ab, b);
    assert e3 == Put(e0, c0, abc);
    PutPut(e0, c0, abc, c);
  }

  /** A DV picture has at most 720 * 576 pixels. */
  lemma PictureArea(w: nat, h: nat)
    requires w <= 720 && h <= 576
    ensures w * h <= 720 * 576
  {
    assert w * h <= 720 * h;
  }

  /** With the descriptor open and room on the device, a frame of a DV
      picture is written whole. */
  lemma FrameFits(out: Writer, y: seq<byte>, cb: seq<byte>, cr: seq<byte>, w: nat, h: nat)
    requires Valid(out) && IsOpen(out) && w <= 720 && h <= 576
    requires w * h <= |y| && w * h / 4 <= |cb| && w * h / 4 <= |cr|
    requires Cursor(out) + 6 + w * h + 2 * (w * h / 4) <= out.sink.limit
    ensures w * h < TWO_32
    ensures OutputFrame(out, y, cb, cr, w, h).1
  {
    PictureArea(w, h);
    var n := w * h;
    var a, b, c := y[..n], cb[..n / 4], cr[..n / 4];
    WriteSucceedsWithRoom(out, FRAME_TAG);
    var w1 := WriteBytes(out, FRAME_TAG).0;
    assert Cursor(w1) == Cursor(out) + 6;
    WriteSucceedsWithRoom(w1, a);
    var w2 := WriteBytes(w1, a).0;
    assert Cursor(w2) == Cursor(w1) + n;
    WriteSucceedsWithRoom(w2, b);
    var w3 := WriteBytes(w2, b).0;
    assert Cursor(w3) == Cursor(w2) + n / 4;
    WriteSucceedsWithRoom(w3, c);
  }

  /** A plain 4:2:0 frame: the repacked planes, flattened, are exactly the
      buffers the frame writer sends. */
  lemma PlainFrameRecord(planes: Planes, w: nat, h: nat)
    requires w % 2 == 0 && h % 2 == 0
    requires Rectangular(planes.y, h, w)
    requires Rectangular(planes.cb, h / 2, w / 2) && Rectangular(planes.cr, h / 2, w / 2)
    ensures var y, cb, cr := Flatten(planes.y), Flatten(planes.cb), Flatten(planes.cr);
      |y| == w * h && |cb| == w * h / 4 && |cr| == w * h / 4
      && FrameRecord(y, cb, cr, w * h) == FRAME_TAG + y + cb + cr
  {
    PlaneSizes(planes, w, h);
    var y, cb, cr := Flatten(planes.y), Flatten(planes.cb), Flatten(planes.cr);
    assert y[..w * h] == y && cb[..w * h / 4] == cb && cr[..w * h / 4] == cr;
  }
}
